=== FILE: README.md ===
# Hopes & Sorrows: the decision rules, in Dafny

Hopes & Sorrows records spoken utterances and transcribes them. It scores
each utterance with two sentiment analysers, an emotion-classification
transformer and a language model, and combines the two results. It then
classifies the utterance into one of five emotion categories:

- hope,
- sorrow,
- transformative,
- ambivalent,
- reflective neutral.

It stores speakers, transcriptions and analyses in a database and shows
every analysed utterance in the browser as a "blob".

This project models the deterministic rules between those I/O steps, as
pure functions over exact reals, strings and sequences. Each rule comes
with the properties its code promises.

| file | module | what it holds |
|---|---|---|
| `wrappers.dfy` | `Wrappers` | `Option` and `Result` (Python's `None` and raised errors) |
| `reals.dfy` | `Reals` | `abs`, `min` and `max` on exact reals |
| `strings.dfy` | `Strings` | the Python string operations the rules rely on: `strip`, `lower`, `split()`, `split(sep)`, `in`, `int()`, `%03d` |
| `categories.dfy` | `Categories` | emotion categories, sentiment labels, hope/sorrow/neutral, analyser types |
| `analyses.dfy` | `Analyses` | the analysis record that the analysers pass around |
| `advanced_classifier.dfy` | `AdvancedClassifier` | `AdvancedHopeSorrowClassifier`: pattern scoring, normalisation, ambivalence, narrative arc, speaker calibration, winner and confidence, the nonsense check |
| `transformer_analyzer.dfy` | `TransformerAnalyzer` | emotion probabilities to score, confidence, label and category |
| `llm_analyzer.dfy` | `LlmAnalyzer` | validation and normalisation of the language model's answer |
| `combined_analyzer.dfy` | `CombinedAnalyzer` | the five combination strategies and the transformer-only fallback |
| `assemblyai.dfy` | `AudioPipeline` | the audio module's nonsense check, fallback result, utterance skip rule and stored analyser type |
| `db_manager.dfy` | `Database` | an in-memory store: session naming, speaker numbering, get-or-create, word counts, session statistics |
| `config.dfy` | `Configuration` | `get`, `get_required`, `set` and the database-URL rewriting |
| `duplicates.dfy` | `DuplicateCleanup` | duplicate detection and the keep-older removal of the cleanup script |
| `web_api.dfy` | `WebApi` | blob assembly in `get_all_blobs`, upload-blob defaults, the upsert of `reanalyze_with_llm` |

The following do not run inside the model. Each becomes an input:

- Regular-expression matching: the classifier receives its pattern hits, each a pattern and a start/end position.
- The neural model: the analyser receives the seven emotion probabilities.
- The language-model call: the analyser receives the parsed JSON answer, or a failure.
- `difflib`'s similarity ratio: an uninterpreted function `Ratio`.
- `uuid4`: the upload receives the uuid text.
- The analyser runs of a reanalysis: one `CombinedResult` per requested id.

The database is a record of four sequences, one per table, in insertion
order. Relationship collections are listed in table order, because the
mapping gives them no `order_by`.

Two behaviours worth knowing:

- `get_database_url` rewrites a sqlite URL that is not already under
  `sqlite:///data/` to `sqlite:///data/databases/<name>`, where the name is
  the text after the last `:///`. When that name itself starts with `data/`,
  the URL is returned unchanged.
- The transformer's `get_sentiment_label` uses upper-inclusive bands, so score
  0.0 is "positive" (`TransformerAnalyzer.ZeroScoreIsPositive`). The combined
  analyser's `_score_to_label` uses lower-inclusive bands at different
  cut-offs, so the same score can be labelled differently by the two.

## Model

| member | source | states |
|---|---|---|
| AdvancedClassifier.DetectPatterns | src/hopes_sorrows/analysis/sentiment/advanced_classifier.py:155-180 | one scored match per hit, in order; its score is the pattern weight times -1 when "not" or "never" lies within 20 characters of the hit, else 1.5 when "very" or "really" does, else 1 |
| AdvancedClassifier.ContextFactorIsNearFactor | src/hopes_sorrows/analysis/sentiment/advanced_classifier.py:166-177 | searching the clipped 20-character window `text[max(0,start-20):end+20]` is the same as asking whether the word occurs at a position inside that window |
| AdvancedClassifier.ContainsInSlice | src/hopes_sorrows/analysis/sentiment/advanced_classifier.py:172-175 | `w in s[a:b]` holds exactly when `w` occurs in `s` at a position from `a` to `b - len(w)` |
| AdvancedClassifier.WindowEnd | src/hopes_sorrows/analysis/sentiment/advanced_classifier.py:167 | the context window never reaches past the end of the text |
| AdvancedClassifier.AccumulateIsSumFor | src/hopes_sorrows/analysis/sentiment/advanced_classifier.py:186-191 | after accumulating the matches, each category holds the sum of the scores of that category's matches |
| AdvancedClassifier.SumForSnoc | src/hopes_sorrows/analysis/sentiment/advanced_classifier.py:186-191 | appending a match adds its score to its own category's sum and to no other |
| AdvancedClassifier.AmbivalentScores | src/hopes_sorrows/analysis/sentiment/advanced_classifier.py:210-211 | the list holds exactly the scores of the ambivalent-category matches |
| AdvancedClassifier.MaxOf | src/hopes_sorrows/analysis/sentiment/advanced_classifier.py:213 | the maximum is one of the values and bounds every value |
| AdvancedClassifier.ApplyAmbivalentLogic | src/hopes_sorrows/analysis/sentiment/advanced_classifier.py:199-217 | only the ambivalent score changes; it gains 1.5 × min(hope, sorrow) when both exceed 0.3, and is doubled exactly when some ambivalent match scores above 0.8 |
| AdvancedClassifier.Normalize | src/hopes_sorrows/analysis/sentiment/advanced_classifier.py:193-195 | dividing by a positive absolute total leaves absolute scores that sum to exactly 1, each score scaled by the same total |
| AdvancedClassifier.AbsOfQuotient | src/hopes_sorrows/analysis/sentiment/advanced_classifier.py:193-195 | dividing by a positive total divides the absolute value by the same total |
| AdvancedClassifier.SumOfQuotients | src/hopes_sorrows/analysis/sentiment/advanced_classifier.py:193-195 | five parts divided by their positive sum add up to 1 |
| AdvancedClassifier.ZeroTotal | src/hopes_sorrows/analysis/sentiment/advanced_classifier.py:193-197 | a zero absolute total means every category score is zero |
| AdvancedClassifier.CalculateCategoryScores | src/hopes_sorrows/analysis/sentiment/advanced_classifier.py:182-197 | the ambivalence-adjusted sums are normalised to absolute total 1 when any is non-zero, and otherwise all scores are 0 |
| AdvancedClassifier.SpeakerCalibration | src/hopes_sorrows/analysis/sentiment/advanced_classifier.py:242-248 | an unseen speaker gets factor 1.0 for every category and is recorded; a known speaker's factors are returned unchanged; no other profile is touched |
| AdvancedClassifier.UpdateSpeakerProfile | src/hopes_sorrows/analysis/sentiment/advanced_classifier.py:525-533 | only the given category's factor of the given speaker is multiplied by 1 + (accuracy − 0.5), starting from 1.0 for a new speaker; every other factor and speaker keeps its value |
| AdvancedClassifier.DetectNarrativeArc | src/hopes_sorrows/analysis/sentiment/advanced_classifier.py:219-240 | the history grows by the current category; over its last five entries the score is 0 below two entries, 0.8 exactly when one is transformative, 0.7 exactly when none is and the window runs from sorrow to hope, else 0 |
| AdvancedClassifier.ArcScoreWindow | src/hopes_sorrows/analysis/sentiment/advanced_classifier.py:227-240 | the score of a history, read over its last five positions: 0 below two entries, 0.8 exactly when a position holds a transformative entry, 0.7 exactly when none does and the window runs from sorrow to hope, and no other value |
| AdvancedClassifier.ArgMax | src/hopes_sorrows/analysis/sentiment/advanced_classifier.py:367-369 | the winner's score is the largest, and every category before it in enumeration order scores strictly less (Python's `max` keeps the first of equals) |
| AdvancedClassifier.SecondHighest | src/hopes_sorrows/analysis/sentiment/advanced_classifier.py:372 | the second entry of the descending sort: the largest score among the other four categories, at most the winner's |
| AdvancedClassifier.RunnerUp | src/hopes_sorrows/analysis/sentiment/advanced_classifier.py:372 | a category other than the winner whose score is the largest of the rest |
| AdvancedClassifier.Confidence | src/hopes_sorrows/analysis/sentiment/advanced_classifier.py:372-379 | the margin-based confidence lies in [0.1, 0.95]; a winning score above 1.0 raises it by at most 0.2 and never above 0.98 |
| AdvancedClassifier.Calibrate | src/hopes_sorrows/analysis/sentiment/advanced_classifier.py:356-359 | each category score is multiplied by the speaker's factor for that category |
| AdvancedClassifier.SentimentDefaults | src/hopes_sorrows/analysis/sentiment/advanced_classifier.py:304-314 | applied to pattern-free scores: sentiment below −0.5 sets sorrow 0.8 and reflective neutral 0.2, above 0.5 hope 0.8 and reflective neutral 0.2, otherwise reflective neutral 1.0; no other category changes |
| AdvancedClassifier.DefaultsFollowSentiment | src/hopes_sorrows/analysis/sentiment/advanced_classifier.py:304-314 | when no pattern scored, the defaults make sorrow win below −0.5, hope above 0.5 and reflective neutral otherwise |
| AdvancedClassifier.KeywordBoosts | src/hopes_sorrows/analysis/sentiment/advanced_classifier.py:316-345 | ambivalent gains 0.8 when the text has "both" with "and"/"&" and a strong word, 0.5 with "both" alone; transformative gains 0.6 exactly on a transformative word; reflective neutral gains 0.7 on "questioning" or "find myself" with a questioning word; a `*` in the original text adds 0.9 to sorrow and multiplies hope by 0.1 below −0.3, else adds 0.8 to reflective neutral and multiplies hope by 0.2; hope is otherwise unchanged |
| AdvancedClassifier.KeywordBoostsNeverLower | src/hopes_sorrows/analysis/sentiment/advanced_classifier.py:316-345 | no category but hope ever goes down, and a non-negative hope score stays between 0 and its old value |
| AdvancedClassifier.KeywordBoostsNoTrigger | src/hopes_sorrows/analysis/sentiment/advanced_classifier.py:316-345 | when none of the keyword rules fires, the scores are unchanged |
| AdvancedClassifier.SentimentInfluence | src/hopes_sorrows/analysis/sentiment/advanced_classifier.py:347-354 | between −0.7 and 0.7 the scores are unchanged; below, sorrow ×1.3 and hope ×0.7; above, hope ×1.3 and sorrow ×0.7; the other categories never change |
| AdvancedClassifier.InfluenceKeepsSideAhead | src/hopes_sorrows/analysis/sentiment/advanced_classifier.py:347-354 | with non-negative hope and sorrow, strong sentiment never lets the disfavoured side overtake the favoured one |
| AdvancedClassifier.AddArcBonus | src/hopes_sorrows/analysis/sentiment/advanced_classifier.py:361-364 | the speaker's arc history grows by the current winner, other speakers' histories stay, transformative gains the arc score of the new history, and every other category is unchanged |
| AdvancedClassifier.CalibrateForSpeaker | src/hopes_sorrows/analysis/sentiment/advanced_classifier.py:356-364 | the profile of the speaker is registered and no other changes; every category but transformative is the score times the speaker's factor; without a context window that is all and the arcs are unchanged; with one the history grows by the calibrated winner and transformative also gains its arc score |
| AdvancedClassifier.NewSpeakerIsUncalibrated | src/hopes_sorrows/analysis/sentiment/advanced_classifier.py:242-248 | for a speaker without a profile calibration changes no score; the arc bonus, when a context window is given, is 0, 0.7 or 0.8 |
| AdvancedClassifier.FinalScores | src/hopes_sorrows/analysis/sentiment/advanced_classifier.py:294-365 | the final scores are the pattern scores (with defaults, keyword boosts and sentiment influence) calibrated by the speaker's factors; with a context window the speaker's history grows by the calibrated winner and transformative gains the arc score; only this speaker's profile is registered and, without a context window, no arc history changes |
| AdvancedClassifier.IsLikelyNonsensical | src/hopes_sorrows/analysis/sentiment/advanced_classifier.py:392-451 | a text that is empty after lower-casing and stripping is nonsensical (each rule on its own is stated by an AudioPipeline lemma about this predicate) |
| AdvancedClassifier.Classify | src/hopes_sorrows/analysis/sentiment/advanced_classifier.py:250-390 | stripped text under 3 characters gives reflective neutral, confidence 0.1, score 0, no matches, state unchanged; nonsensical text gives reflective neutral, confidence 0.2 and the input score; otherwise the first highest-scoring category wins, the score is the input score, and the confidence is the margin confidence of the winning and second-highest scores, in [0.1, 0.98] (at most 0.95 when the winning score is at most 1) |
| AdvancedClassifier.SymbolCount | src/hopes_sorrows/analysis/sentiment/advanced_classifier.py:446 | at most one symbol per character |
| Analyses.SpeakerKey | src/hopes_sorrows/analysis/sentiment/sa_transformers.py:167 | `speaker_id or "unknown"`: a non-empty id is kept, a missing or empty one becomes "unknown", and the key is never empty |
| Analyses.Clamp | src/hopes_sorrows/analysis/sentiment/sa_LLM.py:181-184 | `max(min(x, hi), lo)` lies in [lo, hi], is x inside the range and the nearer bound outside it |
| TransformerAnalyzer.SentimentLabel | src/hopes_sorrows/analysis/sentiment/sa_transformers.py:63-78 | confidence below 0.4 gives neutral; otherwise upper-inclusive bands: very negative exactly when ≤ −0.6, negative exactly in (−0.6, −0.3], neutral exactly in (−0.3, −0.1], positive exactly in (−0.1, 0.2], very positive exactly above 0.2 |
| TransformerAnalyzer.SentimentLabelMonotone | src/hopes_sorrows/analysis/sentiment/sa_transformers.py:69-78 | with confidence at least 0.4, a higher score never gets a lower label |
| TransformerAnalyzer.ZeroScoreIsPositive | src/hopes_sorrows/analysis/sentiment/sa_transformers.py:73-76 | score 0.0 with confidence at least 0.4 is labelled positive |
| Categories.SentimentBand | src/hopes_sorrows/analysis/sentiment/sa_transformers.py:80-87 | for a sorrow bound below the hope bound: hope exactly at or above the hope bound, sorrow exactly at or below the sorrow bound, neutral exactly strictly between |
| TransformerAnalyzer.SentimentCategoryOf | src/hopes_sorrows/analysis/sentiment/sa_transformers.py:80-87 | hope exactly when score ≥ 0.2, sorrow exactly when score ≤ −0.1, neutral exactly in between |
| TransformerAnalyzer.EmotionScore | src/hopes_sorrows/analysis/sentiment/sa_transformers.py:144-154 | (pos − neg)/(pos + neg + neutral) lies in [−1, 1], is 0 with no emotional mass, and its sign is the sign of pos − neg |
| TransformerAnalyzer.QuotientBounds | src/hopes_sorrows/analysis/sentiment/sa_transformers.py:150-152 | for non-negative parts with positive emotional mass, the quotient lies in [−1, 1] and has the sign of pos − neg |
| TransformerAnalyzer.MaxOf | src/hopes_sorrows/analysis/sentiment/sa_transformers.py:157-158 | the maximum is one of the values and bounds every value |
| TransformerAnalyzer.EmotionConfidence | src/hopes_sorrows/analysis/sentiment/sa_transformers.py:157-158 | the confidence is one of the six non-neutral probabilities and at least each of them |
| TransformerAnalyzer.Analyze | src/hopes_sorrows/analysis/sentiment/sa_transformers.py:89-191 | blank text gives score 0, confidence 0, neutral, reflective neutral, state unchanged; otherwise score, confidence and label come from the probabilities, intensity is \|score\|, and the category comes from the classifier run with the score and the speaker key: the speaker id, or "unknown" when it is missing or empty |
| TransformerAnalyzer.EmptySpeakerIsUnknown | src/hopes_sorrows/analysis/sentiment/sa_transformers.py:167 | an empty speaker id, a missing one and the id "unknown" give the same analysis and state |
| TransformerAnalyzer.AnalyzeBounds | src/hopes_sorrows/analysis/sentiment/sa_transformers.py:144-172 | with probabilities in [0, 1]: score in [−1, 1], intensity and confidence in [0, 1] |
| LlmAnalyzer.SentimentCategoryOf | src/hopes_sorrows/analysis/sentiment/sa_LLM.py:67-74 | hope exactly when score ≥ 0.3, sorrow exactly when score ≤ −0.2, neutral exactly in between |
| LlmAnalyzer.ThresholdLabel | src/hopes_sorrows/analysis/sentiment/sa_LLM.py:192-203 | lower-inclusive bands: very positive exactly when ≥ 0.8, very negative exactly below −0.5, neutral exactly in [−0.2, 0.3) |
| LlmAnalyzer.ThresholdLabelMonotone | src/hopes_sorrows/analysis/sentiment/sa_LLM.py:192-203 | a higher score never gets a lower threshold label |
| LlmAnalyzer.ValidateAndNormalize | src/hopes_sorrows/analysis/sentiment/sa_LLM.py:169-205 | missing numbers default to 0.0; the score is clamped into [−1, 1] and the confidence into [0, 1]; intensity is \|score\|; a missing label becomes neutral, a valid label is kept, and an invalid one is replaced by the threshold label; a missing explanation gets the default text |
| LlmAnalyzer.ValidateIdempotent | src/hopes_sorrows/analysis/sentiment/sa_LLM.py:169-205 | validating an already validated result changes nothing |
| LlmAnalyzer.Analyze | src/hopes_sorrows/analysis/sentiment/sa_LLM.py:76-167 | blank text gives score 0, confidence 0.9, reflective neutral, without consulting the response; a failed call gives the neutral result with confidence 0; otherwise the validated numbers and label are kept and the category comes from the classifier run with the speaker key ("unknown" for a missing or empty id) |
| LlmAnalyzer.EmptySpeakerIsUnknown | src/hopes_sorrows/analysis/sentiment/sa_LLM.py:139 | an empty speaker id, a missing one and the id "unknown" give the same analysis and state |
| LlmAnalyzer.AnalyzeBounds | src/hopes_sorrows/analysis/sentiment/sa_LLM.py:181-187 | whatever the model answers, score in [−1, 1], confidence in [0, 1], intensity \|score\| |
| CombinedAnalyzer.ScoreToLabel | src/hopes_sorrows/analysis/sentiment/combined_analyzer.py:229-240 | very positive exactly when ≥ 0.6, very negative exactly below −0.3, neutral exactly in [−0.1, 0.2) |
| CombinedAnalyzer.ScoreToLabelMonotone | src/hopes_sorrows/analysis/sentiment/combined_analyzer.py:229-240 | a higher score never gets a lower label |
| CombinedAnalyzer.FallbackResult | src/hopes_sorrows/analysis/sentiment/combined_analyzer.py:242-251 | score, confidence and intensity 0, neutral, reflective neutral |
| CombinedAnalyzer.WeightedAverageCombination | src/hopes_sorrows/analysis/sentiment/combined_analyzer.py:119-156 | score and confidence are the 0.6/0.4 weighted means; the category is the transformer's when its confidence is at least the LLM's, else the LLM's; intensity \|score\| and label from the score |
| CombinedAnalyzer.WeightedMeanBetween | src/hopes_sorrows/analysis/sentiment/combined_analyzer.py:123-131 | the 0.6/0.4 weighted mean of two values lies between them |
| CombinedAnalyzer.HighestConfidenceCombination | src/hopes_sorrows/analysis/sentiment/combined_analyzer.py:158-169 | the more confident result is returned, the transformer's on a tie, so the confidence is the larger of the two |
| CombinedAnalyzer.ConsensusCombination | src/hopes_sorrows/analysis/sentiment/combined_analyzer.py:171-199 | on category agreement: the shared category, the mean score, confidence min(0.95, mean + 0.1) and agreement true; otherwise the weighted result with confidence × 0.8 and agreement false |
| CombinedAnalyzer.AdjustedConfidence | src/hopes_sorrows/analysis/sentiment/combined_analyzer.py:201-227 | min(0.95, c + 0.1) on agreement, c × 0.9 otherwise |
| CombinedAnalyzer.TransformerPrimaryCombination | src/hopes_sorrows/analysis/sentiment/combined_analyzer.py:201-213 | the transformer's category, score and label, with its confidence adjusted by agreement |
| CombinedAnalyzer.LlmPrimaryCombination | src/hopes_sorrows/analysis/sentiment/combined_analyzer.py:215-227 | the LLM's category, score and label, with its confidence adjusted by agreement |
| CombinedAnalyzer.CombineAnalyses | src/hopes_sorrows/analysis/sentiment/combined_analyzer.py:101-117 | each strategy dispatches to its own combination |
| CombinedAnalyzer.CombinedConfidenceInUnit | src/hopes_sorrows/analysis/sentiment/combined_analyzer.py:101-227 | under every strategy, confidences in [0, 1] give a combined confidence in [0, 1] |
| CombinedAnalyzer.SoloConfidence | src/hopes_sorrows/analysis/sentiment/combined_analyzer.py:79-81 | above 0.6 the confidence becomes min(0.95, 1.1·c), otherwise it is kept |
| CombinedAnalyzer.SoloConfidenceRaises | src/hopes_sorrows/analysis/sentiment/combined_analyzer.py:79-81 | the solo boost never lowers a confidence up to 0.95 and never lifts one above max(c, 0.95) |
| CombinedAnalyzer.Analyze | src/hopes_sorrows/analysis/sentiment/combined_analyzer.py:29-99 | a failed transformer becomes the fallback result; has_llm holds exactly when the LLM was asked and answered; then the strategy's combination is returned, otherwise the transformer result marked transformer_only/fallback with the solo confidence |
| CombinedAnalyzer.TransformerOnlyIffNoLlm | src/hopes_sorrows/analysis/sentiment/combined_analyzer.py:73-88 | the source is transformer_only exactly when no LLM result took part |
| CombinedAnalyzer.AnalyzeConfidenceInUnit | src/hopes_sorrows/analysis/sentiment/combined_analyzer.py:29-99 | confidences in [0, 1] from both analysers give a final confidence in [0, 1] |
| AudioPipeline.IsNonsensicalContent | src/hopes_sorrows/analysis/audio/assembyai.py:395-453 | the audio module's early-return check, word-count dictionary and symbol count give the same answer as the classifier's `_is_likely_nonsensical` on every text |
| AudioPipeline.FailedLlmRequestIsCombined | src/hopes_sorrows/analysis/sentiment/sa_LLM.py:158-167 | a language-model call that failed inside the analyser still counts as an LLM result: the combined result has has_llm and is stored as combined |
| AudioPipeline.MaxRepetitions | src/hopes_sorrows/analysis/audio/assembyai.py:424-431 | the maximum of the word-count dictionary is the number of occurrences of some word and at least that of every word |
| AudioPipeline.CountSymbols | src/hopes_sorrows/analysis/audio/assembyai.py:449 | the count of characters that are neither letters nor whitespace |
| AudioPipeline.ShortUncommonWordIsNonsensical | src/hopes_sorrows/analysis/audio/assembyai.py:409-412 | a single word shorter than 4 characters that is not a common short word is nonsensical |
| AudioPipeline.FewDistinctWordsIsNonsensical | src/hopes_sorrows/analysis/audio/assembyai.py:415-421 | four or more words with at most two distinct ones are nonsensical |
| AudioPipeline.RepeatedWordIsNonsensical | src/hopes_sorrows/analysis/audio/assembyai.py:424-433 | six or more words with at most three distinct ones, one occurring three times or more, are nonsensical |
| AudioPipeline.NoLettersIsNonsensical | src/hopes_sorrows/analysis/audio/assembyai.py:436-446 | a text with neither letters nor whitespace is nonsensical, the empty text included |
| AudioPipeline.SymbolHeavyIsNonsensical | src/hopes_sorrows/analysis/audio/assembyai.py:449-451 | more than half the characters being symbols makes a text nonsensical |
| AudioPipeline.FallbackSentimentResult | src/hopes_sorrows/analysis/audio/assembyai.py:455-475 | score, confidence, intensity and classification confidence 0, neutral, reflective neutral, no matched patterns |
| AudioPipeline.FallbacksAgree | src/hopes_sorrows/analysis/audio/assembyai.py:466-471 | the audio fallback and the combined analyser's fallback agree on score, label, category, intensity and confidence |
| AudioPipeline.SelectUtterances | src/hopes_sorrows/analysis/audio/assembyai.py:230-240 | the analysed texts are the stripped non-skipped utterances in order, and analysed plus skipped is the utterance count |
| AudioPipeline.SkippedIffShort | src/hopes_sorrows/analysis/audio/assembyai.py:237 | an utterance is skipped exactly when its stripped text is shorter than two characters |
| AudioPipeline.AnalysedAreLongEnough | src/hopes_sorrows/analysis/audio/assembyai.py:234-240 | every analysed text has at least two characters |
| AudioPipeline.StoredAnalyzerType | src/hopes_sorrows/analysis/audio/assembyai.py:308-315 | the stored type is never the LLM type; it is TRANSFORMER whenever no language-model result took part or the source is transformer_only or fallback |
| AudioPipeline.StoredTypeIsCombinedIffLlm | src/hopes_sorrows/analysis/audio/assembyai.py:308-315 | a fresh combined result is stored as COMBINED exactly when the language model took part, under every strategy |
| Categories.LabelFromName | src/hopes_sorrows/analysis/sentiment/sa_LLM.py:190-191 | a name is recognised only as the name of its label, and an unrecognised name is no label's name |
| Categories.LabelNameRoundTrip | src/hopes_sorrows/analysis/sentiment/sa_LLM.py:190-191 | every label's name is recognised as that label |
| Database.GeneratedName | src/hopes_sorrows/data/db_manager.py:20-32 | with no sessions the generated name is "Recording-001" |
| Database.NextGeneratedName | src/hopes_sorrows/data/db_manager.py:22-27 | after a session named "Recording-NNN", the generated name is "Recording-" followed by NNN + 1 zero-padded to three digits |
| Database.NumberedNameCountsUp | src/hopes_sorrows/data/db_manager.py:25-27 | when the newest name's second `-` field parses as the integer n, the next name is "Recording-" with n + 1 zero-padded to three digits |
| Database.NoDashFallsBack | src/hopes_sorrows/data/db_manager.py:28-30 | a newest name without a `-` makes the next name "Recording-" with the session count plus one |
| Database.UnparsableNumberFallsBack | src/hopes_sorrows/data/db_manager.py:28-30 | a second `-` field that is not an integer makes the next name "Recording-" with the session count plus one |
| Database.GeneratedNameCanCollide | src/hopes_sorrows/data/db_manager.py:21-30 | after a "Recording-002" followed by a "Recording-001", the generated name is "Recording-002" again |
| Database.SplitGeneratedName | src/hopes_sorrows/data/db_manager.py:26-27 | splitting "Recording-" + `%03d` of n at "-" gives exactly "Recording" and the padded digits |
| Database.FirstFind | src/hopes_sorrows/data/db_manager.py:26 | the separator search finds the first occurrence |
| Database.CreateRecordingSession | src/hopes_sorrows/data/db_manager.py:18-37 | appends one session with the next id; a non-empty supplied name is used as is, an empty or missing one is generated; speaker count 1 and no quality score |
| Database.CreateKeepsIdsIncreasing | src/hopes_sorrows/data/db_manager.py:34-36 | creating a session keeps the session ids strictly increasing |
| Database.MaxSequence | src/hopes_sorrows/data/db_manager.py:41 | the largest global sequence, attained by some speaker, or 0 with none |
| Database.NextGlobalSpeakerNumber | src/hopes_sorrows/data/db_manager.py:39-42 | max + 1, or 1 with no speakers; above every existing sequence |
| Database.AddSpeaker | src/hopes_sorrows/data/db_manager.py:44-64 | appends a speaker with id session_{sid}_{aid}, the next global sequence and display name "Speaker {seq}" |
| Database.SpeakerById | src/hopes_sorrows/data/db_manager.py:66-68 | the first speaker with the id, or none exactly when no speaker has it |
| Database.GetOrCreateSpeaker | src/hopes_sorrows/data/db_manager.py:70-78 | an existing speaker is returned with the store unchanged; otherwise one is added |
| Database.GetOrCreateIdempotent | src/hopes_sorrows/data/db_manager.py:70-78 | a second call with the same session and AssemblyAI id returns the same speaker and adds nothing |
| Database.GetOrCreateKeepsUnique | src/hopes_sorrows/data/db_manager.py:39-78 | get-or-create keeps speaker ids and global sequences unique |
| Database.AddTranscription | src/hopes_sorrows/data/db_manager.py:80-95 | appends a transcription with the next row id, the given fields and a word count equal to the number of whitespace-separated tokens, 0 for empty text |
| Database.WordsEmptyIffBlank | src/hopes_sorrows/data/db_manager.py:83-84 | `split()` yields no tokens exactly when the text is all whitespace |
| Database.SessionConfidences | src/hopes_sorrows/data/db_manager.py:126-132 | the collected confidences are the truthy ones, so none is 0 |
| Database.Mean | src/hopes_sorrows/data/db_manager.py:134 | no mean exactly for an empty list |
| Database.SumBounds | src/hopes_sorrows/data/db_manager.py:134 | n values in [lo, hi] sum to between n·lo and n·hi |
| Database.MeanBounds | src/hopes_sorrows/data/db_manager.py:134 | the mean of values in [lo, hi] lies in [lo, hi] |
| Database.PositiveMean | src/hopes_sorrows/data/db_manager.py:131-134 | the mean of positive values is positive |
| Database.SpeakerCount | src/hopes_sorrows/data/db_manager.py:123 | at most the number of speakers |
| Database.SessionIndex | src/hopes_sorrows/data/db_manager.py:117 | a session with the id, or none exactly when no session has it |
| Database.UpdateRecordingSessionStats | src/hopes_sorrows/data/db_manager.py:114-147 | an unknown session id changes nothing; otherwise only that session's speaker count and quality score (the mean of the truthy confidences, or none) change |
| Database.QualityScoreInUnit | src/hopes_sorrows/data/db_manager.py:123-138 | confidences in [0, 1] give a quality score that is absent or in (0, 1] |
| Database.ConfidencesInUnit | src/hopes_sorrows/data/db_manager.py:126-132 | the collected confidences lie in (0, 1] when the stored ones lie in [0, 1] |
| Configuration.Get | src/hopes_sorrows/core/config.py:68-70 | the stored value for a present key, the default for an absent one |
| Configuration.GetRequired | src/hopes_sorrows/core/config.py:72-77 | fails exactly when the key is absent or holds None, and otherwise returns the value |
| Configuration.Set | src/hopes_sorrows/core/config.py:79-81 | the key set gains the key |
| Configuration.GetAfterSet | src/hopes_sorrows/core/config.py:68-81 | after set(k, v), get(k) is v and every other key reads as before |
| Configuration.DatabaseName | src/hopes_sorrows/core/config.py:95 | the text after the last ":///" is a suffix of the URL that contains no ":///" |
| Configuration.ResolveDatabaseUrl | src/hopes_sorrows/core/config.py:90-98 | non-sqlite URLs and URLs under sqlite:///data/ are kept; any other sqlite URL is kept when its name starts with data/, and is otherwise rewritten to sqlite:///data/databases/ + the name |
| Configuration.ResolvedIsInput | src/hopes_sorrows/core/config.py:93-97 | a resolved URL is the input or lies under sqlite:///data/ |
| Configuration.ResolveIdempotent | src/hopes_sorrows/core/config.py:90-98 | resolving a resolved URL changes nothing |
| Configuration.DefaultUrlUnchanged | src/hopes_sorrows/core/config.py:39 | the default URL is kept as it is |
| Configuration.GetDatabaseUrl | src/hopes_sorrows/core/config.py:90-98 | succeeds exactly when DATABASE_URL holds a string, with the resolved URL |
| DuplicateCleanup.SimilarityOfNormalized | scripts/clear_duplicate_blobs.py:17-19 | similarity compares lower-cased stripped texts, so normalising the inputs first changes nothing |
| DuplicateCleanup.ScanRow | scripts/clear_duplicate_blobs.py:26-33 | one row of the inner loop reports exactly the later rows similar to row i, in increasing order |
| DuplicateCleanup.FindDuplicates | scripts/clear_duplicate_blobs.py:21-35 | every reported pair (i, j) has i < j and similarity at least the threshold, every such pair is reported, and pairs come in lexicographic order |
| DuplicateCleanup.ExampleIsReport | scripts/clear_duplicate_blobs.py:21-35 | three identical texts give the three pairs (0,1), (0,2), (1,2) |
| DuplicateCleanup.KeepsOlder | scripts/clear_duplicate_blobs.py:98-104 | of two rows with different ids, the lower id is kept and the higher removed |
| DuplicateCleanup.KeepRows | scripts/clear_duplicate_blobs.py:113-114 | the surviving rows are exactly the rows of the table whose ids were not removed |
| DuplicateCleanup.KeepAnalyses | scripts/clear_duplicate_blobs.py:109-111 | the analyses of removed transcriptions are dropped and every other analysis is kept |
| DuplicateCleanup.RemoveFromStore | scripts/clear_duplicate_blobs.py:90-119 | sessions and speakers are untouched; every remaining transcription has an id no pair removed, every transcription with such an id remains, and the analyses of removed rows go while every other analysis stays |
| DuplicateCleanup.RemovedIdsBound | scripts/clear_duplicate_blobs.py:94-115 | at most one row is removed per pair |
| DuplicateCleanup.RemovedIdsSnoc | scripts/clear_duplicate_blobs.py:94-115 | the rows removed by a list of pairs are those removed by all but its last pair, plus the newer row of the last pair |
| DuplicateCleanup.RemovedIdsInTable | scripts/clear_duplicate_blobs.py:98-104 | every removed id is the id of a row of the table |
| DuplicateCleanup.KeepRowsCount | scripts/clear_duplicate_blobs.py:113-114 | with unique ids, the survivors and the removed ids in the table add up to the table's size |
| DuplicateCleanup.RemoveNewerDuplicatesAsWritten | scripts/clear_duplicate_blobs.py:92-119 | the rows left are those whose ids were removed by no pair, and removed_count is the number of pairs |
| DuplicateCleanup.OverCountExample | scripts/clear_duplicate_blobs.py:92-119 | with three identical texts, removed_count is 3 while 2 rows are removed |
| DuplicateCleanup.RemoveNewerDuplicates | scripts/clear_duplicate_blobs.py:92-119 | the same rows are removed; the count is at most the number of pairs |
| DuplicateCleanup.RemovedCountIsExact | scripts/clear_duplicate_blobs.py:92-119 | with unique ids, the corrected count is exactly the number of rows removed |
| DuplicateCleanup.CorrectedCountExample | scripts/clear_duplicate_blobs.py:92-119 | with three identical texts, the corrected count is 2 |
| DuplicateCleanup.IdsOfSnoc | scripts/clear_duplicate_blobs.py:113-114 | with unique ids, the last row's id is new to the rest of the table |
| WebApi.AnalysesOf | src/hopes_sorrows/web/api/app.py:106 | the analyses of a transcription, none exactly when no stored analysis refers to it |
| WebApi.LastOfKind | src/hopes_sorrows/web/api/app.py:106-111 | the last TRANSFORMER-or-COMBINED (or the last LLM) analysis in list order, none exactly when there is none |
| WebApi.SelectAnalyses | src/hopes_sorrows/web/api/app.py:100-111 | the selection loop ends holding the last transformer-side analysis and the last LLM analysis |
| WebApi.LastOfKindUnique | src/hopes_sorrows/web/api/app.py:106-111 | an analysis of the kind with none of that kind after it is the one selected |
| WebApi.Primary | src/hopes_sorrows/web/api/app.py:113-114 | the last transformer-side analysis when one exists, else the last LLM one; none exactly for a transcription without analyses |
| WebApi.SpeakerShown | src/hopes_sorrows/web/api/app.py:121-122 | the speaker's display name and sequence, or "Unknown" and 0 without a speaker |
| WebApi.BlobFor | src/hopes_sorrows/web/api/app.py:116-139 | no blob exactly when the transcription has no analysis; the blob id is "blob_" + id, intensity is \|score\|, category, label, score and confidence come from the primary analysis, has_llm holds exactly when an LLM analysis exists, analysis_source is "transformer" exactly when a transformer-side one does, else "llm", and speaker_name and global_sequence are the speaker row's, or "Unknown" and 0 without one |
| WebApi.BlobIdDecodes | src/hopes_sorrows/web/api/app.py:119 | the digits after "blob_" read back as the transcription id |
| WebApi.BlobIdsDistinct | src/hopes_sorrows/web/api/app.py:119 | different transcriptions get different blob ids |
| WebApi.Blobs | src/hopes_sorrows/web/api/app.py:96-139 | at most one blob per transcription |
| WebApi.GetAllBlobs | src/hopes_sorrows/web/api/app.py:88-154 | the blobs in transcription order, and total_count is the number of blobs returned |
| WebApi.BlobsCount | src/hopes_sorrows/web/api/app.py:116-139 | there are exactly as many blobs as transcriptions with an analysis |
| WebApi.Analysed | src/hopes_sorrows/web/api/app.py:116 | every transcription kept has some analysis |
| WebApi.UploadBlob | src/hopes_sorrows/web/api/app.py:223-247 | a blob exactly when the utterance carries a non-empty combined result; id "blob_" + uuid and intensity \|score\| |
| WebApi.UploadDefaults | src/hopes_sorrows/web/api/app.py:231-243 | each key missing from a non-empty sentiment dictionary or from the utterance takes its own default: reflective_neutral, 0.0 score and confidence, "neutral", no LLM, source "combined", and the utterance defaults "unknown", "Unknown", 0, "" |
| WebApi.DictOf | src/hopes_sorrows/analysis/sentiment/combined_analyzer.py:87-94 | the result dictionary of a combined analysis is never empty |
| WebApi.UploadBlobShowsAnalysis | src/hopes_sorrows/web/api/app.py:228-243 | a blob built from a combined result shows its category, score, intensity, confidence, label, has_llm and source |
| WebApi.UploadBlobs | src/hopes_sorrows/web/api/app.py:223-247 | at most one blob per utterance, each with intensity \|score\| |
| WebApi.FindTranscription | src/hopes_sorrows/data/db_manager.py:149-151 | a transcription with the id, or none exactly when no transcription has it |
| WebApi.FirstCombined | src/hopes_sorrows/web/api/app.py:457-461 | the first COMBINED analysis of the transcription, none exactly when there is none |
| WebApi.FirstCombinedAt | src/hopes_sorrows/web/api/app.py:457-461 | a COMBINED analysis with none before it is the one found |
| WebApi.Upsert | src/hopes_sorrows/web/api/app.py:455-481 | the first COMBINED analysis is refreshed in place with every other record untouched; without one, a record of the stored analyser type is appended |
| WebApi.UpsertIdempotent | src/hopes_sorrows/web/api/app.py:455-481 | upserting the same COMBINED result twice is the same as once |
| WebApi.UpsertLeavesCombined | src/hopes_sorrows/web/api/app.py:455-481 | after the upsert the transcription has a COMBINED analysis, and other transcriptions' analyses are untouched |
| WebApi.ReanalysisTypeAgrees | src/hopes_sorrows/web/api/app.py:449-453 | for a result the language model took part in, the reanalysis route's analyzer type, chosen from the analysis source alone, is the upload pipeline's |
| WebApi.ReanalyzeOne | src/hopes_sorrows/web/api/app.py:419-490 | not_found exactly for an unknown id, llm_failed exactly when the LLM did not take part; only a success changes the store: its analyses become the update-or-insert of the combined result for that transcription, and nothing else changes |
| WebApi.CountUpdated | src/hopes_sorrows/web/api/app.py:483 | updated_count is at most the number of ids |
| WebApi.ReanalyzeAll | src/hopes_sorrows/web/api/app.py:416-497 | one status per id; transcriptions, sessions and speakers untouched; the analysis table only grows, and the rows of transcriptions not requested keep their place and value |
| WebApi.StatusesPrefix | src/hopes_sorrows/web/api/app.py:416-497 | handling the first m requests gives the first m statuses of handling them all |
| WebApi.ReanalyzeAllStepwise | src/hopes_sorrows/web/api/app.py:416-497 | the i-th status is the outcome of reanalysing the i-th id on the store the first i requests left, and the store after it is that reanalysis' store |
| WebApi.ReanalyzeWithLlm | src/hopes_sorrows/web/api/app.py:398-507 | an empty id list is rejected first, then a missing API key; otherwise every id is processed and updated_count counts the successes |
| WebApi.ReanalyzeOutcomes | src/hopes_sorrows/web/api/app.py:419-490 | for each id, not_found exactly when unknown, llm_failed exactly when known without LLM, success otherwise |
| Strings.ParsePad3 | src/hopes_sorrows/data/db_manager.py:26-27 | `int()` of a `%03d` rendering gives the number back |
| Strings.StripIdempotent | scripts/clear_duplicate_blobs.py:19 | stripping twice is stripping once |
| Strings.NormalizeIdempotent | scripts/clear_duplicate_blobs.py:19 | lower-casing and stripping twice is doing it once |

## Left out

- The blob physics and visualisation run in the browser front end, not in the Python back end, and are floating-point simulation.
- The regular-expression pattern tables, their matching, and `_normalize_text_for_classification`: the classifier receives the hits and the normalised text as input.
- Model inference, the OpenAI and AssemblyAI calls, and `llm_status` probing are remote or numerical. Their results are inputs.
- SQLAlchemy sessions, commits, rollbacks and sqlite: the store is an in-memory record of sequences in table order.
- Flask routes, SocketIO, temporary files, `cli_formatter.py` and console output are transport and presentation.
- Explanation strings of the analysers and of `_generate_explanation` are free text and are not modelled.
- Timestamps and `datetime.now()`, as well as `uuid4`: the uuid text is an input.
- Python float rounding: all arithmetic is exact `real`.
- `str.isalpha`, `lower` and `isspace` beyond ASCII: letters and lower-casing are ASCII only, while whitespace is Python's full set.
- `int()` is modelled on optional sign and ASCII digits with surrounding whitespace. Underscores and non-ASCII digits are left out.
- LLM answers whose fields are JSON null or not numbers (where Python's `float()` raises) are not modelled. Neither are extra keys.
- The `except` paths of `reanalyze_with_llm` (the 'error' status), of blob creation in `get_all_blobs`, and of the upload loop: they catch exceptions from code outside the model.
- Database.CreateRecordingSession: the table's unique constraints on session names and speaker global sequences, and the speaker primary key, are not enforced. Generated names can repeat (GeneratedNameCanCollide), where the database would refuse the commit.
- Recording session `created_at`, the `ended_at` column and the schema module are storage detail.
- The per-speaker debug output and category counts of `get_all_blobs` are printing only.
- `main`'s options 1, 3 and 4 in the cleanup script are interactive listing and exiting.
- TransformerAnalyzer.EmotionScore: requires non-negative probabilities, which the softmax always produces.
- AdvancedClassifier.Classify: the explanation and timestamp of the classification result are not produced.
- WebApi.ReanalyzeWithLlm: `OPENAI_API_KEY` being set and not the placeholder is reduced to one boolean input.

## Findings

| source | as written | input that shows it | evidently intended | confidence | as-written member | corrected member |
|---|---|---|---|---|---|---|
| scripts/clear_duplicate_blobs.py:92-119 | `removed_count` is increased once per reported pair | three transcriptions with identical text: three pairs are reported, two rows are removed, and "Removed 3 duplicate transcriptions" is printed | the number of transcriptions actually removed | not executed | DuplicateCleanup.OverCountExample | DuplicateCleanup.RemovedCountIsExact |

=== FILE: advanced_classifier.dfy ===
/** The scoring rules of `AdvancedHopeSorrowClassifier`: context weighting of
    pattern hits, per-category accumulation with the ambivalence rules and L1
    normalisation, keyword boosts, speaker calibration, the narrative arc, the
    choice of the winning category and its confidence, and the
    "likely nonsensical" validator.

    Regular-expression search is not modelled: a classification receives the
    hits of the pattern tables (pattern, start, end) and the normalised text
    as inputs.  The classifier's two dictionaries (speaker profiles and
    narrative arcs) are an explicit state value threaded through. */
module AdvancedClassifier {
  import opened Wrappers
  import opened Reals
  import opened Strings
  import opened Categories

  /** One `LinguisticPattern` of the tables (its regular expression left out). */
  datatype Pattern = Pattern(category: Category, weight: real, description: string)

  /** A match of `pattern` in the lower-cased text, covering `[start, end)`. */
  datatype Hit = Hit(pattern: Pattern, start: nat, end: nat)

  /** A match together with its context-weighted score. */
  datatype ScoredMatch = ScoredMatch(pattern: Pattern, score: real)

  /** One score per category, in enumeration order. */
  datatype Scores = Scores(hope: real, sorrow: real, transformative: real, ambivalent: real, neutral: real) {

    function Get(c: Category): real {
      match c
      case Hope => hope
      case Sorrow => sorrow
      case Transformative => transformative
      case Ambivalent => ambivalent
      case ReflectiveNeutral => neutral
    }

    function Set(c: Category, v: real): (r: Scores)
      ensures r.Get(c) == v
      ensures forall d :: d != c ==> r.Get(d) == Get(d)
    {
      match c
      case Hope => this.(hope := v)
      case Sorrow => this.(sorrow := v)
      case Transformative => this.(transformative := v)
      case Ambivalent => this.(ambivalent := v)
      case ReflectiveNeutral => this.(neutral := v)
    }

    function Add(c: Category, d: real): Scores {
      Set(c, Get(c) + d)
    }

    function Scale(c: Category, f: real): Scores {
      Set(c, Get(c) * f)
    }

    /** `sum(abs(score) for score in scores.values())`. */
    function AbsTotal(): real {
      Abs(hope) + Abs(sorrow) + Abs(transformative) + Abs(ambivalent) + Abs(neutral)
    }
  }

  const Zero := Scores(0.0, 0.0, 0.0, 0.0, 0.0)

  /** A fresh speaker profile: calibration factor 1.0 for every category. */
  const Uniform := Scores(1.0, 1.0, 1.0, 1.0, 1.0)

  // ---------------------------------------------------------------------
  // Context weighting of pattern hits
  // ---------------------------------------------------------------------

  /** Characters examined on each side of a hit. */
  const ContextRadius: nat := 20

  function WindowStart(h: Hit): nat {
    if h.start >= ContextRadius then h.start - ContextRadius else 0
  }

  function WindowEnd(text: string, h: Hit): (e: nat)
    ensures e <= |text|
  {
    if h.end + ContextRadius <= |text| then h.end + ContextRadius else |text|
  }

  /** `text[max(0, start - 20):min(len(text), end + 20)]`. */
  function ContextOf(text: string, h: Hit): string {
    Slice(text, WindowStart(h), WindowEnd(text, h))
  }

  /** -1 for a negated context, 1.5 for an intensified one, 1 otherwise. */
  function ContextFactor(context: string): real {
    if Contains(context, "not") || Contains(context, "never") then -1.0
    else if Contains(context, "very") || Contains(context, "really") then 1.5
    else 1.0
  }

  /** Reference reading of the context rule: `w` occurs in `text` entirely
      within 20 characters before the hit's start and 20 after its end. */
  predicate OccursNear(text: string, h: Hit, w: string) {
    exists p | WindowStart(h) <= p <= WindowEnd(text, h) - |w| :: OccursAt(text, w, p)
  }

  function NearFactor(text: string, h: Hit): real {
    if OccursNear(text, h, "not") || OccursNear(text, h, "never") then -1.0
    else if OccursNear(text, h, "very") || OccursNear(text, h, "really") then 1.5
    else 1.0
  }

  /** Substring search in a slice is search in the window of the whole string. */
  lemma ContainsInSlice(s: string, a: nat, b: nat, w: string)
    requires a <= b <= |s|
    ensures Contains(s[a..b], w) <==> exists p | a <= p <= b - |w| :: OccursAt(s, w, p)
  {
    var t := s[a..b];
    if Contains(t, w) {
      var q :| 0 <= q <= |t| - |w| && OccursAt(t, w, q);
      var u, v := s[a + q..a + q + |w|], t[q..q + |w|];
      forall k | 0 <= k < |w| ensures u[k] == v[k] {
        assert t[q + k] == s[a + q + k];
      }
      assert u == v;
      assert OccursAt(s, w, a + q);
    }
    if exists p | a <= p <= b - |w| :: OccursAt(s, w, p) {
      var p :| a <= p <= b - |w| && OccursAt(s, w, p);
      var u, v := t[p - a..p - a + |w|], s[p..p + |w|];
      forall k | 0 <= k < |w| ensures u[k] == v[k] {
        assert t[p - a + k] == s[p + k];
      }
      assert u == v;
      assert OccursAt(t, w, p - a);
    }
  }

  lemma ContextFactorIsNearFactor(text: string, h: Hit)
    ensures ContextFactor(ContextOf(text, h)) == NearFactor(text, h)
  {
    var a, b := WindowStart(h), WindowEnd(text, h);
    if a <= b {
      ContainsInSlice(text, a, b, "not");
      ContainsInSlice(text, a, b, "never");
      ContainsInSlice(text, a, b, "very");
      ContainsInSlice(text, a, b, "really");
    } else {
      assert ContextOf(text, h) == [];
      assert !Contains([], "not") && !Contains([], "never");
      assert !Contains([], "very") && !Contains([], "really");
    }
  }

  function ScoreHit(text: string, h: Hit): ScoredMatch {
    ScoredMatch(h.pattern, h.pattern.weight * ContextFactor(ContextOf(text, h)))
  }

  /** `_detect_patterns` after the regular-expression search: every hit, in
      order, scored as its weight times -1 when "not" or "never" lies within 20
      characters of it, else 1.5 when "very" or "really" does, else 1. */
  function DetectPatterns(text: string, hits: seq<Hit>): (ms: seq<ScoredMatch>)
    ensures |ms| == |hits|
    ensures forall i :: 0 <= i < |hits| ==>
      ms[i].pattern == hits[i].pattern && ms[i].score == hits[i].pattern.weight * NearFactor(text, hits[i])
  {
    var ms := seq(|hits|, i requires 0 <= i < |hits| => ScoreHit(text, hits[i]));
    assert forall i :: 0 <= i < |hits| ==> ms[i].score == hits[i].pattern.weight * NearFactor(text, hits[i]) by {
      forall i | 0 <= i < |hits| ensures ms[i].score == hits[i].pattern.weight * NearFactor(text, hits[i]) {
        ContextFactorIsNearFactor(text, hits[i]);
      }
    }
    ms
  }

  // ---------------------------------------------------------------------
  // Category scores
  // ---------------------------------------------------------------------

  /** The loop `scores[pattern.category] += score` over the matches, in order. */
  function Accumulate(ms: seq<ScoredMatch>): Scores {
    if ms == [] then Zero
    else
      var last := ms[|ms| - 1];
      Accumulate(ms[..|ms| - 1]).Add(last.pattern.category, last.score)
  }

  /** Reference definition: the sum of the scores of the matches of category `c`. */
  function SumFor(ms: seq<ScoredMatch>, c: Category): real {
    if ms == [] then 0.0
    else (if ms[0].pattern.category == c then ms[0].score else 0.0) + SumFor(ms[1..], c)
  }

  lemma {:induction false} SumForSnoc(ms: seq<ScoredMatch>, m: ScoredMatch, c: Category)
    ensures SumFor(ms + [m], c) == SumFor(ms, c) + (if m.pattern.category == c then m.score else 0.0)
  {
    if ms == [] {
      assert [m][1..] == [];
    } else {
      assert (ms + [m])[1..] == ms[1..] + [m];
      SumForSnoc(ms[1..], m, c);
    }
  }

  /** After accumulation each category holds exactly the sum of its matches' scores. */
  lemma {:induction false} AccumulateIsSumFor(ms: seq<ScoredMatch>, c: Category)
    ensures Accumulate(ms).Get(c) == SumFor(ms, c)
  {
    if ms != [] {
      var init := ms[..|ms| - 1];
      assert ms == init + [ms[|ms| - 1]];
      AccumulateIsSumFor(init, c);
      SumForSnoc(init, ms[|ms| - 1], c);
    }
  }

  /** The scores of the ambivalent-category matches, in order. */
  function AmbivalentScores(ms: seq<ScoredMatch>): (xs: seq<real>)
    ensures forall x :: x in xs <==> exists i | 0 <= i < |ms| :: ms[i].pattern.category == Ambivalent && ms[i].score == x
  {
    if ms == [] then []
    else
      var rest := AmbivalentScores(ms[1..]);
      assert forall i | 1 <= i < |ms| :: ms[i] == ms[1..][i - 1];
      if ms[0].pattern.category == Ambivalent then [ms[0].score] + rest else rest
  }

  /** Python's `max` of a non-empty sequence. */
  function MaxOf(xs: seq<real>): (m: real)
    requires |xs| > 0
    ensures m in xs
    ensures forall x :: x in xs ==> x <= m
  {
    if |xs| == 1 then xs[0]
    else
      var m := MaxOf(xs[1..]);
      assert xs == [xs[0]] + xs[1..];
      if xs[0] >= m then xs[0] else m
  }

  /** Some ambivalent-category match scores above 0.8. */
  predicate StrongAmbivalentMatch(ms: seq<ScoredMatch>) {
    exists i | 0 <= i < |ms| :: ms[i].pattern.category == Ambivalent && ms[i].score > 0.8
  }

  /** The hope/sorrow boost: 1.5 times the smaller of the two when both exceed 0.3. */
  function AmbivalentBoost(s: Scores): real {
    if s.hope > 0.3 && s.sorrow > 0.3 then Min(s.hope, s.sorrow) * 1.5 else 0.0
  }

  /** `_apply_ambivalent_logic`: only the ambivalent score changes; it gains the
      hope/sorrow boost and is then doubled exactly when some ambivalent match
      scores above 0.8. */
  function ApplyAmbivalentLogic(ms: seq<ScoredMatch>, s: Scores): (r: Scores)
    ensures forall c :: c != Ambivalent ==> r.Get(c) == s.Get(c)
    ensures r.ambivalent == (s.ambivalent + AmbivalentBoost(s)) * (if StrongAmbivalentMatch(ms) then 2.0 else 1.0)
  {
    var boosted := if s.hope > 0.3 && s.sorrow > 0.3 then s.Add(Ambivalent, Min(s.hope, s.sorrow) * 1.5) else s;
    var amb := AmbivalentScores(ms);
    assert (|amb| > 0 && MaxOf(amb) > 0.8) <==> StrongAmbivalentMatch(ms) by {
      if StrongAmbivalentMatch(ms) {
        var i :| 0 <= i < |ms| && ms[i].pattern.category == Ambivalent && ms[i].score > 0.8;
        assert ms[i].score in amb;
      }
    }
    if |amb| > 0 && MaxOf(amb) > 0.8 then boosted.Scale(Ambivalent, 2.0) else boosted
  }

  lemma AbsOfQuotient(x: real, t: real)
    requires t > 0.0
    ensures Abs(x / t) == Abs(x) / t
  {
  }

  /** L1 normalisation: every score divided by the total of absolute scores,
      so that the absolute scores then sum to exactly one. */
  function Normalize(s: Scores): (r: Scores)
    requires s.AbsTotal() > 0.0
    ensures r.AbsTotal() == 1.0
    ensures forall c :: r.Get(c) == s.Get(c) / s.AbsTotal()
  {
    var t := s.AbsTotal();
    var r := Scores(s.hope / t, s.sorrow / t, s.transformative / t, s.ambivalent / t, s.neutral / t);
    AbsOfQuotient(s.hope, t);
    AbsOfQuotient(s.sorrow, t);
    AbsOfQuotient(s.transformative, t);
    AbsOfQuotient(s.ambivalent, t);
    AbsOfQuotient(s.neutral, t);
    SumOfQuotients(Abs(s.hope), Abs(s.sorrow), Abs(s.transformative), Abs(s.ambivalent), Abs(s.neutral), t);
    r
  }

  lemma SumOfQuotients(a: real, b: real, c: real, d: real, e: real, t: real)
    requires t > 0.0 && t == a + b + c + d + e
    ensures a / t + b / t + c / t + d / t + e / t == 1.0
  {
    assert a / t + b / t + c / t + d / t + e / t == (a + b + c + d + e) / t;
  }

  lemma ZeroTotal(s: Scores)
    requires s.AbsTotal() <= 0.0
    ensures s == Zero
  {
  }

  /** `_calculate_category_scores`: the per-category sums, adjusted by the
      ambivalence rules, then L1-normalised when any score is non-zero. */
  function CalculateCategoryScores(ms: seq<ScoredMatch>): (r: Scores)
    ensures var s := ApplyAmbivalentLogic(ms, Accumulate(ms));
      && (s.AbsTotal() > 0.0 ==> r.AbsTotal() == 1.0 && forall c :: r.Get(c) == s.Get(c) / s.AbsTotal())
      && (s.AbsTotal() <= 0.0 ==> r == Zero)
  {
    var s := ApplyAmbivalentLogic(ms, Accumulate(ms));
    if s.AbsTotal() > 0.0 then Normalize(s)
    else
      ZeroTotal(s);
      s
  }

  // ---------------------------------------------------------------------
  // Speaker profiles and narrative arcs
  // ---------------------------------------------------------------------

  type Profiles = map<string, Scores>
  type Arcs = map<string, seq<Category>>

  datatype ClassifierState = ClassifierState(profiles: Profiles, arcs: Arcs)

  const InitialState := ClassifierState(map[], map[])

  function ProfileOf(profiles: Profiles, speaker: string): Scores {
    if speaker in profiles then profiles[speaker] else Uniform
  }

  /** `_get_speaker_calibration`: the speaker's factors, a uniform profile being
      created for a speaker not seen before; no other speaker is touched. */
  function SpeakerCalibration(profiles: Profiles, speaker: string): (r: (Profiles, Scores))
    ensures speaker in r.0 && r.1 == r.0[speaker]
    ensures speaker in profiles ==> r.0 == profiles
    ensures speaker !in profiles ==> forall c :: r.1.Get(c) == 1.0
    ensures r.0.Keys == profiles.Keys + {speaker}
    ensures forall s :: s in profiles ==> r.0[s] == profiles[s]
  {
    if speaker in profiles then (profiles, profiles[speaker])
    else (profiles[speaker := Uniform], Uniform)
  }

  /** `update_speaker_profile`: multiplies the one factor for `category` by
      `1 + (accuracy - 0.5)`; every other factor and every other speaker keeps
      its value. */
  function UpdateSpeakerProfile(profiles: Profiles, speaker: string, category: Category, accuracy: real): (r: Profiles)
    ensures r.Keys == profiles.Keys + {speaker}
    ensures r[speaker].Get(category) == ProfileOf(profiles, speaker).Get(category) * (1.0 + (accuracy - 0.5))
    ensures forall c :: c != category ==> r[speaker].Get(c) == ProfileOf(profiles, speaker).Get(c)
    ensures forall s :: s in profiles && s != speaker ==> r[s] == profiles[s]
  {
    var p := ProfileOf(profiles, speaker);
    profiles[speaker := p.Scale(category, 1.0 + (accuracy - 0.5))]
  }

  function HistoryOf(arcs: Arcs, speaker: string): seq<Category> {
    if speaker in arcs then arcs[speaker] else []
  }

  /** First index of the last-five window of a history of length `n`. */
  function WindowFrom(n: nat): nat {
    if n > 5 then n - 5 else 0
  }

  /** The score of a history by its last five entries: nothing for a
      history shorter than two, 0.8 when the window holds a transformative
      entry, else 0.7 when it runs from sorrow to hope, else nothing. */
  function ArcScore(h: seq<Category>): real {
    var recent := h[WindowFrom(|h|)..];
    if |recent| < 2 then 0.0
    else if Transformative in recent then 0.8
    else if recent[|recent| - 1] == Hope && recent[0] == Sorrow then 0.7
    else 0.0
  }

  /** The arc score stated over the window of positions of the history. */
  lemma ArcScoreWindow(h: seq<Category>)
    ensures var lo := WindowFrom(|h|);
      && (|h| < 2 ==> ArcScore(h) == 0.0)
      && (|h| >= 2 ==>
           && (ArcScore(h) == 0.8 <==> exists j | lo <= j < |h| :: h[j] == Transformative)
           && (ArcScore(h) == 0.7 <==> (forall j | lo <= j < |h| :: h[j] != Transformative) && h[lo] == Sorrow && h[|h| - 1] == Hope))
    ensures ArcScore(h) == 0.0 || ArcScore(h) == 0.7 || ArcScore(h) == 0.8
  {
    var lo := WindowFrom(|h|);
    var recent := h[lo..];
    assert |recent| == |h| - lo;
    if |h| >= 2 {
      assert recent[0] == h[lo] && recent[|recent| - 1] == h[|h| - 1];
      if Transformative in recent {
        var k :| 0 <= k < |recent| && recent[k] == Transformative;
        assert h[lo + k] == Transformative;
      } else {
        forall j | lo <= j < |h| ensures h[j] != Transformative {
          assert h[j] == recent[j - lo];
        }
      }
    }
  }

  /** `_detect_narrative_arc`: appends `current` to the speaker's history and
      scores the last five entries of it. */
  function DetectNarrativeArc(arcs: Arcs, speaker: string, current: Category): (r: (Arcs, real))
    ensures r.0 == arcs[speaker := HistoryOf(arcs, speaker) + [current]]
    ensures var h := HistoryOf(arcs, speaker) + [current];
      var lo := WindowFrom(|h|);
      && (|h| < 2 ==> r.1 == 0.0)
      && (|h| >= 2 ==>
           && (r.1 == 0.8 <==> exists j | lo <= j < |h| :: h[j] == Transformative)
           && (r.1 == 0.7 <==> (forall j | lo <= j < |h| :: h[j] != Transformative) && h[lo] == Sorrow && h[|h| - 1] == Hope))
    ensures r.1 == 0.0 || r.1 == 0.7 || r.1 == 0.8
  {
    var h := HistoryOf(arcs, speaker) + [current];
    ArcScoreWindow(h);
    (arcs[speaker := h], ArcScore(h))
  }

  // ---------------------------------------------------------------------
  // Winning category and confidence
  // ---------------------------------------------------------------------

  /** `max(scores.items(), key=...)`: the category with the highest score, the
      earliest in enumeration order among equals. */
  function ArgMax(s: Scores): (c: Category)
    ensures forall d :: s.Get(d) <= s.Get(c)
    ensures forall d :: CategoryIndex(d) < CategoryIndex(c) ==> s.Get(d) < s.Get(c)
  {
    var b0 := Hope;
    var b1 := if s.sorrow > s.Get(b0) then Sorrow else b0;
    var b2 := if s.transformative > s.Get(b1) then Transformative else b1;
    var b3 := if s.ambivalent > s.Get(b2) then Ambivalent else b2;
    if s.neutral > s.Get(b3) then ReflectiveNeutral else b3
  }

  /** `sorted(scores.values(), reverse=True)[1]`: the highest score once the
      winner's own entry is set aside. */
  function SecondHighest(s: Scores): (v: real)
    ensures v <= s.Get(ArgMax(s))
    ensures exists d :: d != ArgMax(s) && s.Get(d) == v
    ensures forall d :: d != ArgMax(s) ==> s.Get(d) <= v
  {
    s.Get(RunnerUp(s))
  }

  /** A highest-scoring category other than the winner. */
  function RunnerUp(s: Scores): (o: Category)
    ensures o != ArgMax(s)
    ensures forall d :: d != ArgMax(s) ==> s.Get(d) <= s.Get(o)
  {
    var w := ArgMax(s);
    var b0 := if w != Hope then Hope else Sorrow;
    var b1 := if w != Sorrow && s.sorrow > s.Get(b0) then Sorrow else b0;
    var b2 := if w != Transformative && s.transformative > s.Get(b1) then Transformative else b1;
    var b3 := if w != Ambivalent && s.ambivalent > s.Get(b2) then Ambivalent else b2;
    if w != ReflectiveNeutral && s.neutral > s.Get(b3) then ReflectiveNeutral else b3
  }

  /** `min(0.95, max(0.1, max_score + margin * 0.3))`. */
  function BaseConfidence(maxScore: real, second: real): real {
    Min(0.95, Max(0.1, maxScore + (maxScore - second) * 0.3))
  }

  /** The confidence of `classify_emotion`: the margin-based value, clamped to
      [0.1, 0.95]; when the winning score exceeds 1.0 it is raised by at most
      0.2 and never above 0.98. */
  function Confidence(maxScore: real, second: real): (conf: real)
    ensures 0.1 <= BaseConfidence(maxScore, second) <= 0.95
    ensures maxScore <= 1.0 ==> conf == BaseConfidence(maxScore, second)
    ensures maxScore > 1.0 ==> BaseConfidence(maxScore, second) < conf <= BaseConfidence(maxScore, second) + 0.2
    ensures 0.1 <= conf <= 0.98
  {
    var base := BaseConfidence(maxScore, second);
    if maxScore > 1.0 then Min(0.98, base + 0.2) else base
  }

  // ---------------------------------------------------------------------
  // classify_emotion
  // ---------------------------------------------------------------------

  /** What a classification sees besides the raw text: the normalised text,
      the pattern hits found in it, and whether a non-empty context window was
      passed. */
  datatype Observation = Observation(normalized: string, hits: seq<Hit>, hasContext: bool)

  datatype ClassificationResult = ClassificationResult(
    category: Category, confidence: real, score: real, matches: seq<ScoredMatch>)

  /** Category scores used when no pattern scored at all: sorrow 0.8 and
      reflective-neutral 0.2 below a sentiment of -0.5, hope 0.8 and
      reflective-neutral 0.2 above 0.5, reflective-neutral 1.0 in between. */
  function SentimentDefaults(s: Scores, sentimentScore: real): (r: Scores)
    ensures sentimentScore < -0.5 ==> r.Get(Sorrow) == 0.8 && r.Get(ReflectiveNeutral) == 0.2
    ensures sentimentScore > 0.5 ==> r.Get(Hope) == 0.8 && r.Get(ReflectiveNeutral) == 0.2
    ensures -0.5 <= sentimentScore <= 0.5 ==> r.Get(ReflectiveNeutral) == 1.0
    ensures forall c :: r.Get(c) != s.Get(c) ==>
      c == ReflectiveNeutral || (c == Sorrow && sentimentScore < -0.5) || (c == Hope && sentimentScore > 0.5)
  {
    if sentimentScore < -0.5 then s.(sorrow := 0.8, neutral := 0.2)
    else if sentimentScore > 0.5 then s.(hope := 0.8, neutral := 0.2)
    else s.(neutral := 1.0)
  }

  /** When no pattern scored, the defaults make the sentiment's own side win:
      sorrow below -0.5, hope above 0.5, reflective-neutral otherwise. */
  lemma DefaultsFollowSentiment(s: Scores, sentimentScore: real)
    requires s.AbsTotal() == 0.0
    ensures ArgMax(SentimentDefaults(s, sentimentScore)) ==
      if sentimentScore < -0.5 then Sorrow else if sentimentScore > 0.5 then Hope else ReflectiveNeutral
  {
    ZeroTotal(s);
    DefaultsWinner(s, sentimentScore);
  }

  /** The winner of the defaults over all-zero scores. */
  lemma DefaultsWinner(s: Scores, sentimentScore: real)
    requires s == Zero
    ensures ArgMax(SentimentDefaults(s, sentimentScore)) ==
      if sentimentScore < -0.5 then Sorrow else if sentimentScore > 0.5 then Hope else ReflectiveNeutral
  {
  }

  predicate AnyIn(text: string, words: seq<string>) {
    exists i | 0 <= i < |words| :: Contains(text, words[i])
  }

  const StrongAmbivalentWords: seq<string> := ["adventure", "mistake", "terrible", "wonderful"]
  const TransformativeWords: seq<string> := ["death", "taught", "showed", "made me", "forced me"]
  const ReflectiveWords: seq<string> := ["questioning", "thinking", "wondering"]

  /** "both" together with "and" or "&". */
  predicate BothRule(lower: string) {
    Contains(lower, "both") && (Contains(lower, "and") || Contains(lower, "&"))
  }

  /** "questioning", or "find myself" with a word of thought. */
  predicate ReflectiveRule(lower: string) {
    Contains(lower, "questioning") || (Contains(lower, "find myself") && AnyIn(lower, ReflectiveWords))
  }

  /** Content filtered by the transcription service: `"***" in text or "*" in
      text`, which is the same test as `"*" in text`. */
  predicate FilteredRule(original: string) {
    Contains(original, "*")
  }

  /** The high-priority keyword rules on the lower-cased normalised text and
      the filtered-content rule on the original text.  Each rule moves only
      its own categories: ambivalent by 0.8 or 0.5, transformative by 0.6,
      reflective-neutral by 0.7 and by 0.8, sorrow by 0.9, and hope is cut to
      a tenth or a fifth by filtered content. */
  function KeywordBoosts(lower: string, original: string, sentimentScore: real, s: Scores): (r: Scores)
    ensures !BothRule(lower) ==> r.Get(Ambivalent) == s.Get(Ambivalent)
    ensures BothRule(lower) && AnyIn(lower, StrongAmbivalentWords) ==> r.Get(Ambivalent) == s.Get(Ambivalent) + 0.8
    ensures BothRule(lower) && !AnyIn(lower, StrongAmbivalentWords) ==> r.Get(Ambivalent) == s.Get(Ambivalent) + 0.5
    ensures r.Get(Transformative) == s.Get(Transformative) + (if AnyIn(lower, TransformativeWords) then 0.6 else 0.0)
    ensures r.Get(ReflectiveNeutral) == s.Get(ReflectiveNeutral)
      + (if ReflectiveRule(lower) then 0.7 else 0.0)
      + (if FilteredRule(original) && sentimentScore >= -0.3 then 0.8 else 0.0)
    ensures r.Get(Sorrow) == s.Get(Sorrow) + (if FilteredRule(original) && sentimentScore < -0.3 then 0.9 else 0.0)
    ensures !FilteredRule(original) ==> r.Get(Hope) == s.Get(Hope)
    ensures FilteredRule(original) ==> r.Get(Hope) == s.Get(Hope) * (if sentimentScore < -0.3 then 0.1 else 0.2)
  {
    var s1 :=
      if BothRule(lower) then
        s.(ambivalent := s.ambivalent + if AnyIn(lower, StrongAmbivalentWords) then 0.8 else 0.5)
      else s;
    var s2 := if AnyIn(lower, TransformativeWords) then s1.(transformative := s1.transformative + 0.6) else s1;
    var s3 := if ReflectiveRule(lower) then s2.(neutral := s2.neutral + 0.7) else s2;
    if FilteredRule(original) then
      if sentimentScore < -0.3 then s3.(sorrow := s3.sorrow + 0.9, hope := s3.hope * 0.1)
      else s3.(neutral := s3.neutral + 0.8, hope := s3.hope * 0.2)
    else s3
  }

  /** The keyword rules never lower a score other than hope, and never raise
      a non-negative hope score or make it negative. */
  lemma KeywordBoostsNeverLower(lower: string, original: string, sentimentScore: real, s: Scores)
    ensures var r := KeywordBoosts(lower, original, sentimentScore, s);
      && (forall c :: c != Hope ==> r.Get(c) >= s.Get(c))
      && (s.Get(Hope) >= 0.0 ==> 0.0 <= r.Get(Hope) <= s.Get(Hope))
  {
  }

  /** A text that triggers none of the keyword rules keeps its scores. */
  lemma KeywordBoostsNoTrigger(lower: string, original: string, sentimentScore: real, s: Scores)
    requires !BothRule(lower) && !AnyIn(lower, TransformativeWords) && !ReflectiveRule(lower)
    requires !FilteredRule(original)
    ensures KeywordBoosts(lower, original, sentimentScore, s) == s
  {
    var r := KeywordBoosts(lower, original, sentimentScore, s);
    assert r.hope == s.hope && r.sorrow == s.sorrow && r.transformative == s.transformative;
    assert r.ambivalent == s.ambivalent && r.neutral == s.neutral;
  }

  /** Only a sentiment stronger than 0.7 either way shifts hope against
      sorrow: the favoured side is scaled by 1.3, the other by 0.7. */
  function SentimentInfluence(sentimentScore: real, s: Scores): (r: Scores)
    ensures -0.7 <= sentimentScore <= 0.7 ==> r == s
    ensures sentimentScore < -0.7 ==> r.Get(Sorrow) == s.Get(Sorrow) * 1.3 && r.Get(Hope) == s.Get(Hope) * 0.7
    ensures sentimentScore > 0.7 ==> r.Get(Hope) == s.Get(Hope) * 1.3 && r.Get(Sorrow) == s.Get(Sorrow) * 0.7
    ensures forall c :: c != Hope && c != Sorrow ==> r.Get(c) == s.Get(c)
  {
    if sentimentScore < -0.7 then s.(sorrow := s.sorrow * 1.3, hope := s.hope * 0.7)
    else if sentimentScore > 0.7 then s.(hope := s.hope * 1.3, sorrow := s.sorrow * 0.7)
    else s
  }

  /** Strong sentiment never lets the other side overtake its own: with
      non-negative scores, sorrow stays at least hope under a strongly
      negative sentiment, and hope at least sorrow under a strongly positive one. */
  lemma InfluenceKeepsSideAhead(sentimentScore: real, s: Scores)
    requires s.Get(Hope) >= 0.0 && s.Get(Sorrow) >= 0.0
    ensures var r := SentimentInfluence(sentimentScore, s);
      && (sentimentScore < -0.7 && s.Get(Sorrow) >= s.Get(Hope) ==> r.Get(Sorrow) >= r.Get(Hope))
      && (sentimentScore > 0.7 && s.Get(Hope) >= s.Get(Sorrow) ==> r.Get(Hope) >= r.Get(Sorrow))
  {
  }

  /** The category scores of the main path before speaker calibration: the
      normalised pattern scores (or the sentiment defaults when none scored),
      the keyword boosts, then the sentiment influence. */
  function PatternScores(text: string, sentimentScore: real, obs: Observation): Scores {
    var s0 := CalculateCategoryScores(DetectPatterns(obs.normalized, obs.hits));
    var s1 := if s0.AbsTotal() == 0.0 then SentimentDefaults(s0, sentimentScore) else s0;
    SentimentInfluence(sentimentScore, KeywordBoosts(Lower(obs.normalized), text, sentimentScore, s1))
  }

  function Calibrate(s: Scores, factors: Scores): (r: Scores)
    ensures forall c :: r.Get(c) == s.Get(c) * factors.Get(c)
  {
    Scores(s.hope * factors.hope, s.sorrow * factors.sorrow, s.transformative * factors.transformative,
           s.ambivalent * factors.ambivalent, s.neutral * factors.neutral)
  }

  /** Speaker calibration and the narrative arc applied to the scores `pre`:
      each score multiplied by the speaker's factor, and, when a context
      window was passed, the arc score of the history extended by the
      calibrated winner added to the transformative score. */
  function CalibrateForSpeaker(st: ClassifierState, pre: Scores, speaker: string, hasContext: bool)
    : (r: (Scores, ClassifierState))
    ensures speaker in r.1.profiles && r.1.profiles.Keys == st.profiles.Keys + {speaker}
    ensures forall s :: s in st.profiles ==> r.1.profiles[s] == st.profiles[s]
    ensures !hasContext ==> r.1.arcs == st.arcs
    ensures var cal := Calibrate(pre, ProfileOf(st.profiles, speaker));
      && (forall c :: c != Transformative ==> r.0.Get(c) == cal.Get(c))
      && (!hasContext ==> r.0 == cal)
      && (hasContext ==>
           && r.1.arcs == st.arcs[speaker := HistoryOf(st.arcs, speaker) + [ArgMax(cal)]]
           && r.0.Get(Transformative) == cal.Get(Transformative) + ArcScore(r.1.arcs[speaker]))
  {
    var (profiles, factors) := SpeakerCalibration(st.profiles, speaker);
    assert factors == ProfileOf(st.profiles, speaker);
    var s4 := Calibrate(pre, factors);
    if hasContext then
      var (fin, arcs) := AddArcBonus(st.arcs, s4, speaker);
      (fin, ClassifierState(profiles, arcs))
    else
      (s4, ClassifierState(profiles, st.arcs))
  }

  /** The narrative-arc step: the winner of `s` joins the speaker's history
      and the arc score of that history is added to the transformative score. */
  function AddArcBonus(arcs: Arcs, s: Scores, speaker: string): (r: (Scores, Arcs))
    ensures r.1 == arcs[speaker := HistoryOf(arcs, speaker) + [ArgMax(s)]]
    ensures forall c :: c != Transformative ==> r.0.Get(c) == s.Get(c)
    ensures r.0.Get(Transformative) == s.Get(Transformative) + ArcScore(r.1[speaker])
  {
    var (arcs', narrative) := DetectNarrativeArc(arcs, speaker, ArgMax(s));
    (s.(transformative := s.transformative + narrative), arcs')
  }

  /** The final category scores of the main path of `classify_emotion`, and the
      classifier state after the speaker's profile and arc were consulted. */
  function FinalScores(st: ClassifierState, text: string, sentimentScore: real, speaker: string, obs: Observation)
    : (r: (Scores, ClassifierState))
    ensures speaker in r.1.profiles && r.1.profiles.Keys == st.profiles.Keys + {speaker}
    ensures forall s :: s in st.profiles ==> r.1.profiles[s] == st.profiles[s]
    ensures !obs.hasContext ==> r.1.arcs == st.arcs
    ensures var cal := Calibrate(PatternScores(text, sentimentScore, obs), ProfileOf(st.profiles, speaker));
      && (forall c :: c != Transformative ==> r.0.Get(c) == cal.Get(c))
      && (!obs.hasContext ==> r.0 == cal)
      && (obs.hasContext ==>
           && r.1.arcs == st.arcs[speaker := HistoryOf(st.arcs, speaker) + [ArgMax(cal)]]
           && r.0.Get(Transformative) == cal.Get(Transformative) + ArcScore(r.1.arcs[speaker]))
  {
    CalibrateForSpeaker(st, PatternScores(text, sentimentScore, obs), speaker, obs.hasContext)
  }

  /** A speaker seen for the first time is not calibrated: apart from the arc
      bonus, the final scores are the pattern scores, and the bonus is 0, 0.7
      or 0.8. */
  lemma NewSpeakerIsUncalibrated(st: ClassifierState, text: string, sentimentScore: real, speaker: string, obs: Observation)
    requires speaker !in st.profiles
    ensures var (fin, _) := FinalScores(st, text, sentimentScore, speaker, obs);
      var pre := PatternScores(text, sentimentScore, obs);
      && (forall c :: c != Transformative ==> fin.Get(c) == pre.Get(c))
      && (!obs.hasContext ==> fin == pre)
      && (obs.hasContext ==> var bonus := fin.Get(Transformative) - pre.Get(Transformative);
            bonus == 0.0 || bonus == 0.7 || bonus == 0.8)
  {
    var (fin, st') := FinalScores(st, text, sentimentScore, speaker, obs);
    var pre := PatternScores(text, sentimentScore, obs);
    assert ProfileOf(st.profiles, speaker) == Uniform;
    CalibrateUniform(pre);
    if obs.hasContext {
      ArcScoreWindow(st'.arcs[speaker]);
    }
  }

  /** Calibrating with the uniform profile changes nothing. */
  lemma CalibrateUniform(s: Scores)
    ensures Calibrate(s, Uniform) == s
  {
  }

  /** `classify_emotion` (explanation and timestamp left out). */
  function Classify(st: ClassifierState, text: string, sentimentScore: real, speaker: string, obs: Observation)
    : (r: (ClassificationResult, ClassifierState))
    ensures |Strip(text)| < 3 ==>
      r == (ClassificationResult(ReflectiveNeutral, 0.1, 0.0, []), st)
    ensures |Strip(text)| >= 3 && IsLikelyNonsensical(Strip(text)) ==>
      r == (ClassificationResult(ReflectiveNeutral, 0.2, sentimentScore, []), st)
    ensures |Strip(text)| >= 3 && !IsLikelyNonsensical(Strip(text)) ==>
      var (fin, st') := FinalScores(st, text, sentimentScore, speaker, obs);
      && r.1 == st'
      && r.0.score == sentimentScore
      && r.0.matches == DetectPatterns(obs.normalized, obs.hits)
      && (forall c :: fin.Get(c) <= fin.Get(r.0.category))
      && (forall c :: CategoryIndex(c) < CategoryIndex(r.0.category) ==> fin.Get(c) < fin.Get(r.0.category))
      && r.0.confidence == Confidence(fin.Get(r.0.category), SecondHighest(fin))
      && 0.1 <= r.0.confidence <= 0.98
      && (fin.Get(r.0.category) <= 1.0 ==> r.0.confidence <= 0.95)
  {
    var clean := Strip(text);
    if |clean| < 3 then
      (ClassificationResult(ReflectiveNeutral, 0.1, 0.0, []), st)
    else if IsLikelyNonsensical(clean) then
      (ClassificationResult(ReflectiveNeutral, 0.2, sentimentScore, []), st)
    else
      var (fin, st') := FinalScores(st, text, sentimentScore, speaker, obs);
      var winner := ArgMax(fin);
      var conf := Confidence(fin.Get(winner), SecondHighest(fin));
      (ClassificationResult(winner, conf, sentimentScore, DetectPatterns(obs.normalized, obs.hits)), st')
  }

  // ---------------------------------------------------------------------
  // _is_likely_nonsensical
  // ---------------------------------------------------------------------

  const CommonShortWords: seq<string> := ["yes", "no", "ok", "hi", "bye", "wow", "oh", "ah", "um", "uh", "you"]

  function Distinct(ws: seq<string>): set<string> {
    set w | w in ws
  }

  /** Some word of `ws` occurs at least `k` times. */
  predicate SomeWordRepeats(ws: seq<string>, k: nat) {
    exists i | 0 <= i < |ws| :: multiset(ws)[ws[i]] >= k
  }

  /** `^[a-z]{1,3}\.{3,}$`. */
  predicate DotsPattern(s: string) {
    LettersThenDots(s, 1) || LettersThenDots(s, 2) || LettersThenDots(s, 3)
  }

  /** `k` lower-case letters followed by at least three dots and nothing else. */
  predicate LettersThenDots(s: string, k: nat) {
    && k + 3 <= |s|
    && (forall i | 0 <= i < k :: IsLowerLetter(s[i]))
    && (forall i | k <= i < |s| :: s[i] == '.')
  }

  /** `^[a-z\s]{1,10}\.$`. */
  predicate ShortPeriodPattern(s: string) {
    && 2 <= |s| <= 11
    && s[|s| - 1] == '.'
    && forall i | 0 <= i < |s| - 1 :: IsLowerLetter(s[i]) || IsSpace(s[i])
  }

  /** `^[^a-zA-Z\s]*$`: no letter and no whitespace at all (the empty string included). */
  predicate NoLettersPattern(s: string) {
    forall i | 0 <= i < |s| :: !IsAlpha(s[i]) && !IsSpace(s[i])
  }

  /** `^[a-z]\s[a-z]\s[a-z](\s[a-z])*$`: three or more single letters, each
      separated by one whitespace character. */
  predicate SpacedLettersPattern(s: string) {
    && |s| >= 5
    && |s| % 2 == 1
    && forall i | 0 <= i < |s| :: if i % 2 == 0 then IsLowerLetter(s[i]) else IsSpace(s[i])
  }

  /** One of the four noise patterns matches.  The text they are tried on is
      stripped, so `$` never has a trailing newline to skip. */
  predicate NoisePattern(s: string) {
    DotsPattern(s) || ShortPeriodPattern(s) || NoLettersPattern(s) || SpacedLettersPattern(s)
  }

  predicate IsSymbol(c: char) {
    !IsAlpha(c) && !IsSpace(c)
  }

  /** Number of characters that are neither letters nor whitespace. */
  function SymbolCount(s: string): (n: nat)
    ensures n <= |s|
  {
    if s == [] then 0 else SymbolCount(s[..|s| - 1]) + (if IsSymbol(s[|s| - 1]) then 1 else 0)
  }

  /** More than half of the characters are symbols. */
  predicate SymbolHeavy(text: string) {
    |text| > 0 && (SymbolCount(text) as real) / (|text| as real) > 0.5
  }

  /** `_is_likely_nonsensical`. */
  predicate IsLikelyNonsensical(text: string): (r: bool)
    ensures Strip(Lower(text)) == [] ==> r
  {
    var low := Strip(Lower(text));
    var ws := Words(low);
    || (|ws| == 1 && |low| < 4 && low !in CommonShortWords)
    || (|ws| >= 3 && |Distinct(ws)| <= 2 && |ws| >= 4)
    || (|ws| >= 3 && |Distinct(ws)| <= 3 && |ws| >= 6 && SomeWordRepeats(ws, 3))
    || NoisePattern(low)
    || SymbolHeavy(text)
  }
}

=== FILE: analyses.dfy ===
/** The result record the analysers return.  Python returns a dictionary
    whose keys vary by analyser; the keys that are only sometimes present are
    `Option` fields here, `None` meaning "key absent".  Explanation strings
    are not modelled. */
module Analyses {
  import opened Wrappers
  import opened Reals
  import opened Categories
  import AdvancedClassifier

  datatype Analysis = Analysis(
    score: real,
    sentimentLabel: Label,
    category: Category,
    intensity: real,
    confidence: real,
    /** `classification_confidence` */
    classificationConfidence: Option<real>,
    /** `matched_patterns` */
    matchedPatterns: Option<seq<AdvancedClassifier.ScoredMatch>>,
    /** `analysis_source` */
    source: Option<string>,
    /** `combination_strategy` */
    strategy: Option<string>,
    /** `primary_source` */
    primary: Option<string>,
    agreement: Option<bool>)

  /** A result carrying only the five core keys. */
  function Plain(score: real, l: Label, category: Category, intensity: real, confidence: real): Analysis {
    Analysis(score, l, category, intensity, confidence, None, None, None, None, None, None)
  }

  /** The neutral placeholder the analysers return when there is nothing to
      analyse or an analysis failed; only the confidence differs between them. */
  function NeutralResult(confidence: real): Analysis {
    Plain(0.0, Neutral, ReflectiveNeutral, 0.0, confidence)
  }

  /** `speaker_id or "unknown"`: a missing or empty speaker id is classified
      as "unknown"; any other id is used as it is. */
  function SpeakerKey(speaker: Option<string>): (k: string)
    ensures k != []
    ensures speaker.Some? && speaker.value != [] ==> k == speaker.value
    ensures speaker.None? || speaker.value == [] ==> k == "unknown"
  {
    if speaker.Some? && speaker.value != [] then speaker.value else "unknown"
  }

  /** `max(lo, min(x, hi))`. */
  function Clamp(x: real, lo: real, hi: real): (r: real)
    requires lo <= hi
    ensures lo <= r <= hi
    ensures lo <= x <= hi ==> r == x
    ensures x < lo ==> r == lo
    ensures x > hi ==> r == hi
  {
    Max(Min(x, hi), lo)
  }
}

=== FILE: assemblyai.dfy ===
/** The decision rules of the audio pipeline: its own copy of the
    "nonsensical content" check, the fallback sentiment result, the rule
    that skips empty or very short utterances, and the rule that decides
    which analyser type a stored analysis is recorded under.  Transcription,
    the database and console output are not modelled. */
module AudioPipeline {
  import opened Wrappers
  import opened Strings
  import opened Categories
  import opened Analyses
  import AdvancedClassifier
  import CombinedAnalyzer
  import LlmAnalyzer

  // ---------------------------------------------------------------------
  // _is_nonsensical_content
  // ---------------------------------------------------------------------

  /** `_is_nonsensical_content`, written the way the audio module computes it:
      early returns, a word-count dictionary and its maximum, and a count of
      symbol characters.  It returns the same answer as the classifier's
      `_is_likely_nonsensical` on every text. */
  method IsNonsensicalContent(text: string) returns (r: bool)
    ensures r == AdvancedClassifier.IsLikelyNonsensical(text)
  {
    var low := Strip(Lower(text));
    var words := Words(low);
    if |words| == 1 && |low| < 4 && low !in AdvancedClassifier.CommonShortWords {
      return true;
    }
    if |words| >= 3 {
      var unique := AdvancedClassifier.Distinct(words);
      if |unique| <= 2 && |words| >= 4 {
        return true;
      }
      if |unique| <= 3 && |words| >= 6 {
        var maxRepetitions := MaxRepetitions(words);
        if maxRepetitions >= 3 {
          return true;
        }
      }
    }
    if AdvancedClassifier.NoisePattern(low) {
      return true;
    }
    var symbols := CountSymbols(text);
    if |text| > 0 && (symbols as real) / (|text| as real) > 0.5 {
      return true;
    }
    return false;
  }

  /** `max(word_counts.values())` after counting every word of a non-empty
      list in a dictionary. */
  method MaxRepetitions(words: seq<string>) returns (m: nat)
    requires |words| > 0
    ensures exists i | 0 <= i < |words| :: multiset(words)[words[i]] == m
    ensures forall i | 0 <= i < |words| :: multiset(words)[words[i]] <= m
  {
    var counts: map<string, nat> := map[];
    var i := 0;
    while i < |words|
      invariant 0 <= i <= |words|
      invariant forall k | 0 <= k < i :: words[k] in counts
      invariant forall w | w in counts :: counts[w] == multiset(words[..i])[w]
    {
      var w := words[i];
      assert multiset(words[..i + 1]) == multiset(words[..i]) + multiset{w} by {
        assert words[..i + 1] == words[..i] + [w];
      }
      counts := counts[w := (if w in counts then counts[w] else 0) + 1];
      i := i + 1;
    }
    assert words[..i] == words;
    m := counts[words[0]];
    var j := 1;
    while j < |words|
      invariant 1 <= j <= |words|
      invariant exists k | 0 <= k < j :: counts[words[k]] == m
      invariant forall k | 0 <= k < j :: counts[words[k]] <= m
    {
      if counts[words[j]] > m {
        m := counts[words[j]];
      }
      j := j + 1;
    }
  }

  /** `sum(1 for char in text if not char.isalpha() and not char.isspace())`. */
  method CountSymbols(text: string) returns (n: nat)
    ensures n == AdvancedClassifier.SymbolCount(text)
  {
    n := 0;
    var i := 0;
    while i < |text|
      invariant 0 <= i <= |text|
      invariant n == AdvancedClassifier.SymbolCount(text[..i])
    {
      assert text[..i + 1][..i] == text[..i];
      if AdvancedClassifier.IsSymbol(text[i]) {
        n := n + 1;
      }
      i := i + 1;
    }
    assert text[..i] == text;
  }

  // ---------------------------------------------------------------------
  // Properties of the nonsense check
  // ---------------------------------------------------------------------

  /** A single word shorter than four characters that is not a common short
      word is nonsensical. */
  lemma ShortUncommonWordIsNonsensical(text: string)
    requires var low := Strip(Lower(text));
      |Words(low)| == 1 && |low| < 4 && low !in AdvancedClassifier.CommonShortWords
    ensures AdvancedClassifier.IsLikelyNonsensical(text)
  {
  }

  /** Four or more words drawn from at most two distinct words are nonsensical. */
  lemma FewDistinctWordsIsNonsensical(text: string)
    requires var ws := Words(Strip(Lower(text)));
      |ws| >= 4 && |AdvancedClassifier.Distinct(ws)| <= 2
    ensures AdvancedClassifier.IsLikelyNonsensical(text)
  {
  }

  /** Six or more words drawn from at most three distinct words, one of them
      occurring at least three times, are nonsensical. */
  lemma RepeatedWordIsNonsensical(text: string, i: nat)
    requires var ws := Words(Strip(Lower(text)));
      && |ws| >= 6 && |AdvancedClassifier.Distinct(ws)| <= 3
      && i < |ws| && multiset(ws)[ws[i]] >= 3
    ensures AdvancedClassifier.IsLikelyNonsensical(text)
  {
  }

  /** A text with neither letters nor whitespace is nonsensical; the empty
      text included. */
  lemma NoLettersIsNonsensical(text: string)
    requires forall i | 0 <= i < |text| :: !IsAlpha(text[i]) && !IsSpace(text[i])
    ensures AdvancedClassifier.IsLikelyNonsensical(text)
  {
    var lower := Lower(text);
    assert lower == text;
    if text != [] {
      StripUnchanged(text);
    }
    assert Strip(lower) == text;
    assert AdvancedClassifier.NoLettersPattern(text);
  }

  /** More than half of the characters being symbols makes a text nonsensical. */
  lemma SymbolHeavyIsNonsensical(text: string)
    requires |text| > 0 && 2 * AdvancedClassifier.SymbolCount(text) > |text|
    ensures AdvancedClassifier.IsLikelyNonsensical(text)
  {
    MoreThanHalf(AdvancedClassifier.SymbolCount(text), |text|);
    assert AdvancedClassifier.SymbolHeavy(text);
  }

  /** More than half of `m` as a count is more than half as a ratio. */
  lemma MoreThanHalf(n: nat, m: nat)
    requires m > 0 && 2 * n > m
    ensures (n as real) / (m as real) > 0.5
  {
    var x, y := n as real, m as real;
    assert (2 * n) as real > y > 0.0;
    assert (2 * n) as real == 2.0 * x;
    var q := x / y;
    assert q * y == x;
    if q <= 0.5 {
      assert false;
    }
  }

  // ---------------------------------------------------------------------
  // _create_fallback_sentiment_result
  // ---------------------------------------------------------------------

  /** `_create_fallback_sentiment_result` (explanation left out): a neutral
      result with no confidence and no matched patterns. */
  function FallbackSentimentResult(): (r: Analysis)
    ensures r.score == 0.0 && r.confidence == 0.0 && r.intensity == 0.0
    ensures r.sentimentLabel == Neutral && r.category == ReflectiveNeutral
    ensures r.classificationConfidence == Some(0.0) && r.matchedPatterns == Some([])
  {
    NeutralResult(0.0).(classificationConfidence := Some(0.0), matchedPatterns := Some([]))
  }

  /** The audio fallback and the combined analyser's fallback agree on the
      five core keys. */
  lemma FallbacksAgree()
    ensures var a, b := FallbackSentimentResult(), CombinedAnalyzer.FallbackResult();
      a.score == b.score && a.sentimentLabel == b.sentimentLabel && a.category == b.category
      && a.intensity == b.intensity && a.confidence == b.confidence
  {
  }

  // ---------------------------------------------------------------------
  // Utterance skipping
  // ---------------------------------------------------------------------

  /** An utterance is skipped when its stripped text is empty or shorter than
      two characters. */
  predicate Skipped(utterance: string) {
    var text := Strip(utterance);
    text == [] || |Strip(text)| < 2
  }

  /** The stripped texts of the utterances that are analysed, in order. */
  function Analysed(utterances: seq<string>): seq<string> {
    if utterances == [] then []
    else
      var last := utterances[|utterances| - 1];
      Analysed(utterances[..|utterances| - 1]) + (if Skipped(last) then [] else [Strip(last)])
  }

  /** The loop of `analyze_audio` over the utterances, reduced to its skip
      rule: which texts go on to be analysed and how many were skipped. */
  method SelectUtterances(utterances: seq<string>) returns (analysed: seq<string>, skippedCount: nat)
    ensures analysed == Analysed(utterances)
    ensures |analysed| + skippedCount == |utterances|
  {
    analysed := [];
    skippedCount := 0;
    var i := 0;
    while i < |utterances|
      invariant 0 <= i <= |utterances|
      invariant analysed == Analysed(utterances[..i])
      invariant |analysed| + skippedCount == i
    {
      assert utterances[..i + 1][..i] == utterances[..i];
      var text := Strip(utterances[i]);
      if Skipped(utterances[i]) {
        skippedCount := skippedCount + 1;
      } else {
        analysed := analysed + [text];
      }
      i := i + 1;
    }
    assert utterances[..i] == utterances;
  }

  /** An utterance is skipped exactly when its stripped text is shorter than
      two characters. */
  lemma SkippedIffShort(u: string)
    ensures Skipped(u) <==> |Strip(u)| < 2
  {
    var t := Strip(u);
    StripIdempotent(u);
    assert Strip(t) == t;
  }

  /** Every analysed text is a stripped utterance of at least two characters. */
  lemma {:induction false} AnalysedAreLongEnough(utterances: seq<string>)
    ensures forall k | 0 <= k < |Analysed(utterances)| :: |Analysed(utterances)[k]| >= 2
  {
    if utterances != [] {
      var init := utterances[..|utterances| - 1];
      var last := utterances[|utterances| - 1];
      AnalysedAreLongEnough(init);
      SkippedIffShort(last);
      var tail := if Skipped(last) then [] else [Strip(last)];
      assert Analysed(utterances) == Analysed(init) + tail;
      assert forall k | 0 <= k < |tail| :: |tail[k]| >= 2;
    }
  }

  // ---------------------------------------------------------------------
  // Analyser type of a stored analysis
  // ---------------------------------------------------------------------

  /** COMBINED when a language-model result took part and the analysis is not
      marked as transformer-only or fallback; TRANSFORMER otherwise. */
  function StoredAnalyzerType(c: CombinedAnalyzer.CombinedResult): (t: AnalyzerType)
    ensures t == Combined || t == Transformer
    ensures !c.hasLlm ==> t == Transformer
    ensures c.analysis.source in {Some("transformer_only"), Some("fallback")} ==> t == Transformer
  {
    if c.hasLlm && c.analysis.source != Some("transformer_only") && c.analysis.source != Some("fallback")
    then Combined
    else Transformer
  }

  /** A fresh combined analysis is stored as COMBINED exactly when the
      language model contributed to it, under every strategy. */
  lemma StoredTypeIsCombinedIffLlm(strategy: CombinedAnalyzer.Strategy, transformer: Option<Analysis>,
                                   useLlm: bool, llm: Option<Analysis>)
    ensures var r := CombinedAnalyzer.Analyze(strategy, transformer, useLlm, llm);
      StoredAnalyzerType(r) == Combined <==> (useLlm && llm.Some?)
  {
  }

  /** A language-model request that failed inside its analyser still counts
      as a language-model result: the combined analysis has `has_llm` set and
      is stored as COMBINED. */
  lemma FailedLlmRequestIsCombined(strategy: CombinedAnalyzer.Strategy, transformer: Option<Analysis>)
    ensures var r := CombinedAnalyzer.Analyze(strategy, transformer, true, Some(LlmAnalyzer.ErrorResult));
      r.hasLlm && StoredAnalyzerType(r) == Combined
  {
    StoredTypeIsCombinedIffLlm(strategy, transformer, true, Some(LlmAnalyzer.ErrorResult));
  }
}

=== FILE: categories.dfy ===
/** The enumerations shared by the analysers, the combiner and the database:
    the five emotion categories, the five sentiment labels, the three-way
    hope/sorrow/neutral sentiment category and the analyser kinds. */
module Categories {
  import Wrappers

  /** `EmotionCategory`, in declaration order (the order Python iterates it). */
  datatype Category = Hope | Sorrow | Transformative | Ambivalent | ReflectiveNeutral

  function CategoryName(c: Category): string {
    match c
    case Hope => "hope"
    case Sorrow => "sorrow"
    case Transformative => "transformative"
    case Ambivalent => "ambivalent"
    case ReflectiveNeutral => "reflective_neutral"
  }

  /** Position of a category in the enumeration. */
  function CategoryIndex(c: Category): nat {
    match c
    case Hope => 0
    case Sorrow => 1
    case Transformative => 2
    case Ambivalent => 3
    case ReflectiveNeutral => 4
  }

  /** `SentimentLabel`. */
  datatype Label = VeryPositive | Positive | Neutral | Negative | VeryNegative

  function LabelName(l: Label): string {
    match l
    case VeryPositive => "very_positive"
    case Positive => "positive"
    case Neutral => "neutral"
    case Negative => "negative"
    case VeryNegative => "very_negative"
  }

  /** Labels ordered from most negative (0) to most positive (4). */
  function LabelRank(l: Label): nat {
    match l
    case VeryNegative => 0
    case Negative => 1
    case Neutral => 2
    case Positive => 3
    case VeryPositive => 4
  }

  /** The label whose name is `s`, if `s` is one of the five valid names. */
  function LabelFromName(s: string): (r: Wrappers.Option<Label>)
    ensures r.Some? ==> LabelName(r.value) == s
    ensures r.None? ==> forall l :: LabelName(l) != s
  {
    if s == "very_positive" then Wrappers.Some(VeryPositive)
    else if s == "positive" then Wrappers.Some(Positive)
    else if s == "neutral" then Wrappers.Some(Neutral)
    else if s == "negative" then Wrappers.Some(Negative)
    else if s == "very_negative" then Wrappers.Some(VeryNegative)
    else Wrappers.None
  }

  /** Every label's name reads back as that label. */
  lemma LabelNameRoundTrip(l: Label)
    ensures LabelFromName(LabelName(l)) == Wrappers.Some(l)
  {
  }

  /** `SentimentCategory`: the coarse hope / sorrow / neutral reading of a score. */
  datatype SentimentCategory = HopeSentiment | SorrowSentiment | NeutralSentiment

  /** The band a score falls in between a sorrow bound and a higher hope
      bound: hope at or above the hope bound, sorrow at or below the sorrow
      bound, neutral strictly between them. */
  function SentimentBand(score: real, hopeAt: real, sorrowAt: real): (c: SentimentCategory)
    requires sorrowAt < hopeAt
    ensures c == HopeSentiment <==> score >= hopeAt
    ensures c == SorrowSentiment <==> score <= sorrowAt
    ensures c == NeutralSentiment <==> sorrowAt < score < hopeAt
  {
    if score >= hopeAt then HopeSentiment
    else if score <= sorrowAt then SorrowSentiment
    else NeutralSentiment
  }

  /** `AnalyzerType` of a stored sentiment analysis. */
  datatype AnalyzerType = Transformer | Llm | Combined
}

=== FILE: combined_analyzer.dfy ===
/** `CombinedSentimentAnalyzer`: merges the emotion-model result with the
    language-model result under one of five strategies.  Both analyser
    results are inputs; a failed emotion-model analysis is `None` and is
    replaced by the neutral fallback. */
module CombinedAnalyzer {
  import opened Wrappers
  import opened Reals
  import opened Categories
  import opened Analyses

  datatype Strategy = WeightedAverage | HighestConfidence | TransformerPrimary | LlmPrimary | Consensus

  const TransformerWeight: real := 0.6
  const LlmWeight: real := 0.4

  /** `_score_to_label`: lower-inclusive bands at 0.6, 0.2, -0.1 and -0.3. */
  function ScoreToLabel(score: real): (l: Label)
    ensures l == VeryPositive <==> score >= 0.6
    ensures l == VeryNegative <==> score < -0.3
    ensures l == Neutral <==> -0.1 <= score < 0.2
  {
    if score >= 0.6 then VeryPositive
    else if score >= 0.2 then Positive
    else if score >= -0.1 then Neutral
    else if score >= -0.3 then Negative
    else VeryNegative
  }

  /** A higher combined score never gets a more negative label. */
  lemma ScoreToLabelMonotone(s1: real, s2: real)
    requires s1 <= s2
    ensures LabelRank(ScoreToLabel(s1)) <= LabelRank(ScoreToLabel(s2))
  {
  }

  /** `_create_fallback_result`: used in place of a failed emotion-model analysis. */
  function FallbackResult(): (r: Analysis)
    ensures r.score == 0.0 && r.confidence == 0.0 && r.intensity == 0.0
    ensures r.sentimentLabel == Neutral && r.category == ReflectiveNeutral
    ensures r.source.None? && r.strategy.None?
  {
    NeutralResult(0.0)
  }

  /** `_weighted_average_combination`: 0.6/0.4 weighted score and confidence;
      the category of the more confident side, the emotion model on a tie. */
  function WeightedAverageCombination(t: Analysis, l: Analysis): (r: Analysis)
    ensures r.score == TransformerWeight * t.score + LlmWeight * l.score
    ensures r.confidence == TransformerWeight * t.confidence + LlmWeight * l.confidence
    ensures t.confidence >= l.confidence ==> r.category == t.category && r.primary == Some("transformer")
    ensures t.confidence < l.confidence ==> r.category == l.category && r.primary == Some("llm")
    ensures r.intensity == Abs(r.score) && r.sentimentLabel == ScoreToLabel(r.score)
    ensures r.source == Some("combined") && r.strategy == Some("weighted_average")
    ensures r.agreement.None?
  {
    var score := t.score * TransformerWeight + l.score * LlmWeight;
    var confidence := t.confidence * TransformerWeight + l.confidence * LlmWeight;
    var (category, primary) := if t.confidence >= l.confidence then (t.category, "transformer") else (l.category, "llm");
    Analysis(score, ScoreToLabel(score), category, Abs(score), confidence,
             None, None, Some("combined"), Some("weighted_average"), Some(primary), None)
  }

  /** A weighted mean lies between its two inputs. */
  lemma WeightedMeanBetween(a: real, b: real)
    ensures Min(a, b) <= TransformerWeight * a + LlmWeight * b <= Max(a, b)
  {
  }

  /** `_highest_confidence_combination`: the more confident result, unchanged
      but for its provenance keys; the emotion model wins a tie. */
  function HighestConfidenceCombination(t: Analysis, l: Analysis): (r: Analysis)
    ensures t.confidence >= l.confidence ==>
      r == t.(source := Some("transformer_confident"), strategy := Some("highest_confidence"))
    ensures t.confidence < l.confidence ==>
      r == l.(source := Some("llm_confident"), strategy := Some("highest_confidence"))
    ensures r.confidence == Max(t.confidence, l.confidence)
  {
    if t.confidence >= l.confidence then
      t.(source := Some("transformer_confident"), strategy := Some("highest_confidence"))
    else
      l.(source := Some("llm_confident"), strategy := Some("highest_confidence"))
  }

  /** `_consensus_combination`: on agreement the mean score and the mean
      confidence plus 0.1 (at most 0.95); otherwise the weighted average with
      its confidence reduced to 80%. */
  function ConsensusCombination(t: Analysis, l: Analysis): (r: Analysis)
    ensures t.category == l.category ==>
      && r.category == t.category
      && r.score == (t.score + l.score) / 2.0
      && r.confidence == Min(0.95, (t.confidence + l.confidence) / 2.0 + 0.1)
      && r.agreement == Some(true) && r.source == Some("consensus") && r.strategy == Some("consensus")
    ensures t.category != l.category ==>
      var w := WeightedAverageCombination(t, l);
      && r == w.(confidence := w.confidence * 0.8, strategy := Some("consensus_fallback"), agreement := Some(false))
    ensures r.intensity == Abs(r.score) && r.sentimentLabel == ScoreToLabel(r.score)
  {
    if t.category == l.category then
      var score := (t.score + l.score) / 2.0;
      var confidence := Min(0.95, (t.confidence + l.confidence) / 2.0 + 0.1);
      Analysis(score, ScoreToLabel(score), t.category, Abs(score), confidence,
               None, None, Some("consensus"), Some("consensus"), None, Some(true))
    else
      var w := WeightedAverageCombination(t, l);
      w.(confidence := w.confidence * 0.8, strategy := Some("consensus_fallback"), agreement := Some(false))
  }

  /** Confidence of a primary result after consulting the other analyser:
      plus 0.1 (at most 0.95) on agreement, 90% otherwise. */
  function AdjustedConfidence(c: real, agree: bool): (r: real)
    ensures agree ==> r == Min(0.95, c + 0.1)
    ensures !agree ==> r == c * 0.9
  {
    if agree then Min(0.95, c + 0.1) else c * 0.9
  }

  /** `_transformer_primary_combination`: the emotion-model result with its
      confidence adjusted by agreement. */
  function TransformerPrimaryCombination(t: Analysis, l: Analysis): (r: Analysis)
    ensures r.category == t.category && r.score == t.score && r.sentimentLabel == t.sentimentLabel
    ensures r.confidence == AdjustedConfidence(t.confidence, t.category == l.category)
    ensures r.source == Some("transformer_primary") && r.strategy == Some("transformer_primary")
  {
    t.(confidence := AdjustedConfidence(t.confidence, t.category == l.category),
       source := Some("transformer_primary"), strategy := Some("transformer_primary"))
  }

  /** `_llm_primary_combination`: the language-model result with its
      confidence adjusted by agreement. */
  function LlmPrimaryCombination(t: Analysis, l: Analysis): (r: Analysis)
    ensures r.category == l.category && r.score == l.score && r.sentimentLabel == l.sentimentLabel
    ensures r.confidence == AdjustedConfidence(l.confidence, t.category == l.category)
    ensures r.source == Some("llm_primary") && r.strategy == Some("llm_primary")
  {
    l.(confidence := AdjustedConfidence(l.confidence, t.category == l.category),
       source := Some("llm_primary"), strategy := Some("llm_primary"))
  }

  /** `_combine_analyses`. */
  function CombineAnalyses(strategy: Strategy, t: Analysis, l: Analysis): (r: Analysis)
    ensures strategy == WeightedAverage ==> r == WeightedAverageCombination(t, l)
    ensures strategy == HighestConfidence ==> r == HighestConfidenceCombination(t, l)
    ensures strategy == TransformerPrimary ==> r == TransformerPrimaryCombination(t, l)
    ensures strategy == LlmPrimary ==> r == LlmPrimaryCombination(t, l)
    ensures strategy == Consensus ==> r == ConsensusCombination(t, l)
  {
    match strategy
    case TransformerPrimary => TransformerPrimaryCombination(t, l)
    case LlmPrimary => LlmPrimaryCombination(t, l)
    case HighestConfidence => HighestConfidenceCombination(t, l)
    case Consensus => ConsensusCombination(t, l)
    case WeightedAverage => WeightedAverageCombination(t, l)
  }

  predicate InUnit(x: real) {
    0.0 <= x <= 1.0
  }

  /** Whatever the strategy, two confidences in [0, 1] combine into one in
      [0, 1]. */
  lemma CombinedConfidenceInUnit(strategy: Strategy, t: Analysis, l: Analysis)
    requires InUnit(t.confidence) && InUnit(l.confidence)
    ensures InUnit(CombineAnalyses(strategy, t, l).confidence)
  {
  }

  /** The combined analysis with the metadata `analyze` attaches. */
  datatype CombinedResult = CombinedResult(
    analysis: Analysis,
    hasLlm: bool,
    transformerCategory: Category,
    llmCategory: Option<Category>,
    transformerConfidence: real,
    llmConfidence: Option<real>)

  /** Confidence of the emotion model when it is the only source: raised by
      10% (at most 0.95) when above 0.6. */
  function SoloConfidence(c: real): (r: real)
    ensures c > 0.6 ==> r == Min(0.95, c * 1.1)
    ensures c <= 0.6 ==> r == c
  {
    if c > 0.6 then Min(0.95, c * 1.1) else c
  }

  /** A sole confidence is never lowered except when it exceeds 0.95. */
  lemma SoloConfidenceRaises(c: real)
    ensures c <= 0.95 ==> c <= SoloConfidence(c)
    ensures SoloConfidence(c) <= Max(c, 0.95)
  {
  }

  /** `CombinedSentimentAnalyzer.analyze`.  `transformer` is `None` when the
      emotion-model analysis raised; `llm` is `None` when the language-model
      analysis raised.  A request or decoding failure inside the language-model
      analyser does not raise: it yields that analyser's neutral error result,
      which takes part like any other.  The language model is consulted only
      when `useLlm` holds. */
  function Analyze(strategy: Strategy, transformer: Option<Analysis>, useLlm: bool, llm: Option<Analysis>)
    : (r: CombinedResult)
    ensures var t := transformer.GetOr(FallbackResult());
      && r.transformerCategory == t.category
      && r.transformerConfidence == t.confidence
      && (r.hasLlm <==> useLlm && llm.Some?)
      && (r.hasLlm ==>
            && r.analysis == CombineAnalyses(strategy, t, llm.value)
            && r.llmCategory == Some(llm.value.category)
            && r.llmConfidence == Some(llm.value.confidence))
      && (!r.hasLlm ==>
            && r.analysis == t.(source := Some("transformer_only"), strategy := Some("fallback"),
                                confidence := SoloConfidence(t.confidence))
            && r.llmCategory.None? && r.llmConfidence.None?)
  {
    var t := transformer.GetOr(FallbackResult());
    var l := if useLlm then llm else None;
    match l
    case None =>
      var a := t.(source := Some("transformer_only"), strategy := Some("fallback"),
                  confidence := SoloConfidence(t.confidence));
      CombinedResult(a, false, t.category, None, t.confidence, None)
    case Some(lr) =>
      CombinedResult(CombineAnalyses(strategy, t, lr), true, t.category, Some(lr.category), t.confidence, Some(lr.confidence))
  }

  /** The combined result is marked "transformer_only" exactly when no
      language-model result took part. */
  lemma TransformerOnlyIffNoLlm(strategy: Strategy, transformer: Option<Analysis>, useLlm: bool, llm: Option<Analysis>)
    ensures var r := Analyze(strategy, transformer, useLlm, llm);
      (r.analysis.source == Some("transformer_only")) <==> !(useLlm && llm.Some?)
  {
  }

  /** With confidences in [0, 1] on both sides the final confidence is in [0, 1]. */
  lemma AnalyzeConfidenceInUnit(strategy: Strategy, transformer: Option<Analysis>, useLlm: bool, llm: Option<Analysis>)
    requires transformer.Some? ==> InUnit(transformer.value.confidence)
    requires llm.Some? ==> InUnit(llm.value.confidence)
    ensures InUnit(Analyze(strategy, transformer, useLlm, llm).analysis.confidence)
  {
    var t := transformer.GetOr(FallbackResult());
    if useLlm && llm.Some? {
      CombinedConfidenceInUnit(strategy, t, llm.value);
    }
  }
}

=== FILE: config.dfy ===
/** `Config`: a key/value store with defaults, required keys, updates, and
    the rewriting of sqlite database URLs into the data directory.  Loading
    the environment and `.env` files is not modelled: the store is given. */
module Configuration {
  import opened Wrappers
  import opened Strings

  /** The kinds of value the store holds; `Null` is Python's `None`. */
  datatype Value = Null | Str(s: string) | Num(r: real) | Int(i: int) | Bool(b: bool)

  type Store = map<string, Value>

  /** `get`: the stored value, or `default` for an absent key. */
  function Get(cfg: Store, key: string, default: Value): (v: Value)
    ensures key in cfg ==> v == cfg[key]
    ensures key !in cfg ==> v == default
  {
    if key in cfg then cfg[key] else default
  }

  /** `get_required`: fails when the key is absent or holds `None`. */
  function GetRequired(cfg: Store, key: string): (r: Result<Value, string>)
    ensures r.Failure? <==> key !in cfg || cfg[key] == Null
    ensures r.Success? ==> r.value == cfg[key] && r.value != Null
  {
    var v := Get(cfg, key, Null);
    if v == Null then Failure("Required configuration '" + key + "' not found") else Success(v)
  }

  /** `set`. */
  function Set(cfg: Store, key: string, value: Value): (r: Store)
    ensures r.Keys == cfg.Keys + {key}
  {
    cfg[key := value]
  }

  /** After `set(k, v)`, `get(k)` is `v` and every other key reads as before. */
  lemma GetAfterSet(cfg: Store, key: string, value: Value, other: string, default: Value)
    ensures Get(Set(cfg, key, value), key, default) == value
    ensures other != key ==> Get(Set(cfg, key, value), other, default) == Get(cfg, other, default)
  {
  }

  const SqlitePrefix: string := "sqlite:///"
  const DataPrefix: string := "sqlite:///data/"
  const DatabasesPrefix: string := "sqlite:///data/databases/"

  /** `DATABASE_URL` when the environment does not set it. */
  const DefaultDatabaseUrl: string := "sqlite:///data/databases/sentiment_analysis.db"

  /** The text after the last `:///` of the URL (`url.split(':///')[-1]`). */
  function DatabaseName(url: string): (name: string)
    ensures |name| <= |url| && name == url[|url| - |name|..]
    ensures forall q :: !OccursAt(name, ":///", q)
  {
    var fields := SplitOn(url, ":///");
    SplitOnLastField(url, ":///");
    fields[|fields| - 1]
  }

  /** The path resolution of `get_database_url`: a sqlite URL outside
      `sqlite:///data/` is moved under `sqlite:///data/databases/`, unless the
      text after its last `:///` already starts with `data/`. */
  function ResolveDatabaseUrl(url: string): (r: string)
    ensures !StartsWith(url, SqlitePrefix) ==> r == url
    ensures StartsWith(url, DataPrefix) ==> r == url
    ensures StartsWith(url, SqlitePrefix) && !StartsWith(url, DataPrefix) ==>
      if StartsWith(DatabaseName(url), "data/") then r == url
      else r == DatabasesPrefix + DatabaseName(url)
  {
    if StartsWith(url, SqlitePrefix) && !StartsWith(url, DataPrefix) then
      var name := DatabaseName(url);
      if !StartsWith(name, "data/") then DatabasesPrefix + name else url
    else url
  }

  /** A resolved URL is either the input or lies under `sqlite:///data/`. */
  lemma ResolvedIsInput(url: string)
    ensures ResolveDatabaseUrl(url) == url || StartsWith(ResolveDatabaseUrl(url), DataPrefix)
  {
    var r := ResolveDatabaseUrl(url);
    if r != url {
      assert r[..|DataPrefix|] == DataPrefix;
    }
  }

  /** Resolving a resolved URL changes nothing. */
  lemma ResolveIdempotent(url: string)
    ensures ResolveDatabaseUrl(ResolveDatabaseUrl(url)) == ResolveDatabaseUrl(url)
  {
    var r := ResolveDatabaseUrl(url);
    if r != url {
      assert r[..|DataPrefix|] == DataPrefix;
    }
  }

  /** The default URL is already in the data directory. */
  lemma DefaultUrlUnchanged()
    ensures ResolveDatabaseUrl(DefaultDatabaseUrl) == DefaultDatabaseUrl
  {
    assert DefaultDatabaseUrl[..|DataPrefix|] == DataPrefix;
  }

  /** `get_database_url`: the resolved `DATABASE_URL`; fails when the key is
      missing or not a string, where Python would call `startswith` on a
      non-string. */
  function GetDatabaseUrl(cfg: Store): (r: Result<string, string>)
    ensures r.Success? <==> "DATABASE_URL" in cfg && cfg["DATABASE_URL"].Str?
    ensures r.Success? ==> r.value == ResolveDatabaseUrl(cfg["DATABASE_URL"].s)
  {
    match Get(cfg, "DATABASE_URL", Null)
    case Str(url) => Success(ResolveDatabaseUrl(url))
    case _ => Failure("DATABASE_URL is not a string")
  }
}

=== FILE: db_manager.dfy ===
/** `DatabaseManager` over an in-memory store: recording-session naming,
    global speaker numbering, get-or-create of speakers, transcription word
    counts and the per-session statistics.  Tables are sequences in row-id
    order; a new row gets the next row id.  Commits, rollbacks and the
    SQL engine are not modelled. */
module Database {
  import opened Wrappers
  import opened Strings
  import opened Categories

  datatype RecordingSession = RecordingSession(
    id: nat, sessionName: string, speakerCount: nat, qualityScore: Option<real>)

  datatype Speaker = Speaker(
    id: string, displayName: string, globalSequence: nat, recordingSessionId: nat, assemblyaiSpeakerId: string)

  datatype Transcription = Transcription(
    id: nat, speakerId: string, text: string, duration: Option<real>, wordCount: nat, confidenceScore: Option<real>)

  datatype SentimentRecord = SentimentRecord(
    id: nat, transcriptionId: nat, analyzerType: AnalyzerType, labelName: string,
    category: Category, score: real, confidence: real)

  datatype Store = Store(
    sessions: seq<RecordingSession>,
    speakers: seq<Speaker>,
    transcriptions: seq<Transcription>,
    analyses: seq<SentimentRecord>)

  const EmptyStore := Store([], [], [], [])

  // ---------------------------------------------------------------------
  // Recording sessions
  // ---------------------------------------------------------------------

  /** Session row ids increase along the table, so the last row is the one
      with the highest id. */
  predicate SessionIdsIncreasing(sessions: seq<RecordingSession>) {
    forall i, j | 0 <= i < j < |sessions| :: sessions[i].id < sessions[j].id
  }

  const NamePrefix: string := "Recording-"

  /** `f"Recording-{n:03d}"`. */
  function SessionNameFor(n: int): string {
    NamePrefix + Pad3(n)
  }

  /** The name a new session gets when none is supplied: one past the number
      in the newest session's name, or the session count plus one when that
      name has no numeric second `-`-separated field. */
  function GeneratedName(sessions: seq<RecordingSession>): (name: string)
    ensures sessions == [] ==> name == "Recording-001"
  {
    if sessions == [] then
      assert Pad3(1) == "001";
      SessionNameFor(1)
    else
      var fields := SplitOn(sessions[|sessions| - 1].sessionName, "-");
      if |fields| < 2 then SessionNameFor(|sessions| + 1)
      else
        match ParseInt(fields[1])
        case Some(n) => SessionNameFor(n + 1)
        case None => SessionNameFor(|sessions| + 1)
  }

  /** `create_recording_session`: a missing or empty name is generated; the
      new session has the next row id, speaker count 1 and no quality score. */
  function CreateRecordingSession(store: Store, sessionName: Option<string>): (r: (Store, RecordingSession))
    ensures r.0 == store.(sessions := store.sessions + [r.1])
    ensures r.1.id == if store.sessions == [] then 1 else store.sessions[|store.sessions| - 1].id + 1
    ensures sessionName.Some? && sessionName.value != [] ==> r.1.sessionName == sessionName.value
    ensures sessionName.None? || sessionName.value == [] ==> r.1.sessionName == GeneratedName(store.sessions)
    ensures r.1.speakerCount == 1 && r.1.qualityScore.None?
  {
    var name := if sessionName.Some? && sessionName.value != [] then sessionName.value else GeneratedName(store.sessions);
    var id := if store.sessions == [] then 1 else store.sessions[|store.sessions| - 1].id + 1;
    var s := RecordingSession(id, name, 1, None);
    (store.(sessions := store.sessions + [s]), s)
  }

  /** Creating a session keeps the session ids increasing. */
  lemma CreateKeepsIdsIncreasing(store: Store, sessionName: Option<string>)
    requires SessionIdsIncreasing(store.sessions)
    ensures SessionIdsIncreasing(CreateRecordingSession(store, sessionName).0.sessions)
  {
  }

  /** A generated name `Recording-NNN` splits on `-` into the prefix word and
      the zero-padded number. */
  lemma {:induction false} SplitGeneratedName(n: nat)
    ensures SplitOn(SessionNameFor(n), "-") == ["Recording", Pad3(n)]
  {
    var s := SessionNameFor(n);
    var digits := Pad3(n);
    ParsePad3(n);
    assert s[..9] == "Recording" && s[9] == '-';
    assert forall q | 0 <= q < 9 :: !OccursAt(s, "-", q) by {
      forall q | 0 <= q < 9 ensures !OccursAt(s, "-", q) {
        assert s[q..q + 1][0] == s[q] != '-';
      }
    }
    assert OccursAt(s, "-", 9) by {
      assert s[9..10] == "-";
    }
    assert FindFrom(s, "-", 0) == Some(9) by {
      FirstFind(s, "-", 9);
    }
    assert s[10..] == digits;
    forall q ensures !OccursAt(digits, "-", q) {
      if 0 <= q < |digits| {
        assert digits[q..q + 1][0] == digits[q];
      }
    }
    SplitOnAbsent(digits, "-");
  }

  /** The first occurrence found from 0 is the one the caller has shown to be
      first. */
  lemma FirstFind(s: string, sep: string, p: nat)
    requires |sep| > 0 && OccursAt(s, sep, p)
    requires forall q | 0 <= q < p :: !OccursAt(s, sep, q)
    ensures FindFrom(s, sep, 0) == Some(p)
  {
    FindFromFirst(s, sep, 0);
  }

  /** After a session named `Recording-NNN` the next generated name is
      `Recording-(NNN+1)`, so generated names count up one by one. */
  lemma NextGeneratedName(store: Store, n: nat)
    requires store.sessions != [] && store.sessions[|store.sessions| - 1].sessionName == SessionNameFor(n)
    ensures GeneratedName(store.sessions) == SessionNameFor(n + 1)
  {
    SplitGeneratedName(n);
    ParsePad3(n);
    assert SplitOn(SessionNameFor(n), "-")[1] == Pad3(n);
  }

  /** When the newest name's second `-`-separated field parses as an
      integer n, the next name is numbered n + 1, whatever the rest of the
      name is and however n was padded ("Recording-5" is followed by
      "Recording-006"). */
  lemma NumberedNameCountsUp(sessions: seq<RecordingSession>, n: int)
    requires sessions != []
    requires var fields := SplitOn(sessions[|sessions| - 1].sessionName, "-");
      |fields| >= 2 && ParseInt(fields[1]) == Some(n)
    ensures GeneratedName(sessions) == SessionNameFor(n + 1)
  {
  }

  /** A newest name without any `-` has no second field, so the next name is
      numbered by the session count plus one. */
  lemma NoDashFallsBack(sessions: seq<RecordingSession>)
    requires sessions != []
    requires var name := sessions[|sessions| - 1].sessionName;
      forall q :: !OccursAt(name, "-", q)
    ensures GeneratedName(sessions) == SessionNameFor(|sessions| + 1)
  {
    SplitOnAbsent(sessions[|sessions| - 1].sessionName, "-");
  }

  /** A second field that is not an integer also falls back to the session
      count plus one. */
  lemma UnparsableNumberFallsBack(sessions: seq<RecordingSession>)
    requires sessions != []
    requires var fields := SplitOn(sessions[|sessions| - 1].sessionName, "-");
      |fields| >= 2 && ParseInt(fields[1]).None?
    ensures GeneratedName(sessions) == SessionNameFor(|sessions| + 1)
  {
  }

  /** Generated names can repeat: after a user-named "Recording-001" that
      follows "Recording-002", the generated name is "Recording-002" again. */
  lemma GeneratedNameCanCollide()
    ensures var sessions := [RecordingSession(1, SessionNameFor(2), 1, None),
                             RecordingSession(2, SessionNameFor(1), 1, None)];
      GeneratedName(sessions) == sessions[0].sessionName
  {
    var sessions := [RecordingSession(1, SessionNameFor(2), 1, None),
                     RecordingSession(2, SessionNameFor(1), 1, None)];
    NextGeneratedName(Store(sessions, [], [], []), 1);
  }

  // ---------------------------------------------------------------------
  // Speakers
  // ---------------------------------------------------------------------

  /** `max(global_sequence)` over all speakers, 0 when there are none. */
  function MaxSequence(speakers: seq<Speaker>): (m: nat)
    ensures forall k | 0 <= k < |speakers| :: speakers[k].globalSequence <= m
    ensures speakers == [] ==> m == 0
    ensures speakers != [] ==> exists k | 0 <= k < |speakers| :: speakers[k].globalSequence == m
  {
    if speakers == [] then 0
    else
      var rest := MaxSequence(speakers[..|speakers| - 1]);
      var last := speakers[|speakers| - 1].globalSequence;
      assert forall k | 0 <= k < |speakers| - 1 :: speakers[k] == speakers[..|speakers| - 1][k];
      if last > rest then last else rest
  }

  /** `get_next_global_speaker_number`: one more than the highest sequence,
      1 for an empty table. */
  function NextGlobalSpeakerNumber(store: Store): (n: nat)
    ensures n >= 1
    ensures forall k | 0 <= k < |store.speakers| :: store.speakers[k].globalSequence < n
    ensures store.speakers == [] ==> n == 1
    ensures store.speakers != [] ==> exists k | 0 <= k < |store.speakers| :: store.speakers[k].globalSequence == n - 1
  {
    MaxSequence(store.speakers) + 1
  }

  /** `f"session_{session_id}_{assemblyai_speaker_id}"`. */
  function TechnicalId(sessionId: nat, assemblyaiId: string): string {
    "session_" + IntToString(sessionId) + "_" + assemblyaiId
  }

  /** `add_speaker`: appends a speaker whose sequence is the next global number
      and whose display name is `Speaker <sequence>`. */
  function AddSpeaker(store: Store, sessionId: nat, assemblyaiId: string): (r: (Store, Speaker))
    ensures r.0 == store.(speakers := store.speakers + [r.1])
    ensures r.1.id == TechnicalId(sessionId, assemblyaiId)
    ensures r.1.globalSequence == NextGlobalSpeakerNumber(store)
    ensures r.1.displayName == "Speaker " + IntToString(r.1.globalSequence)
    ensures r.1.recordingSessionId == sessionId && r.1.assemblyaiSpeakerId == assemblyaiId
  {
    var n := NextGlobalSpeakerNumber(store);
    var sp := Speaker(TechnicalId(sessionId, assemblyaiId), "Speaker " + IntToString(n), n, sessionId, assemblyaiId);
    (store.(speakers := store.speakers + [sp]), sp)
  }

  /** No two speakers share a global sequence number or a technical id. */
  predicate SpeakersUnique(speakers: seq<Speaker>) {
    forall i, j | 0 <= i < j < |speakers| ::
      speakers[i].globalSequence != speakers[j].globalSequence && speakers[i].id != speakers[j].id
  }

  /** `get_speaker_by_id`: the first speaker with the technical id. */
  function SpeakerById(speakers: seq<Speaker>, id: string): (r: Option<nat>)
    ensures r.Some? ==> r.value < |speakers| && speakers[r.value].id == id
    ensures r.Some? ==> forall k | 0 <= k < r.value :: speakers[k].id != id
    ensures r.None? ==> forall k | 0 <= k < |speakers| :: speakers[k].id != id
  {
    if speakers == [] then None
    else if speakers[0].id == id then Some(0)
    else
      match SpeakerById(speakers[1..], id)
      case None => None
      case Some(k) => Some(k + 1)
  }

  /** `get_or_create_speaker`: the existing speaker with the technical id, or
      a newly added one. */
  function GetOrCreateSpeaker(store: Store, sessionId: nat, assemblyaiId: string): (r: (Store, Speaker))
    ensures r.1.id == TechnicalId(sessionId, assemblyaiId)
    ensures SpeakerById(store.speakers, TechnicalId(sessionId, assemblyaiId)).Some? ==> r.0 == store
    ensures SpeakerById(store.speakers, TechnicalId(sessionId, assemblyaiId)).None? ==>
      r == AddSpeaker(store, sessionId, assemblyaiId)
  {
    match SpeakerById(store.speakers, TechnicalId(sessionId, assemblyaiId))
    case Some(k) => (store, store.speakers[k])
    case None => AddSpeaker(store, sessionId, assemblyaiId)
  }

  /** A repeated get-or-create returns the same speaker and adds nothing. */
  lemma GetOrCreateIdempotent(store: Store, sessionId: nat, assemblyaiId: string)
    ensures var (s1, sp1) := GetOrCreateSpeaker(store, sessionId, assemblyaiId);
      GetOrCreateSpeaker(s1, sessionId, assemblyaiId) == (s1, sp1)
  {
    var id := TechnicalId(sessionId, assemblyaiId);
    var (s1, sp1) := GetOrCreateSpeaker(store, sessionId, assemblyaiId);
    if SpeakerById(store.speakers, id).None? {
      assert s1.speakers[|store.speakers|] == sp1;
      var k := SpeakerById(s1.speakers, id);
      assert k.Some?;
      assert k.value == |store.speakers| by {
        assert forall j | 0 <= j < |store.speakers| :: s1.speakers[j] == store.speakers[j];
      }
    }
  }

  /** Get-or-create keeps sequence numbers and technical ids unique. */
  lemma GetOrCreateKeepsUnique(store: Store, sessionId: nat, assemblyaiId: string)
    requires SpeakersUnique(store.speakers)
    ensures SpeakersUnique(GetOrCreateSpeaker(store, sessionId, assemblyaiId).0.speakers)
  {
    var id := TechnicalId(sessionId, assemblyaiId);
    if SpeakerById(store.speakers, id).None? {
      var (s1, sp) := AddSpeaker(store, sessionId, assemblyaiId);
      var n := |store.speakers|;
      forall i, j | 0 <= i < j < |s1.speakers|
        ensures s1.speakers[i].globalSequence != s1.speakers[j].globalSequence && s1.speakers[i].id != s1.speakers[j].id
      {
        if j == n {
          assert s1.speakers[i] == store.speakers[i];
        } else {
          assert s1.speakers[i] == store.speakers[i] && s1.speakers[j] == store.speakers[j];
        }
      }
    }
  }

  // ---------------------------------------------------------------------
  // Transcriptions
  // ---------------------------------------------------------------------

  /** Next row id of a table whose ids are given in row order. */
  function NextTranscriptionId(ts: seq<Transcription>): nat {
    if ts == [] then 1 else ts[|ts| - 1].id + 1
  }

  /** `add_transcription`: the word count is the number of whitespace-separated
      tokens of the text. */
  function AddTranscription(store: Store, speakerId: string, text: string, duration: Option<real>,
                            confidenceScore: Option<real>): (r: (Store, Transcription))
    ensures r.0 == store.(transcriptions := store.transcriptions + [r.1])
    ensures r.1.id == NextTranscriptionId(store.transcriptions)
    ensures r.1.speakerId == speakerId && r.1.text == text
    ensures r.1.duration == duration && r.1.confidenceScore == confidenceScore
    ensures r.1.wordCount == |Words(text)|
    ensures text == [] ==> r.1.wordCount == 0
  {
    var wordCount := if text == [] then 0 else |Words(text)|;
    var t := Transcription(NextTranscriptionId(store.transcriptions), speakerId, text, duration, wordCount, confidenceScore);
    (store.(transcriptions := store.transcriptions + [t]), t)
  }

  /** A text has no words exactly when it is all whitespace. */
  lemma WordsEmptyIffBlank(s: string)
    ensures Words(s) == [] <==> forall i | 0 <= i < |s| :: IsSpace(s[i])
  {
    var t := StripLeft(s);
    StripLeftIsSuffix(s);
    if t == [] {
      assert forall i | 0 <= i < |s| :: IsSpace(s[i]);
    } else {
      assert !IsSpace(s[|s| - |t|]);
    }
  }

  // ---------------------------------------------------------------------
  // Session statistics
  // ---------------------------------------------------------------------

  /** The speaker of transcription `t` belongs to session `sid`. */
  predicate InSession(speakers: seq<Speaker>, t: Transcription, sid: nat) {
    exists k | 0 <= k < |speakers| :: speakers[k].id == t.speakerId && speakers[k].recordingSessionId == sid
  }

  /** The truthy (present and non-zero) confidence scores of the session's
      transcriptions. */
  function SessionConfidences(speakers: seq<Speaker>, ts: seq<Transcription>, sid: nat): (cs: seq<real>)
    ensures forall i | 0 <= i < |cs| :: cs[i] != 0.0
    ensures |cs| <= |ts|
  {
    if ts == [] then []
    else
      var t := ts[|ts| - 1];
      SessionConfidences(speakers, ts[..|ts| - 1], sid)
        + (if InSession(speakers, t, sid) && t.confidenceScore.Some? && t.confidenceScore.value != 0.0
           then [t.confidenceScore.value] else [])
  }

  function Sum(xs: seq<real>): real {
    if xs == [] then 0.0 else Sum(xs[..|xs| - 1]) + xs[|xs| - 1]
  }

  /** `sum(xs) / len(xs)`, or None for an empty list. */
  function Mean(xs: seq<real>): (m: Option<real>)
    ensures m.None? <==> xs == []
  {
    if xs == [] then None else Some(Sum(xs) / (|xs| as real))
  }

  /** The sum of values in [lo, hi] lies between |xs|*lo and |xs|*hi. */
  lemma {:induction false} SumBounds(xs: seq<real>, lo: real, hi: real)
    requires forall i | 0 <= i < |xs| :: lo <= xs[i] <= hi
    ensures (|xs| as real) * lo <= Sum(xs) <= (|xs| as real) * hi
  {
    if xs != [] {
      var init := xs[..|xs| - 1];
      assert forall i | 0 <= i < |init| :: init[i] == xs[i];
      SumBounds(init, lo, hi);
    }
  }

  /** The mean of values in [lo, hi] is in [lo, hi]. */
  lemma MeanBounds(xs: seq<real>, lo: real, hi: real)
    requires xs != []
    requires forall i | 0 <= i < |xs| :: lo <= xs[i] <= hi
    ensures lo <= Mean(xs).value <= hi
  {
    SumBounds(xs, lo, hi);
    var n := |xs| as real;
    var m := Sum(xs) / n;
    assert m * n == Sum(xs);
    assert (m - lo) * n >= 0.0;
    assert (hi - m) * n >= 0.0;
  }

  /** Number of speakers in session `sid`. */
  function SpeakerCount(speakers: seq<Speaker>, sid: nat): (n: nat)
    ensures n <= |speakers|
  {
    if speakers == [] then 0
    else SpeakerCount(speakers[..|speakers| - 1], sid) + (if speakers[|speakers| - 1].recordingSessionId == sid then 1 else 0)
  }

  /** The first session row with the id. */
  function SessionIndex(sessions: seq<RecordingSession>, sid: nat): (r: Option<nat>)
    ensures r.Some? ==> r.value < |sessions| && sessions[r.value].id == sid
    ensures r.None? ==> forall k | 0 <= k < |sessions| :: sessions[k].id != sid
  {
    if sessions == [] then None
    else if sessions[0].id == sid then Some(0)
    else
      match SessionIndex(sessions[1..], sid)
      case None => None
      case Some(k) => Some(k + 1)
  }

  /** `update_recording_session_stats`: an unknown session leaves the store as
      it is; otherwise only that session's speaker count and quality score
      change, the latter becoming the mean of the truthy confidences. */
  function UpdateRecordingSessionStats(store: Store, sid: nat): (r: Store)
    ensures SessionIndex(store.sessions, sid).None? ==> r == store
    ensures SessionIndex(store.sessions, sid).Some? ==>
      var k := SessionIndex(store.sessions, sid).value;
      && r.speakers == store.speakers && r.transcriptions == store.transcriptions && r.analyses == store.analyses
      && |r.sessions| == |store.sessions|
      && (forall j | 0 <= j < |r.sessions| && j != k :: r.sessions[j] == store.sessions[j])
      && r.sessions[k].id == sid
      && r.sessions[k].sessionName == store.sessions[k].sessionName
      && r.sessions[k].speakerCount == SpeakerCount(store.speakers, sid)
      && r.sessions[k].qualityScore == Mean(SessionConfidences(store.speakers, store.transcriptions, sid))
  {
    match SessionIndex(store.sessions, sid)
    case None => store
    case Some(k) =>
      var s := store.sessions[k];
      var updated := s.(speakerCount := SpeakerCount(store.speakers, sid),
                        qualityScore := Mean(SessionConfidences(store.speakers, store.transcriptions, sid)));
      store.(sessions := store.sessions[k := updated])
  }

  /** With every confidence score in [0, 1], a session's quality score is in
      (0, 1]. */
  lemma QualityScoreInUnit(store: Store, sid: nat)
    requires forall k | 0 <= k < |store.transcriptions| ::
      store.transcriptions[k].confidenceScore.Some? ==> 0.0 <= store.transcriptions[k].confidenceScore.value <= 1.0
    ensures var cs := SessionConfidences(store.speakers, store.transcriptions, sid);
      cs != [] ==> 0.0 < Mean(cs).value <= 1.0
  {
    var cs := SessionConfidences(store.speakers, store.transcriptions, sid);
    if cs != [] {
      ConfidencesInUnit(store.speakers, store.transcriptions, sid);
      assert forall i | 0 <= i < |cs| :: 0.0 <= cs[i] <= 1.0;
      MeanBounds(cs, 0.0, 1.0);
      assert forall i | 0 <= i < |cs| :: 0.0 < cs[i];
      PositiveMean(cs);
    }
  }

  lemma {:induction false} ConfidencesInUnit(speakers: seq<Speaker>, ts: seq<Transcription>, sid: nat)
    requires forall k | 0 <= k < |ts| :: ts[k].confidenceScore.Some? ==> 0.0 <= ts[k].confidenceScore.value <= 1.0
    ensures forall i | 0 <= i < |SessionConfidences(speakers, ts, sid)| ::
      0.0 <= SessionConfidences(speakers, ts, sid)[i] <= 1.0
  {
    if ts != [] {
      var init := ts[..|ts| - 1];
      assert forall k | 0 <= k < |init| :: init[k] == ts[k];
      ConfidencesInUnit(speakers, init, sid);
      var t := ts[|ts| - 1];
      var tail := if InSession(speakers, t, sid) && t.confidenceScore.Some? && t.confidenceScore.value != 0.0
        then [t.confidenceScore.value] else [];
      assert forall i | 0 <= i < |tail| :: 0.0 <= tail[i] <= 1.0;
      assert SessionConfidences(speakers, ts, sid) == SessionConfidences(speakers, init, sid) + tail;
    }
  }

  lemma {:induction false} PositiveMean(xs: seq<real>)
    requires xs != [] && forall i | 0 <= i < |xs| :: 0.0 < xs[i]
    ensures Sum(xs) > 0.0 && Mean(xs).value > 0.0
  {
    var init := xs[..|xs| - 1];
    if init != [] {
      assert forall i | 0 <= i < |init| :: init[i] == xs[i];
      PositiveMean(init);
    }
  }
}

=== FILE: duplicates.dfy ===
/** The duplicate-transcription cleanup script: pairwise similarity of
    normalised texts, the list of similar pairs, and the removal of the
    newer transcription of each pair.  `difflib.SequenceMatcher(...).ratio()`
    is a parameter; the interactive menu and printing are not modelled. */
module DuplicateCleanup {
  import opened Wrappers
  import opened Strings
  import Database

  /** A similarity measure between two strings. */
  type Ratio = (string, string) -> real

  const DefaultThreshold: real := 0.95

  /** `similarity`: the ratio of the lower-cased, stripped texts. */
  function Similarity(ratio: Ratio, a: string, b: string): real {
    ratio(Strip(Lower(a)), Strip(Lower(b)))
  }

  /** Similarity ignores case and surrounding whitespace: normalising the
      texts first changes nothing. */
  lemma SimilarityOfNormalized(ratio: Ratio, a: string, b: string)
    ensures Similarity(ratio, Strip(Lower(a)), Strip(Lower(b))) == Similarity(ratio, a, b)
  {
    NormalizeIdempotent(a);
    NormalizeIdempotent(b);
  }

  /** A reported pair: positions in the transcription list and their similarity. */
  datatype Pair = Pair(first: nat, second: nat, similarity: real)

  /** Lexicographic order on positions. */
  predicate Before(p: Pair, q: Pair) {
    p.first < q.first || (p.first == q.first && p.second < q.second)
  }

  predicate Similar(ratio: Ratio, threshold: real, ts: seq<Database.Transcription>, i: nat, j: nat)
    requires i < |ts| && j < |ts|
  {
    Similarity(ratio, ts[i].text, ts[j].text) >= threshold
  }

  /** A single reported pair: positions i < j of the list, with the
      similarity of their texts, at or above the threshold. */
  predicate Reported(ratio: Ratio, threshold: real, ts: seq<Database.Transcription>, p: Pair) {
    && p.first < p.second < |ts|
    && p.similarity == Similarity(ratio, ts[p.first].text, ts[p.second].text)
    && p.similarity >= threshold
  }

  /** The pair the script records for positions i and j. */
  function PairAt(ratio: Ratio, ts: seq<Database.Transcription>, i: nat, j: nat): Pair
    requires i < |ts| && j < |ts|
  {
    Pair(i, j, Similarity(ratio, ts[i].text, ts[j].text))
  }

  /** What `find_duplicates` reports: exactly the position pairs i < j whose
      texts reach the threshold, each once, in lexicographic order. */
  predicate IsDuplicateReport(ratio: Ratio, threshold: real, ts: seq<Database.Transcription>, dups: seq<Pair>) {
    && (forall k | 0 <= k < |dups| :: Reported(ratio, threshold, ts, dups[k]))
    && (forall i, j | 0 <= i < j < |ts| && Similar(ratio, threshold, ts, i, j) :: PairAt(ratio, ts, i, j) in dups)
    && (forall a, b | 0 <= a < b < |dups| :: Before(dups[a], dups[b]))
  }

  /** The inner loop of `find_duplicates`: the pairs (i, j) with j > i whose
      texts reach the threshold, in increasing j. */
  method ScanRow(ratio: Ratio, threshold: real, ts: seq<Database.Transcription>, i: nat) returns (row: seq<Pair>)
    requires i < |ts|
    ensures forall k | 0 <= k < |row| :: Reported(ratio, threshold, ts, row[k]) && row[k].first == i
    ensures forall b | i < b < |ts| && Similar(ratio, threshold, ts, i, b) :: PairAt(ratio, ts, i, b) in row
    ensures forall a, b | 0 <= a < b < |row| :: row[a].second < row[b].second
  {
    row := [];
    var j := i + 1;
    while j < |ts|
      invariant i + 1 <= j <= |ts|
      invariant forall k | 0 <= k < |row| :: Reported(ratio, threshold, ts, row[k]) && row[k].first == i && row[k].second < j
      invariant forall b | i < b < j && Similar(ratio, threshold, ts, i, b) :: PairAt(ratio, ts, i, b) in row
      invariant forall a, b | 0 <= a < b < |row| :: row[a].second < row[b].second
    {
      var sim := Similarity(ratio, ts[i].text, ts[j].text);
      ghost var before := row;
      if sim >= threshold {
        row := row + [Pair(i, j, sim)];
      }
      forall b | i < b < j + 1 && Similar(ratio, threshold, ts, i, b)
        ensures PairAt(ratio, ts, i, b) in row
      {
        if b < j {
          assert PairAt(ratio, ts, i, b) in before;
        } else {
          assert row[|row| - 1] == PairAt(ratio, ts, i, b);
        }
      }
      j := j + 1;
    }
  }

  /** `find_duplicates`: every later transcription is compared with every
      earlier one. */
  method FindDuplicates(ratio: Ratio, threshold: real, ts: seq<Database.Transcription>) returns (dups: seq<Pair>)
    ensures IsDuplicateReport(ratio, threshold, ts, dups)
  {
    dups := [];
    var i := 0;
    while i < |ts|
      invariant 0 <= i <= |ts|
      invariant forall k | 0 <= k < |dups| :: Reported(ratio, threshold, ts, dups[k]) && dups[k].first < i
      invariant forall a, b | 0 <= a < i && a < b < |ts| && Similar(ratio, threshold, ts, a, b) ::
        PairAt(ratio, ts, a, b) in dups
      invariant forall a, b | 0 <= a < b < |dups| :: Before(dups[a], dups[b])
    {
      var row := ScanRow(ratio, threshold, ts, i);
      AppendRowReported(ratio, threshold, ts, i, dups, row);
      AppendRowComplete(ratio, threshold, ts, i, dups, row);
      AppendRowOrdered(i, dups, row);
      dups := dups + row;
      i := i + 1;
    }
  }

  /** Appending row i keeps every reported pair a genuine one from rows up to i. */
  lemma AppendRowReported(ratio: Ratio, threshold: real, ts: seq<Database.Transcription>, i: nat,
                          dups: seq<Pair>, row: seq<Pair>)
    requires forall k | 0 <= k < |dups| :: Reported(ratio, threshold, ts, dups[k]) && dups[k].first < i
    requires forall k | 0 <= k < |row| :: Reported(ratio, threshold, ts, row[k]) && row[k].first == i
    ensures forall k | 0 <= k < |dups + row| :: Reported(ratio, threshold, ts, (dups + row)[k]) && (dups + row)[k].first < i + 1
  {
    forall k | 0 <= k < |dups + row|
      ensures Reported(ratio, threshold, ts, (dups + row)[k]) && (dups + row)[k].first < i + 1
    {
      if k < |dups| {
        assert (dups + row)[k] == dups[k];
      } else {
        assert (dups + row)[k] == row[k - |dups|];
      }
    }
  }

  /** Appending row i keeps every similar pair from rows up to i reported. */
  lemma AppendRowComplete(ratio: Ratio, threshold: real, ts: seq<Database.Transcription>, i: nat,
                          dups: seq<Pair>, row: seq<Pair>)
    requires i < |ts|
    requires forall a, b | 0 <= a < i && a < b < |ts| && Similar(ratio, threshold, ts, a, b) :: PairAt(ratio, ts, a, b) in dups
    requires forall b | i < b < |ts| && Similar(ratio, threshold, ts, i, b) :: PairAt(ratio, ts, i, b) in row
    ensures forall a, b | 0 <= a < i + 1 && a < b < |ts| && Similar(ratio, threshold, ts, a, b) ::
      PairAt(ratio, ts, a, b) in dups + row
  {
    forall a, b | 0 <= a < i + 1 && a < b < |ts| && Similar(ratio, threshold, ts, a, b)
      ensures PairAt(ratio, ts, a, b) in dups + row
    {
      if a < i {
        assert PairAt(ratio, ts, a, b) in dups;
      } else {
        assert PairAt(ratio, ts, a, b) in row;
      }
    }
  }

  /** Appending a row of later first position, itself in increasing second
      position, keeps the pairs in lexicographic order. */
  lemma AppendRowOrdered(i: nat, dups: seq<Pair>, row: seq<Pair>)
    requires forall k | 0 <= k < |dups| :: dups[k].first < i
    requires forall k | 0 <= k < |row| :: row[k].first == i
    requires forall a, b | 0 <= a < b < |dups| :: Before(dups[a], dups[b])
    requires forall a, b | 0 <= a < b < |row| :: row[a].second < row[b].second
    ensures forall a, b | 0 <= a < b < |dups + row| :: Before((dups + row)[a], (dups + row)[b])
  {
    forall a, b | 0 <= a < b < |dups + row| ensures Before((dups + row)[a], (dups + row)[b]) {
      if b < |dups| {
        assert (dups + row)[a] == dups[a] && (dups + row)[b] == dups[b];
      } else if a < |dups| {
        assert (dups + row)[a] == dups[a] && (dups + row)[b] == row[b - |dups|];
      } else {
        assert (dups + row)[a] == row[a - |dups|] && (dups + row)[b] == row[b - |dups|];
      }
    }
  }

  /** The id of the transcription a pair removes: the one with the higher id. */
  function ToRemove(ts: seq<Database.Transcription>, p: Pair): nat
    requires p.first < |ts| && p.second < |ts|
  {
    if ts[p.first].id < ts[p.second].id then ts[p.second].id else ts[p.first].id
  }

  /** The id a pair keeps: the lower one. */
  function ToKeep(ts: seq<Database.Transcription>, p: Pair): nat
    requires p.first < |ts| && p.second < |ts|
  {
    if ts[p.first].id < ts[p.second].id then ts[p.first].id else ts[p.second].id
  }

  /** Of two transcriptions with different ids, the pair keeps the older
      (lower id) and removes the newer. */
  lemma KeepsOlder(ts: seq<Database.Transcription>, p: Pair)
    requires p.first < |ts| && p.second < |ts| && ts[p.first].id != ts[p.second].id
    ensures ToKeep(ts, p) < ToRemove(ts, p)
    ensures {ToKeep(ts, p), ToRemove(ts, p)} == {ts[p.first].id, ts[p.second].id}
  {
  }

  predicate PairsInRange(ts: seq<Database.Transcription>, dups: seq<Pair>) {
    forall k | 0 <= k < |dups| :: dups[k].first < |ts| && dups[k].second < |ts|
  }

  /** Ids of every transcription some pair removes. */
  function RemovedIds(ts: seq<Database.Transcription>, dups: seq<Pair>): set<nat>
    requires PairsInRange(ts, dups)
  {
    set k | 0 <= k < |dups| :: ToRemove(ts, dups[k])
  }

  /** The transcriptions whose id is not in `removed`, in order. */
  function KeepRows(ts: seq<Database.Transcription>, removed: set<nat>): (r: seq<Database.Transcription>)
    ensures |r| <= |ts|
    ensures forall k | 0 <= k < |r| :: r[k] in ts && r[k].id !in removed
    ensures forall k | 0 <= k < |ts| && ts[k].id !in removed :: ts[k] in r
  {
    if ts == [] then []
    else
      var t := ts[|ts| - 1];
      var front := ts[..|ts| - 1];
      var init := KeepRows(front, removed);
      assert forall k | 0 <= k < |front| :: front[k] == ts[k];
      if t.id in removed then init else init + [t]
  }

  /** Removal of the newer transcription of every pair, as the script does it:
      the rows left and `removed_count`, which grows by one per pair. */
  function RemoveNewerDuplicatesAsWritten(ts: seq<Database.Transcription>, dups: seq<Pair>)
    : (r: (seq<Database.Transcription>, nat))
    requires PairsInRange(ts, dups)
    ensures r.1 == |dups|
    ensures forall k | 0 <= k < |r.0| :: r.0[k].id !in RemovedIds(ts, dups)
  {
    (KeepRows(ts, RemovedIds(ts, dups)), |dups|)
  }

  /** Removal of the newer transcription of every pair, reporting how many
      transcriptions were removed. */
  function RemoveNewerDuplicates(ts: seq<Database.Transcription>, dups: seq<Pair>)
    : (r: (seq<Database.Transcription>, nat))
    requires PairsInRange(ts, dups)
    ensures r.0 == RemoveNewerDuplicatesAsWritten(ts, dups).0
    ensures r.1 <= |dups|
  {
    var removed := RemovedIds(ts, dups);
    RemovedIdsBound(ts, dups);
    (KeepRows(ts, removed), |removed|)
  }

  /** The analyses not attached to a removed transcription, in order. */
  function KeepAnalyses(rs: seq<Database.SentimentRecord>, removed: set<nat>): (r: seq<Database.SentimentRecord>)
    ensures |r| <= |rs|
    ensures forall k | 0 <= k < |r| :: r[k].transcriptionId !in removed
    ensures forall k | 0 <= k < |rs| && rs[k].transcriptionId !in removed :: rs[k] in r
  {
    if rs == [] then []
    else
      var init := KeepAnalyses(rs[..|rs| - 1], removed);
      var a := rs[|rs| - 1];
      assert forall k | 0 <= k < |rs| - 1 :: rs[..|rs| - 1][k] == rs[k];
      if a.transcriptionId in removed then init else init + [a]
  }

  /** Option 2 of the script on the whole store: every removed transcription
      goes together with its sentiment analyses; every other row stays. */
  function RemoveFromStore(store: Database.Store, dups: seq<Pair>): (r: Database.Store)
    requires PairsInRange(store.transcriptions, dups)
    ensures r.sessions == store.sessions && r.speakers == store.speakers
    ensures r.transcriptions == RemoveNewerDuplicates(store.transcriptions, dups).0
    ensures forall k | 0 <= k < |r.transcriptions| :: r.transcriptions[k].id !in RemovedIds(store.transcriptions, dups)
    ensures forall k | 0 <= k < |store.transcriptions| && store.transcriptions[k].id !in RemovedIds(store.transcriptions, dups) ::
      store.transcriptions[k] in r.transcriptions
    ensures forall k | 0 <= k < |r.analyses| :: r.analyses[k].transcriptionId !in RemovedIds(store.transcriptions, dups)
    ensures forall k | 0 <= k < |store.analyses| && store.analyses[k].transcriptionId !in RemovedIds(store.transcriptions, dups) ::
      store.analyses[k] in r.analyses
  {
    var removed := RemovedIds(store.transcriptions, dups);
    store.(transcriptions := KeepRows(store.transcriptions, removed), analyses := KeepAnalyses(store.analyses, removed))
  }

  lemma {:induction false} RemovedIdsBound(ts: seq<Database.Transcription>, dups: seq<Pair>)
    requires PairsInRange(ts, dups)
    ensures |RemovedIds(ts, dups)| <= |dups|
  {
    if dups != [] {
      var init := dups[..|dups| - 1];
      RemovedIdsBound(ts, init);
      RemovedIdsSnoc(ts, dups);
    }
  }

  /** The ids a non-empty list of pairs removes: those of all but its last
      pair, and the last pair's. */
  lemma RemovedIdsSnoc(ts: seq<Database.Transcription>, dups: seq<Pair>)
    requires PairsInRange(ts, dups) && dups != []
    ensures PairsInRange(ts, dups[..|dups| - 1])
    ensures RemovedIds(ts, dups) == RemovedIds(ts, dups[..|dups| - 1]) + {ToRemove(ts, dups[|dups| - 1])}
  {
    var init := dups[..|dups| - 1];
    assert forall k | 0 <= k < |init| :: init[k] == dups[k];
    var last := ToRemove(ts, dups[|dups| - 1]);
    forall x ensures x in RemovedIds(ts, dups) <==> x in RemovedIds(ts, init) + {last} {
      if x in RemovedIds(ts, dups) {
        var k :| 0 <= k < |dups| && ToRemove(ts, dups[k]) == x;
        if k < |dups| - 1 { assert ToRemove(ts, init[k]) == x; }
      }
      if x in RemovedIds(ts, init) {
        var k :| 0 <= k < |init| && ToRemove(ts, init[k]) == x;
        assert ToRemove(ts, dups[k]) == x;
      }
    }
  }

  /** No two transcriptions share an id (the primary key). */
  predicate UniqueIds(ts: seq<Database.Transcription>) {
    forall i, j | 0 <= i < j < |ts| :: ts[i].id != ts[j].id
  }

  function Ids(ts: seq<Database.Transcription>): set<nat> {
    set k | 0 <= k < |ts| :: ts[k].id
  }

  /** The ids of a non-empty list: those of all but its last row, plus the
      last row's, which is new when ids are unique. */
  lemma IdsOfSnoc(ts: seq<Database.Transcription>)
    requires |ts| > 0 && UniqueIds(ts)
    ensures Ids(ts) == Ids(ts[..|ts| - 1]) + {ts[|ts| - 1].id}
    ensures ts[|ts| - 1].id !in Ids(ts[..|ts| - 1])
    ensures UniqueIds(ts[..|ts| - 1])
  {
    var init := ts[..|ts| - 1];
    assert forall i | 0 <= i < |init| :: init[i] == ts[i];
  }

  /** With unique ids, filtering out a set of ids removes exactly as many rows
      as the set has ids present in the table. */
  lemma {:induction false} KeepRowsCount(ts: seq<Database.Transcription>, removed: set<nat>)
    requires UniqueIds(ts)
    ensures |KeepRows(ts, removed)| + |removed * Ids(ts)| == |ts|
  {
    if ts == [] {
      assert removed * Ids(ts) == {};
    } else {
      var init := ts[..|ts| - 1];
      var t := ts[|ts| - 1];
      IdsOfSnoc(ts);
      KeepRowsCount(init, removed);
      if t.id in removed {
        assert removed * Ids(ts) == (removed * Ids(init)) + {t.id};
      } else {
        assert removed * Ids(ts) == removed * Ids(init);
      }
    }
  }

  /** Every removed id belongs to a row of the table. */
  lemma RemovedIdsInTable(ts: seq<Database.Transcription>, dups: seq<Pair>)
    requires PairsInRange(ts, dups)
    ensures RemovedIds(ts, dups) <= Ids(ts)
  {
    forall x | x in RemovedIds(ts, dups) ensures x in Ids(ts) {
      var k :| 0 <= k < |dups| && ToRemove(ts, dups[k]) == x;
      var p := dups[k];
      if ts[p.first].id < ts[p.second].id {
        assert x == ts[p.second].id;
      } else {
        assert x == ts[p.first].id;
      }
    }
  }

  /** The reported count is the number of transcriptions that disappeared. */
  lemma RemovedCountIsExact(ts: seq<Database.Transcription>, dups: seq<Pair>)
    requires PairsInRange(ts, dups) && UniqueIds(ts)
    ensures var (rest, count) := RemoveNewerDuplicates(ts, dups);
      count == |ts| - |rest|
  {
    var removed := RemovedIds(ts, dups);
    RemovedIdsInTable(ts, dups);
    assert removed * Ids(ts) == removed;
    KeepRowsCount(ts, removed);
  }

  /** Transcription `id` of speaker "s" saying "same". */
  function Same(id: nat): Database.Transcription {
    Database.Transcription(id, "s", "same", None, 1, None)
  }

  /** Three transcriptions with the same text, and a ratio that rates them
      identical (as `SequenceMatcher` does for equal texts). */
  const ExampleRows: seq<Database.Transcription> := [Same(1), Same(2), Same(3)]
  const ExamplePairs: seq<Pair> := [Pair(0, 1, 1.0), Pair(0, 2, 1.0), Pair(1, 2, 1.0)]
  const EqualRatio: Ratio := (a: string, b: string) => 1.0

  /** On the example all three pairs are reported. */
  lemma ExampleIsReport()
    ensures IsDuplicateReport(EqualRatio, DefaultThreshold, ExampleRows, ExamplePairs)
  {
    ExamplePairsReported();
    ExamplePairsComplete();
    ExamplePairsOrdered();
  }

  lemma ExamplePairsReported()
    ensures forall k | 0 <= k < |ExamplePairs| :: Reported(EqualRatio, DefaultThreshold, ExampleRows, ExamplePairs[k])
  {
    forall k | 0 <= k < |ExamplePairs| ensures Reported(EqualRatio, DefaultThreshold, ExampleRows, ExamplePairs[k]) {
      var p := ExamplePairs[k];
      assert Similarity(EqualRatio, ExampleRows[p.first].text, ExampleRows[p.second].text) == 1.0;
    }
  }

  lemma ExamplePairsComplete()
    ensures forall i, j | 0 <= i < j < |ExampleRows| :: PairAt(EqualRatio, ExampleRows, i, j) in ExamplePairs
  {
    var ts, dups := ExampleRows, ExamplePairs;
    forall i, j | 0 <= i < j < |ts| ensures PairAt(EqualRatio, ts, i, j) in dups {
      assert PairAt(EqualRatio, ts, i, j) == Pair(i, j, 1.0);
      if i == 0 && j == 1 { assert dups[0] == Pair(i, j, 1.0); }
      else if i == 0 { assert dups[1] == Pair(i, j, 1.0); }
      else { assert dups[2] == Pair(i, j, 1.0); }
    }
  }

  lemma ExamplePairsOrdered()
    ensures forall a, b | 0 <= a < b < |ExamplePairs| :: Before(ExamplePairs[a], ExamplePairs[b])
  {
  }

  /** On the example the pairs remove the transcriptions with ids 2 and 3. */
  lemma ExampleRemovedIds()
    ensures RemovedIds(ExampleRows, ExamplePairs) == {2, 3}
  {
    var ts, dups := ExampleRows, ExamplePairs;
    assert ToRemove(ts, dups[0]) == 2 && ToRemove(ts, dups[1]) == 3 && ToRemove(ts, dups[2]) == 3;
  }

  /** Removing ids 2 and 3 from the example leaves only the row with id 1. */
  lemma ExampleKeptRows()
    ensures KeepRows(ExampleRows, {2, 3}) == [Same(1)]
  {
    var ts := ExampleRows;
    assert ts[..2][..1] == [ts[0]] && ts[..1][..0] == [];
  }

  /** On the example the script reports three removals, while two
      transcriptions are removed: the newer row of (1, 3) is already gone
      when the pair (2, 3) is processed. */
  lemma OverCountExample()
    ensures IsDuplicateReport(EqualRatio, DefaultThreshold, ExampleRows, ExamplePairs)
    ensures RemoveNewerDuplicatesAsWritten(ExampleRows, ExamplePairs).1 == 3
    ensures |ExampleRows| - |RemoveNewerDuplicatesAsWritten(ExampleRows, ExamplePairs).0| == 2
  {
    ExampleIsReport();
    ExampleRemovedIds();
    ExampleKeptRows();
  }

  /** The corrected count on the same example is two. */
  lemma CorrectedCountExample()
    ensures RemoveNewerDuplicates(ExampleRows, ExamplePairs).1 == 2
  {
    ExampleRemovedIds();
  }
}

=== FILE: llm_analyzer.dfy ===
/** The language-model analyser: validation and normalisation of the JSON
    object the model returns, the score-to-category mapping, and the
    empty-text and failure branches of `analyze`.  The remote call is not
    modelled: its outcome is an input, either the decoded object or an error. */
module LlmAnalyzer {
  import opened Wrappers
  import opened Reals
  import opened Strings
  import opened Categories
  import opened Analyses
  import AdvancedClassifier

  const HopeThreshold: real := 0.3
  const SorrowThreshold: real := -0.2

  /** `get_sentiment_category`. */
  function SentimentCategoryOf(score: real): (c: SentimentCategory)
    ensures c == HopeSentiment <==> score >= 0.3
    ensures c == SorrowSentiment <==> score <= -0.2
    ensures c == NeutralSentiment <==> -0.2 < score < 0.3
  {
    SentimentBand(score, HopeThreshold, SorrowThreshold)
  }

  /** The fields of the model's JSON answer; `None` when the key is missing. */
  datatype RawResult = RawResult(
    score: Option<real>, labelName: Option<string>, intensity: Option<real>,
    confidence: Option<real>, explanation: Option<string>)

  /** A validated answer. */
  datatype Normalized = Normalized(
    score: real, sentimentLabel: Label, intensity: real, confidence: real, explanation: string)

  const NoExplanation: string := "No explanation provided."

  /** The label for a score when the model's own label is not a valid one:
      lower-inclusive bands at 0.8, 0.3, -0.2 and -0.5. */
  function ThresholdLabel(score: real): (l: Label)
    ensures l == VeryPositive <==> score >= 0.8
    ensures l == VeryNegative <==> score < -0.5
    ensures l == Neutral <==> -0.2 <= score < 0.3
  {
    if score >= 0.8 then VeryPositive
    else if score >= 0.3 then Positive
    else if score >= -0.2 then Neutral
    else if score >= -0.5 then Negative
    else VeryNegative
  }

  /** A higher score never gets a more negative threshold label. */
  lemma ThresholdLabelMonotone(s1: real, s2: real)
    requires s1 <= s2
    ensures LabelRank(ThresholdLabel(s1)) <= LabelRank(ThresholdLabel(s2))
  {
  }

  /** `_validate_and_normalize_result`: missing numbers default to 0.0 and a
      missing label to "neutral"; the score is clamped into [-1, 1], the
      confidence into [0, 1], the intensity is recomputed as |score|, and a
      label outside the five valid names is replaced by the threshold label. */
  function ValidateAndNormalize(raw: RawResult): (n: Normalized)
    ensures n.score == Clamp(raw.score.GetOr(0.0), -1.0, 1.0)
    ensures n.confidence == Clamp(raw.confidence.GetOr(0.0), 0.0, 1.0)
    ensures -1.0 <= n.score <= 1.0 && 0.0 <= n.confidence <= 1.0
    ensures n.intensity == Abs(n.score)
    ensures raw.labelName.None? ==> n.sentimentLabel == Neutral
    ensures raw.labelName.Some? && LabelFromName(raw.labelName.value).Some? ==>
      LabelName(n.sentimentLabel) == raw.labelName.value
    ensures raw.labelName.Some? && LabelFromName(raw.labelName.value).None? ==>
      n.sentimentLabel == ThresholdLabel(n.score)
    ensures n.explanation == raw.explanation.GetOr(NoExplanation)
  {
    var score := Clamp(raw.score.GetOr(0.0), -1.0, 1.0);
    var confidence := Clamp(raw.confidence.GetOr(0.0), 0.0, 1.0);
    var l := match LabelFromName(raw.labelName.GetOr("neutral"))
      case Some(l) => l
      case None => ThresholdLabel(score);
    Normalized(score, l, Abs(score), confidence, raw.explanation.GetOr(NoExplanation))
  }

  /** A validated answer as the JSON object it is stored as. */
  function ToRaw(n: Normalized): RawResult {
    RawResult(Some(n.score), Some(LabelName(n.sentimentLabel)), Some(n.intensity),
              Some(n.confidence), Some(n.explanation))
  }

  /** Validating an already validated answer changes nothing. */
  lemma ValidateIdempotent(raw: RawResult)
    ensures ValidateAndNormalize(ToRaw(ValidateAndNormalize(raw))) == ValidateAndNormalize(raw)
  {
    var n := ValidateAndNormalize(raw);
    LabelNameRoundTrip(n.sentimentLabel);
  }

  /** Result for empty or whitespace-only text: neutral with confidence 0.9. */
  const EmptyResult: Analysis := NeutralResult(0.9)

  /** Result when the request or its decoding failed: neutral with confidence 0. */
  const ErrorResult: Analysis := NeutralResult(0.0)

  /** `LLMSentimentAnalyzer.analyze`, the model's answer given as `response`.
      Empty text is answered without consulting the response. */
  function Analyze(st: AdvancedClassifier.ClassifierState, text: string, speaker: Option<string>,
                   obs: AdvancedClassifier.Observation, response: Result<RawResult, string>)
    : (r: (Analysis, AdvancedClassifier.ClassifierState))
    ensures Strip(text) == [] ==> r == (EmptyResult, st)
    ensures Strip(text) != [] && response.Failure? ==> r == (ErrorResult, st)
    ensures Strip(text) != [] && response.Success? ==>
      var n := ValidateAndNormalize(response.value);
      var (cls, st') := AdvancedClassifier.Classify(st, text, n.score, SpeakerKey(speaker), obs);
      && r.1 == st'
      && r.0.score == n.score && r.0.sentimentLabel == n.sentimentLabel
      && r.0.intensity == Abs(r.0.score) && r.0.confidence == n.confidence
      && r.0.category == cls.category
      && r.0.classificationConfidence == Some(cls.confidence)
      && r.0.matchedPatterns == Some(cls.matches)
  {
    if Strip(text) == [] then (EmptyResult, st)
    else
      match response
      case Failure(_) => (ErrorResult, st)
      case Success(raw) =>
        var n := ValidateAndNormalize(raw);
        var (cls, st') := AdvancedClassifier.Classify(st, text, n.score, SpeakerKey(speaker), obs);
        (Analysis(n.score, n.sentimentLabel, cls.category, n.intensity, n.confidence,
                  Some(cls.confidence), Some(cls.matches), None, None, None, None), st')
  }

  /** Every answer of the analyser has score in [-1, 1], confidence in [0, 1]
      and intensity |score|, whatever the model returned. */
  lemma AnalyzeBounds(st: AdvancedClassifier.ClassifierState, text: string, speaker: Option<string>,
                      obs: AdvancedClassifier.Observation, response: Result<RawResult, string>)
    ensures var a := Analyze(st, text, speaker, obs, response).0;
      && -1.0 <= a.score <= 1.0
      && 0.0 <= a.confidence <= 1.0
      && a.intensity == Abs(a.score)
  {
  }

  /** An empty speaker id is classified as "unknown", exactly like a missing one. */
  lemma EmptySpeakerIsUnknown(st: AdvancedClassifier.ClassifierState, text: string,
                              obs: AdvancedClassifier.Observation, response: Result<RawResult, string>)
    ensures Analyze(st, text, Some(""), obs, response) == Analyze(st, text, None, obs, response)
    ensures Analyze(st, text, Some(""), obs, response) == Analyze(st, text, Some("unknown"), obs, response)
  {
  }
}

=== FILE: reals.dfy ===
/** Absolute value, minimum and maximum on exact reals, shared by the
    classifier and the analysers. */
module Reals {

  function Abs(x: real): (r: real)
    ensures r >= 0.0 && (r == x || r == -x)
  {
    if x < 0.0 then -x else x
  }

  function Min(a: real, b: real): (r: real)
    ensures r <= a && r <= b && (r == a || r == b)
  {
    if a <= b then a else b
  }

  function Max(a: real, b: real): (r: real)
    ensures r >= a && r >= b && (r == a || r == b)
  {
    if a >= b then a else b
  }
}

=== FILE: strings.dfy ===
/** The handful of Python string operations the modelled code relies on:
    `str.isspace`, `str.isalpha`, `str.lower`, `str.strip`, `str.split()`,
    `str.split(sep)`, `in`, `str.startswith`, `int(...)` and `%03d` formatting.
    Letters and lower-casing are modelled on ASCII; whitespace is the complete
    set of characters Python's `str.isspace` accepts. */
module Strings {
  import opened Wrappers

  /** Python's `str.isspace()` for one character. */
  predicate IsSpace(c: char) {
    || c == ' '
    || ('\t' <= c <= '\r')
    || ('\U{1C}' <= c <= '\U{1F}')
    || c == '\U{85}' || c == '\U{A0}' || c == '\U{1680}'
    || ('\U{2000}' <= c <= '\U{200A}')
    || c == '\U{2028}' || c == '\U{2029}' || c == '\U{202F}' || c == '\U{205F}' || c == '\U{3000}'
  }

  /** `str.isalpha()` restricted to ASCII letters. */
  predicate IsAlpha(c: char) {
    ('a' <= c <= 'z') || ('A' <= c <= 'Z')
  }

  predicate IsLowerLetter(c: char) {
    'a' <= c <= 'z'
  }

  predicate IsDigit(c: char) {
    '0' <= c <= '9'
  }

  function LowerChar(c: char): (r: char)
    ensures IsAlpha(c) <==> IsAlpha(r)
    ensures IsAlpha(c) ==> IsLowerLetter(r)
    ensures !IsAlpha(c) ==> r == c
  {
    if 'A' <= c <= 'Z' then (c as int + 32) as char else c
  }

  /** `str.lower()`. */
  function Lower(s: string): (r: string)
    ensures |r| == |s|
    ensures forall i :: 0 <= i < |s| ==> r[i] == LowerChar(s[i])
  {
    seq(|s|, i requires 0 <= i < |s| => LowerChar(s[i]))
  }

  function StripLeft(s: string): (r: string)
    ensures |r| <= |s|
    ensures r == [] || !IsSpace(r[0])
    ensures forall i :: 0 <= i < |s| - |r| ==> IsSpace(s[i])
  {
    if |s| > 0 && IsSpace(s[0]) then StripLeft(s[1..]) else s
  }

  function StripRight(s: string): (r: string)
    ensures |r| <= |s|
    ensures r == [] || !IsSpace(r[|r| - 1])
    ensures forall i :: |r| <= i < |s| ==> IsSpace(s[i])
  {
    if |s| > 0 && IsSpace(s[|s| - 1]) then StripRight(s[..|s| - 1]) else s
  }

  /** What `lstrip()` keeps is a suffix of its input. */
  lemma {:induction false} StripLeftIsSuffix(s: string)
    ensures StripLeft(s) == s[|s| - |StripLeft(s)|..]
  {
    if |s| > 0 && IsSpace(s[0]) {
      StripLeftIsSuffix(s[1..]);
      var r := StripLeft(s);
      assert s[1..][|s| - 1 - |r|..] == s[|s| - |r|..];
    }
  }

  /** What `rstrip()` keeps is a prefix of its input. */
  lemma {:induction false} StripRightIsPrefix(s: string)
    ensures StripRight(s) == s[..|StripRight(s)|]
  {
    if |s| > 0 && IsSpace(s[|s| - 1]) {
      StripRightIsPrefix(s[..|s| - 1]);
      var r := StripRight(s);
      assert s[..|s| - 1][..|r|] == s[..|r|];
    }
  }

  /** `str.strip()`: drops leading and trailing whitespace. */
  function Strip(s: string): (r: string)
    ensures |r| <= |s|
    ensures r == [] || (!IsSpace(r[0]) && !IsSpace(r[|r| - 1]))
  {
    var l := StripLeft(s);
    StripRightIsPrefix(l);
    StripRight(l)
  }

  /** What `strip()` keeps is one contiguous piece of the input, and only
      whitespace is dropped on either side of it. */
  lemma StripIsInfix(s: string)
    ensures var a := |s| - |StripLeft(s)|;
      && a + |Strip(s)| <= |s|
      && Strip(s) == s[a..a + |Strip(s)|]
      && (forall i | 0 <= i < a :: IsSpace(s[i]))
      && (forall i | a + |Strip(s)| <= i < |s| :: IsSpace(s[i]))
  {
    var l := StripLeft(s);
    var r := StripRight(l);
    var a := |s| - |l|;
    StripLeftIsSuffix(s);
    StripRightIsPrefix(l);
    assert Strip(s) == r;
    assert l == s[a..];
    assert r == l[..|r|];
    assert r == s[a..a + |r|];
    forall i | a + |r| <= i < |s| ensures IsSpace(s[i]) {
      assert s[i] == l[i - a];
    }
  }

  /** A string with no surrounding whitespace is its own `strip()`. */
  lemma StripUnchanged(s: string)
    requires s == [] || (!IsSpace(s[0]) && !IsSpace(s[|s| - 1]))
    ensures Strip(s) == s
  {
  }

  /** `strip()` is idempotent. */
  lemma StripIdempotent(s: string)
    ensures Strip(Strip(s)) == Strip(s)
  {
    var t := Strip(s);
    if t != [] {
      StripUnchanged(t);
    }
  }

  /** `lower()` is idempotent. */
  lemma LowerIdempotent(s: string)
    ensures Lower(Lower(s)) == Lower(s)
  {
  }

  /** Lower-casing and stripping again a lower-cased, stripped text changes
      nothing. */
  lemma NormalizeIdempotent(s: string)
    ensures Strip(Lower(Strip(Lower(s)))) == Strip(Lower(s))
  {
    var l := Lower(s);
    var t := Strip(l);
    StripIsInfix(l);
    var a := |l| - |StripLeft(l)|;
    assert t == l[a..a + |t|];
    assert Lower(t) == t by {
      forall i | 0 <= i < |t| ensures Lower(t)[i] == t[i] {
        assert t[i] == l[a + i] == LowerChar(s[a + i]);
      }
    }
    StripIdempotent(l);
  }

  /** Length of the leading run of non-whitespace characters. */
  function WordLength(t: string): (n: nat)
    ensures n <= |t|
    ensures forall i :: 0 <= i < n ==> !IsSpace(t[i])
    ensures n < |t| ==> IsSpace(t[n])
  {
    if t == [] || IsSpace(t[0]) then 0 else 1 + WordLength(t[1..])
  }

  /** `str.split()` with no separator: the maximal runs of non-whitespace
      characters, in order. */
  function Words(s: string): (ws: seq<string>)
    ensures forall k :: 0 <= k < |ws| ==> |ws[k]| > 0
    decreases |s|
  {
    var t := StripLeft(s);
    if t == [] then []
    else
      var n := WordLength(t);
      [t[..n]] + Words(t[n..])
  }

  predicate OccursAt(s: string, w: string, p: int) {
    0 <= p && p + |w| <= |s| && s[p..p + |w|] == w
  }

  /** Python's substring test `w in s`. */
  predicate Contains(s: string, w: string) {
    exists p | 0 <= p <= |s| - |w| :: OccursAt(s, w, p)
  }

  predicate StartsWith(s: string, prefix: string) {
    |prefix| <= |s| && s[..|prefix|] == prefix
  }

  /** Python slicing `s[a:b]` for `0 <= a` and `b <= len(s)`; an empty string
      when the bounds cross. */
  function Slice(s: string, a: nat, b: int): (r: string)
    requires b <= |s|
    ensures a <= b ==> r == s[a..b]
    ensures b < a ==> r == []
  {
    if a <= b then s[a..b] else []
  }

  /** The first position at or after `p` where `sep` occurs in `s`
      (`FindFromFirst` states that no earlier position matches). */
  function FindFrom(s: string, sep: string, p: nat): (r: Option<nat>)
    requires |sep| > 0
    ensures r.Some? ==> p <= r.value && OccursAt(s, sep, r.value)
    decreases |s| - p
  {
    if p + |sep| > |s| then None
    else if s[p..p + |sep|] == sep then Some(p)
    else FindFrom(s, sep, p + 1)
  }

  /** `FindFrom` skips no occurrence: before the position found, and
      anywhere from `p` on when nothing is found, `sep` does not occur. */
  lemma {:induction false} FindFromFirst(s: string, sep: string, p: nat)
    requires |sep| > 0
    ensures FindFrom(s, sep, p).Some? ==> forall q :: p <= q < FindFrom(s, sep, p).value ==> !OccursAt(s, sep, q)
    ensures FindFrom(s, sep, p).None? ==> forall q :: p <= q ==> !OccursAt(s, sep, q)
    decreases |s| - p
  {
    if p + |sep| > |s| {
    } else if s[p..p + |sep|] == sep {
    } else {
      FindFromFirst(s, sep, p + 1);
      assert !OccursAt(s, sep, p);
    }
  }

  /** `str.split(sep)` for a non-empty separator: always at least one field. */
  function SplitOn(s: string, sep: string): (fields: seq<string>)
    requires |sep| > 0
    ensures |fields| >= 1
    decreases |s|
  {
    match FindFrom(s, sep, 0)
    case None => [s]
    case Some(p) => [s[..p]] + SplitOn(s[p + |sep|..], sep)
  }

  /** The last field of `s.split(sep)` is a suffix of `s` in which `sep`
      does not occur: the text after the last separator. */
  lemma {:induction false} SplitOnLastField(s: string, sep: string)
    requires |sep| > 0
    ensures var fs := SplitOn(s, sep);
      var f := fs[|fs| - 1];
      && |f| <= |s| && f == s[|s| - |f|..]
      && forall q :: !OccursAt(f, sep, q)
    decreases |s|
  {
    var r := FindFrom(s, sep, 0);
    if r.None? {
      FindFromFirst(s, sep, 0);
      assert SplitOn(s, sep) == [s];
      assert s[|s| - |s|..] == s;
    } else {
      var p := r.value;
      var rest := s[p + |sep|..];
      SplitOnLastField(rest, sep);
      var fs := SplitOn(rest, sep);
      var f := fs[|fs| - 1];
      assert SplitOn(s, sep) == [s[..p]] + fs;
      assert SplitOn(s, sep)[|SplitOn(s, sep)| - 1] == f;
      SuffixOfSuffix(s, p + |sep|, |f|);
    }
  }

  /** A suffix of a suffix of `s` is a suffix of `s`. */
  lemma SuffixOfSuffix(s: string, k: nat, m: nat)
    requires k <= |s| && m <= |s| - k
    ensures s[k..][|s| - k - m..] == s[|s| - m..]
  {
  }

  lemma {:induction false} SplitOnAbsent(s: string, sep: string)
    requires |sep| > 0
    requires forall q :: !OccursAt(s, sep, q)
    ensures SplitOn(s, sep) == [s]
  {
  }

  function DigitChar(d: nat): (c: char)
    requires d < 10
    ensures IsDigit(c)
  {
    ('0' as int + d) as char
  }

  function DigitValue(c: char): (d: nat)
    requires IsDigit(c)
    ensures d < 10
  {
    c as int - '0' as int
  }

  /** Decimal notation of a natural number, without leading zeros. */
  function NatToString(n: nat): (s: string)
    ensures |s| > 0
    ensures forall i :: 0 <= i < |s| ==> IsDigit(s[i])
  {
    if n < 10 then [DigitChar(n)] else NatToString(n / 10) + [DigitChar(n % 10)]
  }

  /** Python's `str(i)` for an integer. */
  function IntToString(i: int): (s: string)
    ensures |s| > 0
    ensures i >= 0 ==> forall k :: 0 <= k < |s| ==> IsDigit(s[k])
  {
    if i < 0 then "-" + NatToString(-i) else NatToString(i)
  }

  function Zeros(n: nat): (z: string)
    ensures |z| == n
    ensures forall i :: 0 <= i < n ==> z[i] == '0'
  {
    if n == 0 then [] else "0" + Zeros(n - 1)
  }

  /** Left-pads with zeros to at least `width` characters. */
  function PadLeft(s: string, width: nat): (r: string)
    ensures |r| == if |s| < width then width else |s|
  {
    if |s| < width then Zeros(width - |s|) + s else s
  }

  /** Python's `f"{i:03d}"`: zero-padded to width three, the sign counting
      towards the width. */
  function Pad3(i: int): (s: string)
    ensures |s| >= 3
  {
    if i < 0 then "-" + PadLeft(NatToString(-i), 2) else PadLeft(NatToString(i), 3)
  }

  predicate AllDigits(s: string) {
    forall i :: 0 <= i < |s| ==> IsDigit(s[i])
  }

  /** Value of a string of decimal digits; leading zeros are allowed. */
  function DigitsValue(s: string): nat
    requires AllDigits(s)
  {
    if s == [] then 0 else DigitsValue(s[..|s| - 1]) * 10 + DigitValue(s[|s| - 1])
  }

  /** Python's `int(s)` on an ASCII decimal string: surrounding whitespace and
      one leading sign are accepted; anything else is a `ValueError`. */
  function ParseInt(s: string): (r: Option<int>)
    ensures r.Some? ==> |Strip(s)| > 0
  {
    var t := Strip(s);
    if |t| > 0 && (t[0] == '+' || t[0] == '-') then
      var d := t[1..];
      if |d| > 0 && AllDigits(d) then
        var v: int := DigitsValue(d);
        Some(if t[0] == '-' then -v else v)
      else None
    else if |t| > 0 && AllDigits(t) then Some(DigitsValue(t))
    else None
  }

  lemma {:induction false} DigitsValueOfNatToString(n: nat)
    ensures DigitsValue(NatToString(n)) == n
  {
    if n < 10 {
    } else {
      var s := NatToString(n / 10) + [DigitChar(n % 10)];
      assert s[..|s| - 1] == NatToString(n / 10);
      DigitsValueOfNatToString(n / 10);
    }
  }

  lemma {:induction false} DigitsValueIgnoresLeadingZeros(k: nat, s: string)
    requires AllDigits(s)
    ensures AllDigits(Zeros(k) + s)
    ensures DigitsValue(Zeros(k) + s) == DigitsValue(s)
    decreases |s|
  {
    var z := Zeros(k) + s;
    assert AllDigits(z) by {
      forall i | 0 <= i < |z| ensures IsDigit(z[i]) {
        if i < k { assert z[i] == '0'; } else { assert z[i] == s[i - k]; }
      }
    }
    if s == [] {
      assert z == Zeros(k);
      ZerosValue(k);
    } else {
      var s' := s[..|s| - 1];
      assert z[..|z| - 1] == Zeros(k) + s';
      DigitsValueIgnoresLeadingZeros(k, s');
    }
  }

  lemma {:induction false} ZerosValue(k: nat)
    ensures AllDigits(Zeros(k)) && DigitsValue(Zeros(k)) == 0
  {
    if k > 0 {
      var z := Zeros(k);
      assert z[..|z| - 1] == Zeros(k - 1) by {
        assert z == "0" + Zeros(k - 1);
        assert forall i :: 0 <= i < k - 1 ==> z[i] == '0';
      }
      ZerosValue(k - 1);
    }
  }

  lemma ParseIntOfDigits(s: string)
    requires |s| > 0 && AllDigits(s)
    ensures ParseInt(s) == Some(DigitsValue(s))
  {
    assert !IsSpace(s[0]) && !IsSpace(s[|s| - 1]);
    StripUnchanged(s);
    assert IsDigit(s[0]);
  }

  /** `int(f"{n:03d}") == n`: the zero-padded rendering of a natural number
      reads back as that number. */
  lemma {:induction false} ParsePad3(n: nat)
    ensures ParseInt(Pad3(n)) == Some(n)
    ensures forall i :: 0 <= i < |Pad3(n)| ==> IsDigit(Pad3(n)[i])
  {
    var d := NatToString(n);
    DigitsValueOfNatToString(n);
    var k := if |d| < 3 then 3 - |d| else 0;
    assert Pad3(n) == Zeros(k) + d by {
      if |d| >= 3 { assert Zeros(0) + d == d; }
    }
    DigitsValueIgnoresLeadingZeros(k, d);
    ParseIntOfDigits(Pad3(n));
  }
}

=== FILE: transformer_analyzer.dfy ===
/** The arithmetic of the emotion-model analyser: how the seven emotion
    probabilities become a sentiment score, a confidence and an intensity,
    and how score and confidence become a label and a sentiment category.
    The probabilities are an input (tokeniser, model and softmax are not
    modelled); the emotion category comes from the advanced classifier. */
module TransformerAnalyzer {
  import opened Wrappers
  import opened Reals
  import opened Strings
  import opened Categories
  import opened Analyses
  import AdvancedClassifier

  /** Below this confidence every score is labelled neutral. */
  const LowConfidence: real := 0.4

  const HopeThreshold: real := 0.2
  const SorrowThreshold: real := -0.1

  /** `get_sentiment_label`: upper-inclusive bands at -0.6, -0.3, -0.1 and 0.2,
      applied only when the confidence reaches 0.4. */
  function SentimentLabel(score: real, confidence: real): (l: Label)
    ensures confidence < LowConfidence ==> l == Neutral
    ensures confidence >= LowConfidence ==>
      && (l == VeryNegative <==> score <= -0.6)
      && (l == Negative <==> -0.6 < score <= -0.3)
      && (l == Neutral <==> -0.3 < score <= -0.1)
      && (l == Positive <==> -0.1 < score <= 0.2)
      && (l == VeryPositive <==> score > 0.2)
  {
    if confidence < LowConfidence then Neutral
    else if score <= -0.6 then VeryNegative
    else if score <= -0.3 then Negative
    else if score <= -0.1 then Neutral
    else if score <= 0.2 then Positive
    else VeryPositive
  }

  /** With enough confidence a higher score never gets a more negative label. */
  lemma SentimentLabelMonotone(s1: real, s2: real, confidence: real)
    requires confidence >= LowConfidence && s1 <= s2
    ensures LabelRank(SentimentLabel(s1, confidence)) <= LabelRank(SentimentLabel(s2, confidence))
  {
  }

  /** A neutral score with a confident model is labelled positive, because the
      band for "positive" is (-0.1, 0.2]. */
  lemma ZeroScoreIsPositive(confidence: real)
    requires confidence >= LowConfidence
    ensures SentimentLabel(0.0, confidence) == Positive
  {
  }

  /** `get_sentiment_category`. */
  function SentimentCategoryOf(score: real): (c: SentimentCategory)
    ensures c == HopeSentiment <==> score >= 0.2
    ensures c == SorrowSentiment <==> score <= -0.1
    ensures c == NeutralSentiment <==> -0.1 < score < 0.2
  {
    SentimentBand(score, HopeThreshold, SorrowThreshold)
  }

  /** The seven class probabilities of the emotion model. */
  datatype Emotions = Emotions(
    anger: real, disgust: real, fear: real, joy: real, neutral: real, sadness: real, surprise: real)
  {
    /** Softmax output: no probability is negative. */
    predicate NonNegative() {
      anger >= 0.0 && disgust >= 0.0 && fear >= 0.0 && joy >= 0.0
      && neutral >= 0.0 && sadness >= 0.0 && surprise >= 0.0
    }

    /** Mass of the emotions leaning towards hope; surprise counts half. */
    function Positive(): real {
      joy + surprise * 0.5
    }

    /** Mass of the emotions leaning towards sorrow. */
    function Negative(): real {
      anger + disgust + fear + sadness
    }

    /** The six probabilities other than `neutral`, in the model's order. */
    function NonNeutral(): seq<real> {
      [anger, disgust, fear, joy, sadness, surprise]
    }
  }

  /** The sentiment score: positive minus negative mass over all mass, or 0.0
      when there is no emotional mass at all. */
  function EmotionScore(e: Emotions): (score: real)
    requires e.NonNegative()
    ensures -1.0 <= score <= 1.0
    ensures e.Positive() + e.Negative() == 0.0 ==> score == 0.0
    ensures score > 0.0 <==> e.Positive() > e.Negative()
    ensures score < 0.0 <==> e.Positive() < e.Negative()
  {
    var pos, neg := e.Positive(), e.Negative();
    var total := pos + neg;
    if total > 0.0 then
      var score := (pos - neg) / (total + e.neutral);
      QuotientBounds(pos, neg, e.neutral);
      score
    else 0.0
  }

  lemma QuotientBounds(pos: real, neg: real, n: real)
    requires pos >= 0.0 && neg >= 0.0 && n >= 0.0 && pos + neg > 0.0
    ensures var q := (pos - neg) / (pos + neg + n);
      && -1.0 <= q <= 1.0
      && (q > 0.0 <==> pos > neg)
      && (q < 0.0 <==> pos < neg)
  {
    var d := pos + neg + n;
    var q := (pos - neg) / d;
    assert q * d == pos - neg;
    assert -d <= pos - neg <= d;
    assert (q - 1.0) * d <= 0.0;
    assert (q + 1.0) * d >= 0.0;
  }

  /** The largest of a non-empty sequence. */
  function MaxOf(xs: seq<real>): (m: real)
    requires |xs| > 0
    ensures m in xs
    ensures forall i :: 0 <= i < |xs| ==> xs[i] <= m
  {
    if |xs| == 1 then xs[0]
    else
      var m := MaxOf(xs[1..]);
      assert forall i :: 1 <= i < |xs| ==> xs[i] == xs[1..][i - 1];
      if xs[0] >= m then xs[0] else m
  }

  /** The confidence: the largest probability other than `neutral`. */
  function EmotionConfidence(e: Emotions): (c: real)
    ensures c in e.NonNeutral()
    ensures c >= e.anger && c >= e.disgust && c >= e.fear && c >= e.joy && c >= e.sadness && c >= e.surprise
  {
    var xs := e.NonNeutral();
    var c := MaxOf(xs);
    assert xs[0] <= c && xs[1] <= c && xs[2] <= c && xs[3] <= c && xs[4] <= c && xs[5] <= c;
    c
  }

  /** Result for empty or whitespace-only text. */
  const EmptyResult: Analysis := NeutralResult(0.0)

  /** `SentimentAnalyzer.analyze`, with the model's probabilities given.  The
      classifier is run with the computed score and the speaker id (or
      "unknown"); its state is threaded through. */
  function Analyze(st: AdvancedClassifier.ClassifierState, text: string, speaker: Option<string>,
                   obs: AdvancedClassifier.Observation, e: Emotions)
    : (r: (Analysis, AdvancedClassifier.ClassifierState))
    requires e.NonNegative()
    ensures Strip(text) == [] ==> r == (EmptyResult, st)
    ensures Strip(text) != [] ==>
      var (a, st') := r;
      var (cls, st'') := AdvancedClassifier.Classify(st, text, a.score, SpeakerKey(speaker), obs);
      && st' == st''
      && a.score == EmotionScore(e)
      && a.intensity == Abs(a.score)
      && a.confidence == EmotionConfidence(e)
      && a.sentimentLabel == SentimentLabel(a.score, a.confidence)
      && a.category == cls.category
      && a.classificationConfidence == Some(cls.confidence)
      && a.matchedPatterns == Some(cls.matches)
      && a.source.None? && a.strategy.None?
  {
    if Strip(text) == [] then (EmptyResult, st)
    else
      var score := EmotionScore(e);
      var confidence := EmotionConfidence(e);
      var (cls, st') := AdvancedClassifier.Classify(st, text, score, SpeakerKey(speaker), obs);
      var a := Analysis(score, SentimentLabel(score, confidence), cls.category, Abs(score), confidence,
                        Some(cls.confidence), Some(cls.matches), None, None, None, None);
      (a, st')
  }

  /** A non-empty analysis has intensity in [0, 1] and, with probabilities
      that are at most 1, a confidence in [0, 1]. */
  lemma AnalyzeBounds(st: AdvancedClassifier.ClassifierState, text: string, speaker: Option<string>,
                      obs: AdvancedClassifier.Observation, e: Emotions)
    requires e.NonNegative()
    requires e.anger <= 1.0 && e.disgust <= 1.0 && e.fear <= 1.0 && e.joy <= 1.0 && e.sadness <= 1.0 && e.surprise <= 1.0
    ensures var a := Analyze(st, text, speaker, obs, e).0;
      && 0.0 <= a.intensity <= 1.0
      && 0.0 <= a.confidence <= 1.0
      && -1.0 <= a.score <= 1.0
  {
    var xs := e.NonNeutral();
    var c := EmotionConfidence(e);
    assert c in xs;
    assert forall x | x in xs :: 0.0 <= x <= 1.0;
  }

  /** An empty speaker id is classified as "unknown", exactly like a missing one. */
  lemma EmptySpeakerIsUnknown(st: AdvancedClassifier.ClassifierState, text: string,
                              obs: AdvancedClassifier.Observation, e: Emotions)
    requires e.NonNegative()
    ensures Analyze(st, text, Some(""), obs, e) == Analyze(st, text, None, obs, e)
    ensures Analyze(st, text, Some(""), obs, e) == Analyze(st, text, Some("unknown"), obs, e)
  {
  }
}

=== FILE: web_api.dfy ===
/** The web API's handlers reduced to their decision rules: how a blob is
    assembled from a transcription and its stored analyses (`get_all_blobs`),
    the defaults of the blobs built from a fresh upload, and the update-or-add
    rule of `reanalyze_with_llm`.  Flask, SocketIO, JSON encoding, timestamps,
    explanations and debug output are not modelled.  A transcription's
    analyses are taken in table order. */
module WebApi {
  import opened Wrappers
  import opened Reals
  import opened Strings
  import opened Categories
  import opened Analyses
  import Database
  import CombinedAnalyzer
  import AudioPipeline

  /** One blob of the visualisation, as the API returns it. */
  datatype Blob = Blob(
    id: string, speakerId: string, speakerName: string, globalSequence: nat, text: string,
    category: string, score: real, confidence: real, intensity: real, labelName: string,
    hasLlm: bool, analysisSource: string)

  // ---------------------------------------------------------------------
  // get_all_blobs
  // ---------------------------------------------------------------------

  /** The analyser types whose result is preferred for a blob. */
  predicate TransformerSide(t: AnalyzerType) {
    t == Transformer || t == Combined
  }

  predicate HasLlm(rs: seq<Database.SentimentRecord>) {
    exists k | 0 <= k < |rs| :: rs[k].analyzerType == Llm
  }

  predicate HasTransformerSide(rs: seq<Database.SentimentRecord>) {
    exists k | 0 <= k < |rs| :: TransformerSide(rs[k].analyzerType)
  }

  /** The analyses of transcription `tid`, in table order. */
  function AnalysesOf(analyses: seq<Database.SentimentRecord>, tid: nat): (r: seq<Database.SentimentRecord>)
    ensures |r| <= |analyses|
    ensures forall k | 0 <= k < |r| :: r[k].transcriptionId == tid
    ensures r == [] <==> forall k | 0 <= k < |analyses| :: analyses[k].transcriptionId != tid
  {
    if analyses == [] then []
    else
      var init := AnalysesOf(analyses[..|analyses| - 1], tid);
      var a := analyses[|analyses| - 1];
      assert forall k | 0 <= k < |analyses| - 1 :: analyses[..|analyses| - 1][k] == analyses[k];
      if a.transcriptionId == tid then init + [a] else init
  }

  /** Position of the last analysis whose type is transformer-side (when
      `transformerSide`) or LLM (otherwise). */
  function LastOfKind(rs: seq<Database.SentimentRecord>, transformerSide: bool): (r: Option<nat>)
    ensures r.Some? ==> r.value < |rs| && (TransformerSide(rs[r.value].analyzerType) <==> transformerSide)
    ensures r.Some? ==> rs[r.value].analyzerType == Llm || transformerSide
    ensures r.Some? ==> forall k | r.value < k < |rs| ::
      if transformerSide then !TransformerSide(rs[k].analyzerType) else rs[k].analyzerType != Llm
    ensures r.None? ==> forall k | 0 <= k < |rs| ::
      if transformerSide then !TransformerSide(rs[k].analyzerType) else rs[k].analyzerType != Llm
  {
    if rs == [] then None
    else
      var t := rs[|rs| - 1].analyzerType;
      if (transformerSide && TransformerSide(t)) || (!transformerSide && t == Llm) then Some(|rs| - 1)
      else
        assert forall k | 0 <= k < |rs| - 1 :: rs[..|rs| - 1][k] == rs[k];
        LastOfKind(rs[..|rs| - 1], transformerSide)
  }

  /** The loop of `get_all_blobs` over one transcription's analyses: the last
      TRANSFORMER or COMBINED analysis and the last LLM analysis. */
  method SelectAnalyses(rs: seq<Database.SentimentRecord>)
    returns (transformer: Option<Database.SentimentRecord>, llm: Option<Database.SentimentRecord>)
    ensures transformer.Some? <==> LastOfKind(rs, true).Some?
    ensures transformer.Some? ==> transformer.value == rs[LastOfKind(rs, true).value]
    ensures llm.Some? <==> LastOfKind(rs, false).Some?
    ensures llm.Some? ==> llm.value == rs[LastOfKind(rs, false).value]
  {
    transformer, llm := None, None;
    ghost var ti: nat, li: nat := 0, 0;
    var i := 0;
    while i < |rs|
      invariant 0 <= i <= |rs|
      invariant transformer.None? ==> forall k | 0 <= k < i :: !TransformerSide(rs[k].analyzerType)
      invariant transformer.Some? ==>
        (ti < i && transformer.value == rs[ti] && TransformerSide(rs[ti].analyzerType)
         && forall k | ti < k < i :: !TransformerSide(rs[k].analyzerType))
      invariant llm.None? ==> forall k | 0 <= k < i :: rs[k].analyzerType != Llm
      invariant llm.Some? ==>
        (li < i && llm.value == rs[li] && rs[li].analyzerType == Llm
         && forall k | li < k < i :: rs[k].analyzerType != Llm)
    {
      if TransformerSide(rs[i].analyzerType) {
        transformer, ti := Some(rs[i]), i;
      } else if rs[i].analyzerType == Llm {
        llm, li := Some(rs[i]), i;
      }
      i := i + 1;
    }
    LastOfKindUnique(rs, true, ti);
    LastOfKindUnique(rs, false, li);
  }

  /** The last position of a kind is determined by the kind alone. */
  lemma LastOfKindUnique(rs: seq<Database.SentimentRecord>, transformerSide: bool, i: nat)
    ensures i < |rs| && (if transformerSide then TransformerSide(rs[i].analyzerType) else rs[i].analyzerType == Llm)
      && (forall k | i < k < |rs| :: if transformerSide then !TransformerSide(rs[k].analyzerType) else rs[k].analyzerType != Llm)
      ==> LastOfKind(rs, transformerSide) == Some(i)
  {
    var r := LastOfKind(rs, transformerSide);
    if i < |rs| && (if transformerSide then TransformerSide(rs[i].analyzerType) else rs[i].analyzerType == Llm)
       && (forall k | i < k < |rs| :: if transformerSide then !TransformerSide(rs[k].analyzerType) else rs[k].analyzerType != Llm)
    {
      assert r.Some?;
      if r.value < i {
        assert false;
      } else if r.value > i {
        assert false;
      }
    }
  }

  /** `transformer_analysis or llm_analysis`: the position of the analysis a
      blob shows. */
  function Primary(rs: seq<Database.SentimentRecord>): (r: Option<nat>)
    ensures r.None? <==> rs == []
    ensures r.Some? ==> r.value < |rs|
    ensures r.Some? && TransformerSide(rs[r.value].analyzerType) ==>
      forall k | r.value < k < |rs| :: !TransformerSide(rs[k].analyzerType)
    ensures r.Some? && rs[r.value].analyzerType == Llm ==>
      && (forall k | 0 <= k < |rs| :: !TransformerSide(rs[k].analyzerType))
      && (forall k | r.value < k < |rs| :: rs[k].analyzerType != Llm)
  {
    var t := LastOfKind(rs, true);
    if t.Some? then t
    else
      LastOfKind(rs, false)
  }

  /** The name and sequence number shown for a speaker id: "Unknown" and 0
      when the speaker is missing. */
  function SpeakerShown(speakers: seq<Database.Speaker>, id: string): (r: (string, nat))
    ensures Database.SpeakerById(speakers, id).None? ==> r == ("Unknown", 0)
    ensures Database.SpeakerById(speakers, id).Some? ==>
      exists k | 0 <= k < |speakers| :: speakers[k].id == id && r == (speakers[k].displayName, speakers[k].globalSequence)
  {
    match Database.SpeakerById(speakers, id)
    case None => ("Unknown", 0)
    case Some(k) => (speakers[k].displayName, speakers[k].globalSequence)
  }

  const BlobPrefix: string := "blob_"

  /** The blob of one transcription, or `None` when it has no analysis. */
  function BlobFor(store: Database.Store, t: Database.Transcription): (r: Option<Blob>)
    ensures r.None? <==> forall k | 0 <= k < |store.analyses| :: store.analyses[k].transcriptionId != t.id
    ensures r.Some? ==> r.value.id == BlobPrefix + NatToString(t.id)
    ensures r.Some? ==> r.value.intensity == Abs(r.value.score)
    ensures r.Some? ==> r.value.speakerId == t.speakerId && r.value.text == t.text
    ensures r.Some? ==> (r.value.speakerName, r.value.globalSequence) == SpeakerShown(store.speakers, t.speakerId)
    ensures r.Some? ==> (r.value.hasLlm <==> HasLlm(AnalysesOf(store.analyses, t.id)))
    ensures r.Some? ==> (r.value.analysisSource == "transformer" <==> HasTransformerSide(AnalysesOf(store.analyses, t.id)))
    ensures r.Some? ==> r.value.analysisSource in {"transformer", "llm"}
    ensures r.Some? ==> var rs := AnalysesOf(store.analyses, t.id);
      && Primary(rs).Some?
      && r.value.score == rs[Primary(rs).value].score && r.value.confidence == rs[Primary(rs).value].confidence
      && r.value.category == CategoryName(rs[Primary(rs).value].category)
      && r.value.labelName == rs[Primary(rs).value].labelName
  {
    var rs := AnalysesOf(store.analyses, t.id);
    var tr := LastOfKind(rs, true);
    var llm := LastOfKind(rs, false);
    match Primary(rs)
    case None => None
    case Some(p) =>
      var a := rs[p];
      var (name, sequence) := SpeakerShown(store.speakers, t.speakerId);
      assert llm.Some? <==> HasLlm(rs) by {
        if llm.Some? { assert rs[llm.value].analyzerType == Llm; }
      }
      assert tr.Some? <==> HasTransformerSide(rs) by {
        if tr.Some? { assert TransformerSide(rs[tr.value].analyzerType); }
      }
      Some(Blob(BlobPrefix + NatToString(t.id), t.speakerId, name, sequence, t.text,
                CategoryName(a.category), a.score, a.confidence, Abs(a.score), a.labelName,
                llm.Some?, if tr.Some? then "transformer" else "llm"))
  }

  /** The blobs of a list of transcriptions, in order. */
  function Blobs(store: Database.Store, ts: seq<Database.Transcription>): (r: seq<Blob>)
    ensures |r| <= |ts|
  {
    if ts == [] then []
    else
      var b := BlobFor(store, ts[|ts| - 1]);
      Blobs(store, ts[..|ts| - 1]) + (if b.Some? then [b.value] else [])
  }

  /** The blobs of a prefix one longer. */
  lemma BlobsSnoc(store: Database.Store, ts: seq<Database.Transcription>, i: nat)
    requires i < |ts|
    ensures Blobs(store, ts[..i + 1]) ==
      Blobs(store, ts[..i]) + (if BlobFor(store, ts[i]).Some? then [BlobFor(store, ts[i]).value] else [])
  {
    assert ts[..i + 1][..i] == ts[..i];
  }

  /** `get_all_blobs`: one blob per analysed transcription and their count. */
  method GetAllBlobs(store: Database.Store) returns (blobs: seq<Blob>, totalCount: nat)
    ensures blobs == Blobs(store, store.transcriptions)
    ensures totalCount == |blobs| <= |store.transcriptions|
  {
    var ts := store.transcriptions;
    blobs := [];
    var i := 0;
    while i < |ts|
      invariant 0 <= i <= |ts|
      invariant blobs == Blobs(store, ts[..i])
    {
      BlobsSnoc(store, ts, i);
      var b := BlobFor(store, ts[i]);
      if b.Some? {
        blobs := blobs + [b.value];
      }
      i := i + 1;
    }
    assert ts[..i] == ts;
    totalCount := |blobs|;
  }

  /** Every blob comes from an analysed transcription, and every analysed
      transcription gives one. */
  lemma {:induction false} BlobsCount(store: Database.Store, ts: seq<Database.Transcription>)
    ensures |Blobs(store, ts)| == |Analysed(store, ts)|
  {
    if ts != [] {
      BlobsCount(store, ts[..|ts| - 1]);
    }
  }

  /** The transcriptions of `ts` that have at least one analysis. */
  function Analysed(store: Database.Store, ts: seq<Database.Transcription>): (r: seq<Database.Transcription>)
    ensures |r| <= |ts|
    ensures forall k | 0 <= k < |r| :: exists j | 0 <= j < |store.analyses| :: store.analyses[j].transcriptionId == r[k].id
  {
    if ts == [] then []
    else
      var t := ts[|ts| - 1];
      var init := Analysed(store, ts[..|ts| - 1]);
      assert forall k | 0 <= k < |init| :: (init + [t])[k] == init[k];
      if exists j | 0 <= j < |store.analyses| :: store.analyses[j].transcriptionId == t.id then init + [t] else init
  }

  /** The transcription id can be read back from a blob id, so distinct
      transcriptions give distinct blob ids. */
  lemma BlobIdDecodes(id: nat)
    ensures var b := BlobPrefix + NatToString(id);
      |b| > |BlobPrefix| && b[..|BlobPrefix|] == BlobPrefix
      && AllDigits(b[|BlobPrefix|..]) && DigitsValue(b[|BlobPrefix|..]) == id
  {
    var b := BlobPrefix + NatToString(id);
    assert b[|BlobPrefix|..] == NatToString(id);
    DigitsValueOfNatToString(id);
  }

  /** Distinct transcription ids give distinct blob ids. */
  lemma BlobIdsDistinct(i: nat, j: nat)
    requires i != j
    ensures BlobPrefix + NatToString(i) != BlobPrefix + NatToString(j)
  {
    BlobIdDecodes(i);
    BlobIdDecodes(j);
  }

  // ---------------------------------------------------------------------
  // Blobs of a fresh upload
  // ---------------------------------------------------------------------

  /** The `combined_sentiment` dictionary of an analysed utterance: each key
      the upload handler reads may be absent; `otherKeys` counts the keys it
      does not read. */
  datatype SentimentDict = SentimentDict(
    category: Option<string>, score: Option<real>, confidence: Option<real>, labelName: Option<string>,
    hasLlm: Option<bool>, analysisSource: Option<string>, otherKeys: nat)

  /** Python's truth value of a dictionary: it is non-empty. */
  predicate NonEmpty(d: SentimentDict) {
    || d.category.Some? || d.score.Some? || d.confidence.Some? || d.labelName.Some?
    || d.hasLlm.Some? || d.analysisSource.Some? || d.otherKeys > 0
  }

  /** One entry of the analysis result's `utterances`. */
  datatype Utterance = Utterance(
    speakerId: Option<string>, speaker: Option<string>, globalSequence: Option<nat>, text: Option<string>,
    combined: Option<SentimentDict>)

  /** The blob built for one utterance of an upload, `uuid` standing for the
      random part of its id; no blob when the utterance has no (or an empty)
      sentiment dictionary. */
  function UploadBlob(u: Utterance, uuid: string): (r: Option<Blob>)
    ensures r.Some? <==> u.combined.Some? && NonEmpty(u.combined.value)
    ensures r.Some? ==> r.value.intensity == Abs(r.value.score)
    ensures r.Some? ==> r.value.id == BlobPrefix + uuid
  {
    match u.combined
    case None => None
    case Some(d) =>
      if !NonEmpty(d) then None
      else
        var score := d.score.GetOr(0.0);
        Some(Blob(BlobPrefix + uuid, u.speakerId.GetOr("unknown"), u.speaker.GetOr("Unknown"),
                  u.globalSequence.GetOr(0), u.text.GetOr(""),
                  d.category.GetOr(CategoryName(ReflectiveNeutral)), score, d.confidence.GetOr(0.0),
                  Abs(score), d.labelName.GetOr("neutral"), d.hasLlm.GetOr(false),
                  d.analysisSource.GetOr("combined")))
  }

  /** Every key missing from a non-empty sentiment dictionary or from the
      utterance takes its default in the blob: reflective neutral, score,
      intensity and confidence 0, "neutral", no language model, source
      "combined", speaker "unknown" named "Unknown", sequence 0, empty text. */
  lemma UploadDefaults(u: Utterance, uuid: string)
    requires u.combined.Some? && NonEmpty(u.combined.value)
    ensures UploadBlob(u, uuid).Some?
    ensures var b := UploadBlob(u, uuid).value; var d := u.combined.value;
      && (d.category.None? ==> b.category == "reflective_neutral")
      && (d.score.None? ==> b.score == 0.0 && b.intensity == 0.0)
      && (d.confidence.None? ==> b.confidence == 0.0)
      && (d.labelName.None? ==> b.labelName == "neutral")
      && (d.hasLlm.None? ==> !b.hasLlm)
      && (d.analysisSource.None? ==> b.analysisSource == "combined")
      && (u.speakerId.None? ==> b.speakerId == "unknown")
      && (u.speaker.None? ==> b.speakerName == "Unknown")
      && (u.globalSequence.None? ==> b.globalSequence == 0)
      && (u.text.None? ==> b.text == "")
  {
  }

  /** The dictionary the combined analyser returns: every key present. */
  function DictOf(c: CombinedAnalyzer.CombinedResult): (d: SentimentDict)
    ensures NonEmpty(d)
  {
    SentimentDict(Some(CategoryName(c.analysis.category)), Some(c.analysis.score), Some(c.analysis.confidence),
                  Some(LabelName(c.analysis.sentimentLabel)), Some(c.hasLlm), c.analysis.source, 0)
  }

  /** An utterance carrying a combined analysis gets a blob showing exactly
      that analysis' category, score, confidence, label and provenance. */
  lemma UploadBlobShowsAnalysis(u: Utterance, c: CombinedAnalyzer.CombinedResult, uuid: string)
    requires u.combined == Some(DictOf(c))
    ensures var b := UploadBlob(u, uuid);
      && b.Some?
      && b.value.category == CategoryName(c.analysis.category)
      && b.value.score == c.analysis.score && b.value.intensity == Abs(c.analysis.score)
      && b.value.confidence == c.analysis.confidence
      && b.value.labelName == LabelName(c.analysis.sentimentLabel)
      && b.value.hasLlm == c.hasLlm
      && b.value.analysisSource == c.analysis.source.GetOr("combined")
  {
  }

  /** The blobs of an upload: one per utterance with a sentiment dictionary,
      the i-th utterance using the i-th random id. */
  function UploadBlobs(us: seq<Utterance>, uuids: seq<string>): (r: seq<Blob>)
    requires |uuids| == |us|
    ensures |r| <= |us|
    ensures forall k | 0 <= k < |r| :: r[k].intensity == Abs(r[k].score)
  {
    if us == [] then []
    else
      var b := UploadBlob(us[|us| - 1], uuids[|us| - 1]);
      UploadBlobs(us[..|us| - 1], uuids[..|us| - 1]) + (if b.Some? then [b.value] else [])
  }

  // ---------------------------------------------------------------------
  // reanalyze_with_llm
  // ---------------------------------------------------------------------

  /** The per-id outcome reported by `reanalyze_with_llm`. */
  datatype Status = NotFound | LlmFailed | Updated(category: Category, confidence: real, source: Option<string>)

  /** `get_transcription_with_analyses`: the first transcription with the id. */
  function FindTranscription(ts: seq<Database.Transcription>, id: nat): (r: Option<nat>)
    ensures r.Some? ==> r.value < |ts| && ts[r.value].id == id
    ensures r.None? ==> forall k | 0 <= k < |ts| :: ts[k].id != id
  {
    if ts == [] then None
    else if ts[0].id == id then Some(0)
    else
      match FindTranscription(ts[1..], id)
      case None => None
      case Some(k) => Some(k + 1)
  }

  /** Position of the first COMBINED analysis of transcription `tid`. */
  function FirstCombined(rs: seq<Database.SentimentRecord>, tid: nat): (r: Option<nat>)
    ensures r.Some? ==> r.value < |rs| && rs[r.value].transcriptionId == tid && rs[r.value].analyzerType == Combined
    ensures r.Some? ==> forall k | 0 <= k < r.value :: !(rs[k].transcriptionId == tid && rs[k].analyzerType == Combined)
    ensures r.None? ==> forall k | 0 <= k < |rs| :: !(rs[k].transcriptionId == tid && rs[k].analyzerType == Combined)
  {
    if rs == [] then None
    else if rs[0].transcriptionId == tid && rs[0].analyzerType == Combined then Some(0)
    else
      match FirstCombined(rs[1..], tid)
      case None => None
      case Some(k) => Some(k + 1)
  }

  /** Next row id of the analysis table. */
  function NextAnalysisId(rs: seq<Database.SentimentRecord>): nat {
    if rs == [] then 1 else rs[|rs| - 1].id + 1
  }

  /** The stored fields a combined result overwrites. */
  function Refresh(a: Database.SentimentRecord, c: CombinedAnalyzer.CombinedResult): Database.SentimentRecord {
    a.(labelName := LabelName(c.analysis.sentimentLabel), category := c.analysis.category,
       score := c.analysis.score, confidence := c.analysis.confidence)
  }

  /** Update the first COMBINED analysis of the transcription in place, or
      add a new analysis of the type the result is stored under. */
  function Upsert(rs: seq<Database.SentimentRecord>, tid: nat, c: CombinedAnalyzer.CombinedResult)
    : (r: seq<Database.SentimentRecord>)
    ensures FirstCombined(rs, tid).Some? ==>
      var k := FirstCombined(rs, tid).value;
      && |r| == |rs| && r[k] == Refresh(rs[k], c)
      && forall j | 0 <= j < |rs| && j != k :: r[j] == rs[j]
    ensures FirstCombined(rs, tid).None? ==>
      && |r| == |rs| + 1 && r[..|rs|] == rs
      && r[|rs|] == Database.SentimentRecord(NextAnalysisId(rs), tid, AudioPipeline.StoredAnalyzerType(c),
                       LabelName(c.analysis.sentimentLabel), c.analysis.category, c.analysis.score, c.analysis.confidence)
  {
    match FirstCombined(rs, tid)
    case Some(k) => rs[k := Refresh(rs[k], c)]
    case None =>
      rs + [Database.SentimentRecord(NextAnalysisId(rs), tid, AudioPipeline.StoredAnalyzerType(c),
              LabelName(c.analysis.sentimentLabel), c.analysis.category, c.analysis.score, c.analysis.confidence)]
  }

  /** Re-analysing with the same language-model result twice stores the same
      rows as doing it once. */
  lemma UpsertIdempotent(rs: seq<Database.SentimentRecord>, tid: nat, c: CombinedAnalyzer.CombinedResult)
    requires AudioPipeline.StoredAnalyzerType(c) == Combined
    ensures Upsert(Upsert(rs, tid, c), tid, c) == Upsert(rs, tid, c)
  {
    var r1 := Upsert(rs, tid, c);
    match FirstCombined(rs, tid)
    case Some(k) =>
      assert FirstCombined(r1, tid) == Some(k) by {
        FirstCombinedAt(r1, tid, k);
      }
    case None =>
      var n := |rs|;
      assert FirstCombined(r1, tid) == Some(n) by {
        assert forall j | 0 <= j < n :: r1[j] == rs[j];
        FirstCombinedAt(r1, tid, n);
      }
  }

  /** The first COMBINED position is the one before which there is none. */
  lemma FirstCombinedAt(rs: seq<Database.SentimentRecord>, tid: nat, k: nat)
    requires k < |rs| && rs[k].transcriptionId == tid && rs[k].analyzerType == Combined
    requires forall j | 0 <= j < k :: !(rs[j].transcriptionId == tid && rs[j].analyzerType == Combined)
    ensures FirstCombined(rs, tid) == Some(k)
  {
    var r := FirstCombined(rs, tid);
    assert r.Some?;
    if r.value < k {
      assert false;
    } else if r.value > k {
      assert false;
    }
  }

  /** After an upsert with a language-model result the transcription has a
      COMBINED analysis, and no other transcription's analyses changed. */
  lemma UpsertLeavesCombined(rs: seq<Database.SentimentRecord>, tid: nat, c: CombinedAnalyzer.CombinedResult)
    requires AudioPipeline.StoredAnalyzerType(c) == Combined
    ensures FirstCombined(Upsert(rs, tid, c), tid).Some?
    ensures forall j | 0 <= j < |rs| && rs[j].transcriptionId != tid :: Upsert(rs, tid, c)[j] == rs[j]
  {
    var r := Upsert(rs, tid, c);
    if FirstCombined(rs, tid).None? {
      assert r[|rs|].transcriptionId == tid && r[|rs|].analyzerType == Combined;
    } else {
      var k := FirstCombined(rs, tid).value;
      assert r[k].transcriptionId == tid && r[k].analyzerType == Combined;
    }
  }

  /** The analyzer type the reanalysis route chooses for a new row: it reads
      only the analysis source, not `has_llm`. */
  function ReanalysisAnalyzerType(c: CombinedAnalyzer.CombinedResult): AnalyzerType {
    if c.analysis.source != Some("transformer_only") && c.analysis.source != Some("fallback") then Combined
    else Transformer
  }

  /** Reanalysis only stores a result the language model took part in, and for
      such a result its rule and the upload pipeline's rule agree, so `Upsert`
      may use the pipeline's. */
  lemma ReanalysisTypeAgrees(c: CombinedAnalyzer.CombinedResult)
    requires c.hasLlm
    ensures ReanalysisAnalyzerType(c) == AudioPipeline.StoredAnalyzerType(c)
  {
  }

  /** One requested id: not found, language model unavailable, or upserted. */
  function ReanalyzeOne(store: Database.Store, id: nat, c: CombinedAnalyzer.CombinedResult): (r: (Database.Store, Status))
    ensures r.1 == NotFound <==> FindTranscription(store.transcriptions, id).None?
    ensures r.1 == LlmFailed <==> FindTranscription(store.transcriptions, id).Some? && !c.hasLlm
    ensures r.1.Updated? ==> r.1 == Updated(c.analysis.category, c.analysis.confidence, c.analysis.source)
    ensures r.1.Updated? ==> r.0 == store.(analyses := Upsert(store.analyses, id, c))
    ensures !r.1.Updated? ==> r.0 == store
    ensures r.0.sessions == store.sessions && r.0.speakers == store.speakers
    ensures r.0.transcriptions == store.transcriptions
  {
    match FindTranscription(store.transcriptions, id)
    case None => (store, NotFound)
    case Some(k) =>
      if !c.hasLlm then (store, LlmFailed)
      else
        var tid := store.transcriptions[k].id;
        (store.(analyses := Upsert(store.analyses, tid, c)),
         Updated(c.analysis.category, c.analysis.confidence, c.analysis.source))
  }

  /** The number of `Updated` outcomes. */
  function CountUpdated(ss: seq<Status>): (n: nat)
    ensures n <= |ss|
  {
    if ss == [] then 0 else CountUpdated(ss[..|ss| - 1]) + (if ss[|ss| - 1].Updated? then 1 else 0)
  }

  /** The ids processed in order, the i-th with the i-th combined result. */
  function ReanalyzeAll(store: Database.Store, ids: seq<nat>, cs: seq<CombinedAnalyzer.CombinedResult>)
    : (r: (Database.Store, seq<Status>))
    requires |cs| == |ids|
    ensures |r.1| == |ids|
    ensures r.0.transcriptions == store.transcriptions
    ensures r.0.sessions == store.sessions && r.0.speakers == store.speakers
    ensures |store.analyses| <= |r.0.analyses|
    ensures forall j | 0 <= j < |store.analyses| && store.analyses[j].transcriptionId !in ids ::
      r.0.analyses[j] == store.analyses[j]
  {
    if ids == [] then (store, [])
    else
      var n := |ids| - 1;
      var (st, ss) := ReanalyzeAll(store, ids[..n], cs[..n]);
      var (st2, s) := ReanalyzeOne(st, ids[n], cs[n]);
      (st2, ss + [s])
  }

  /** Handling a prefix of the requests gives a prefix of the statuses. */
  lemma {:induction false} StatusesPrefix(store: Database.Store, ids: seq<nat>, cs: seq<CombinedAnalyzer.CombinedResult>, m: nat)
    requires |cs| == |ids| && m <= |ids|
    ensures ReanalyzeAll(store, ids[..m], cs[..m]).1 == ReanalyzeAll(store, ids, cs).1[..m]
  {
    if m == |ids| {
      assert ids[..m] == ids && cs[..m] == cs;
    } else {
      var n := |ids| - 1;
      StatusesPrefix(store, ids[..n], cs[..n], m);
      assert ids[..n][..m] == ids[..m] && cs[..n][..m] == cs[..m];
      var ss := ReanalyzeAll(store, ids[..n], cs[..n]).1;
      assert ReanalyzeAll(store, ids, cs).1[..n] == ss;
    }
  }

  /** Request i is handled by one `ReanalyzeOne` on the store the first i
      requests left behind: its status is that call's status, and the store
      after it is that call's store. */
  lemma ReanalyzeAllStepwise(store: Database.Store, ids: seq<nat>, cs: seq<CombinedAnalyzer.CombinedResult>, i: nat)
    requires |cs| == |ids| && i < |ids|
    ensures var before := ReanalyzeAll(store, ids[..i], cs[..i]).0;
      && ReanalyzeAll(store, ids, cs).1[i] == ReanalyzeOne(before, ids[i], cs[i]).1
      && ReanalyzeAll(store, ids[..i + 1], cs[..i + 1]).0 == ReanalyzeOne(before, ids[i], cs[i]).0
  {
    StatusesPrefix(store, ids, cs, i + 1);
    var pre := ids[..i + 1];
    var pcs := cs[..i + 1];
    assert pre[..i] == ids[..i] && pcs[..i] == cs[..i];
    assert pre[i] == ids[i] && pcs[i] == cs[i];
    assert ReanalyzeAll(store, pre, pcs).1[i] == ReanalyzeAll(store, ids, cs).1[i];
  }

  /** `reanalyze_with_llm`.  `configured` says whether an OpenAI key is set;
      `cs[i]` is the combined analyser's result for the i-th requested id. */
  method ReanalyzeWithLlm(store: Database.Store, ids: seq<nat>, configured: bool, cs: seq<CombinedAnalyzer.CombinedResult>)
    returns (r: Result<(Database.Store, nat, seq<Status>), string>)
    requires |cs| == |ids|
    ensures ids == [] ==> r == Failure("No transcription IDs provided")
    ensures ids != [] && !configured ==> r == Failure("LLM not configured")
    ensures r.Success? <==> ids != [] && configured
    ensures r.Success? ==> var (st, ss) := ReanalyzeAll(store, ids, cs);
      r.value == (st, CountUpdated(ss), ss)
  {
    if ids == [] {
      return Failure("No transcription IDs provided");
    }
    if !configured {
      return Failure("LLM not configured");
    }
    var st := store;
    var ss: seq<Status> := [];
    var updated := 0;
    var i := 0;
    while i < |ids|
      invariant 0 <= i <= |ids|
      invariant (st, ss) == ReanalyzeAll(store, ids[..i], cs[..i])
      invariant updated == CountUpdated(ss)
    {
      assert ids[..i + 1][..i] == ids[..i] && cs[..i + 1][..i] == cs[..i];
      var (st2, s) := ReanalyzeOne(st, ids[i], cs[i]);
      if s.Updated? {
        updated := updated + 1;
      }
      st, ss := st2, ss + [s];
      i := i + 1;
    }
    assert ids[..i] == ids && cs[..i] == cs;
    return Success((st, updated, ss));
  }

  /** Each requested id gets exactly one outcome, in request order, and an id
      is reported as not found exactly when no transcription has it. */
  lemma {:induction false} ReanalyzeOutcomes(store: Database.Store, ids: seq<nat>, cs: seq<CombinedAnalyzer.CombinedResult>)
    requires |cs| == |ids|
    ensures var ss := ReanalyzeAll(store, ids, cs).1;
      forall i | 0 <= i < |ids| ::
        && (ss[i] == NotFound <==> FindTranscription(store.transcriptions, ids[i]).None?)
        && (ss[i] == LlmFailed <==> FindTranscription(store.transcriptions, ids[i]).Some? && !cs[i].hasLlm)
        && (ss[i].Updated? <==> FindTranscription(store.transcriptions, ids[i]).Some? && cs[i].hasLlm)
  {
    if ids != [] {
      var n := |ids| - 1;
      ReanalyzeOutcomes(store, ids[..n], cs[..n]);
      var (st, ss) := ReanalyzeAll(store, ids[..n], cs[..n]);
      var ss2 := ReanalyzeAll(store, ids, cs).1;
      assert ss2 == ss + [ReanalyzeOne(st, ids[n], cs[n]).1];
      forall i | 0 <= i < |ids|
        ensures && (ss2[i] == NotFound <==> FindTranscription(store.transcriptions, ids[i]).None?)
                && (ss2[i] == LlmFailed <==> FindTranscription(store.transcriptions, ids[i]).Some? && !cs[i].hasLlm)
                && (ss2[i].Updated? <==> FindTranscription(store.transcriptions, ids[i]).Some? && cs[i].hasLlm)
      {
        if i < n {
          assert ss2[i] == ss[i] && ids[..n][i] == ids[i] && cs[..n][i] == cs[i];
        }
      }
    }
  }
}

=== FILE: wrappers.dfy ===
/** Optional values and success/failure results, standing in for Python's
    `None` and for exceptions that the modelled code raises or catches. */
module Wrappers {

  datatype Option<+T> = None | Some(value: T) {
    /** The wrapped value, or `default` when there is none (Python's
        `d.get(key, default)` for a key that may be missing). */
    function GetOr(default: T): T {
      match this
      case Some(v) => v
      case None => default
    }
  }

  datatype Result<+R, +E> = Success(value: R) | Failure(error: E)
}
